=== FILE: README.md ===
# Slot machine outcome engine, in Dafny

This project models the outcome engine of the `SlotMachine` class in
`slot-machine.js`, a browser slot machine. The model covers:

- **Line evaluation**: the left-anchored match with wild substitution, and the
  payout of one payline with its multiplier table and cent rounding.
- **Settlement of a stopped spin**: the scatter count, the scatter pay, the
  free-spin award and re-trigger, the line pays, and the end-of-spin
  bookkeeping.
- **The session guards**: the spin button, bet steps and payline steps, with
  money held in integer cents.
- **Payline geometry**: every line shape of a `reels` x `rows` grid, and the
  line colours.
- **The sampling model**: normalising the catalog probabilities, win-rate
  adjusted weights, and the cumulative walk that turns a uniform draw into a
  symbol.
- **Reel strip generation**: the first reel takes independent draws; later
  reels may copy their left neighbour under the win rate.
- **The grid projection**: shared by the grid update and the renderer of a
  stopped reel.
- **One reel's animation**: the spinning, easing, settling and stopped phases,
  advanced by ticks and by the easing timer.

All randomness enters as data.

- A draw stream `Draws = nat -> real` comes with a cursor. Every operation that
  would call `Math.random` reads the next draws and returns the advanced cursor.
- Where the engine calls `getBasicRandomSymbol` from another operation, the
  model takes the sampler as a parameter `Sampler = real -> Cell`.
  `Strips.CatalogSampler` is the catalog's own sampler.

JavaScript arithmetic is written out in `Numeric`:

- `JsRem` is the truncating `%` on integers.
- `RealRem` is `%` on numbers.
- `RoundDiv` is `Math.round` of a quotient.
- `Floor` and `Ceil` are `Math.floor` and `Math.ceil`.

Probabilities and reel offsets are `real`.

The win rate is a whole percentage (`Tuning.winRate: int`), since
`changeWinRate` parses it as an integer. The engine's
thresholds on the normalised rate therefore fall on integers. "At least
99.5%" is a win rate of 100, and "above 1%" is a win rate of 2 or more
(`Strips.InfluenceOf`).

Modules, one per file:

| file | module | models |
|---|---|---|
| numeric.dfy | Numeric | JavaScript `%`, `Math.round`, `Math.floor`, `Math.ceil`; small arithmetic facts |
| symbols.dfy | Symbols | `Symbol = Regular(id, value) \| Wild \| Scatter`, catalog entries, the classic theme |
| paylines.dfy | Paylines | `generatePaylines`, `getPaylineColor` |
| line_eval.dfy | LineEval | `symbolsMatch`, `findBestMatchFromLeft`, `checkPayline` |
| probability.dfy | Probability | `normalizeSymbolProbabilities`, `getBasicRandomSymbol` |
| strips.dfy | Strips | `getSymbolWithHorizontalInfluence`, `generateReelStrips` |
| grid.dfy | Grid | `updateGridFromReels` and the stopped branch of `drawReel` |
| session.dfy | Session | `spin`, `changeBet`, `changePaylines`, `countScatterSymbols`, `checkWin`, the end of `animate` |
| reel.dfy | Reels | `startReelEasing`, the per-reel part of `animate`, the reel set-up in `spin` |

Behaviour modelled as written, though it looks unintended:

- **Whole-dollar rounding in free spins.** During free spins the 1.25
  multiplier goes through `Math.round` on a dollar amount. Scatter and line
  pays are therefore rounded to whole dollars, not cents.
  `Session.FreeSpinPay` states the rounding. `Session.FreeSpinPayDropsSmallWins`
  shows that a line win under 40 cents pays nothing during free spins.
- **Spin guard and decrement use different tests.** The guard admits a free
  spin when `freeSpinsCount > 0`. The decrement after it fires when
  `freeSpinsCount >= 0`. So in free-spin mode with 0 spins left, a paid spin is
  taken and the count drops to -1 (`Session.PaidSpinInFreeModeGoesNegative`).
  That state is never reached at rest, because a completed spin leaves
  free-spin mode when no spins remain (`Session.SpinKeepsValid`,
  `Session.EndSpin`).
- **The backward carry steps the wrong way.** The easing branch's carry loop
  for a negative offset steps the position the same way as the forward carry.
  `Reels.CarryBack` models it so. Under `Reels.Valid` the offset is never
  negative there, so the loop never runs.
- **Duplicate ids collapse.** The sampler looks the selected entry up again by
  id. With two entries sharing an id, the first one is returned
  (`Probability.BasicSymbol`).

## Model

| member | source | states |
|---|---|---|
| Numeric.JsRem | slot-machine.js:592 | the JavaScript remainder: equal to the Euclidean one for a non-negative dividend, in `(-n, 0]` for a negative one, and always a whole multiple of `n` away from the dividend |
| Numeric.RealRem | slot-machine.js:1848-1849 | the JavaScript `%` on numbers: a whole number of divisors away from the dividend, with the sign of the dividend and magnitude below the divisor; the dividend itself when already below the divisor, one divisor less between one and two divisors |
| Numeric.RoundDiv | slot-machine.js:2800 | `Math.round(n / d)` rounds halves up: `2rd <= 2n + d < 2(r+1)d` |
| Symbols.FirstWithId | slot-machine.js:494-495 | the index of the FIRST entry with the symbol's id, none exactly when no entry has it |
| Symbols.ClassicHasUniqueIds | slot-machine.js:91-99 | the classic theme has no two entries with one id |
| Paylines.PaylineColor | slot-machine.js:1356-1362 | a line's colour is taken from the 12-colour palette |
| Paylines.PaylineColorCycle | slot-machine.js:1356-1362 | colours repeat with period 12 and are distinct within a period |
| Paylines.NatToString | slot-machine.js:868 | the row number in a line id is written in decimal: digits whose value is the number, with no leading zero, a single digit below 10 |
| Paylines.Horizontals | slot-machine.js:861-874 | `horizontal_r` lies on row `r` across every reel, one per row |
| Paylines.Diagonals | slot-machine.js:876-907 | every diagonal is at least 3 cells long, no longer than the grid is wide, with cell `k` on reel `k` and inside the grid's rows |
| Paylines.VShapes | slot-machine.js:909-951 | every V shape is at least 3 cells long, no longer than the grid is wide, with cell `k` on reel `k` and inside the grid's rows |
| Paylines.Zigzags | slot-machine.js:953-992 | every zigzag is at least 3 cells long, no longer than the grid is wide, with cell `k` on reel `k` and inside the grid's rows |
| Paylines.Letters | slot-machine.js:994-1068 | every M, W and arrow line is at least 3 cells long, no longer than the grid is wide, with cell `k` on reel `k` and inside the grid's rows |
| Paylines.MidM | slot-machine.js:1070-1089 | the middle M is at least 3 cells long, no longer than the grid is wide, with cell `k` on reel `k` and inside the grid's rows |
| Paylines.SquareWaves | slot-machine.js:1091-1123 | every square wave is at least 3 cells long, no longer than the grid is wide, with cell `k` on reel `k` and inside the grid's rows |
| Paylines.Figures | slot-machine.js:1125-1351 | every figure line (steps, crowns, waves, L shapes, bridges, peak, valley) is at least 3 cells long, no longer than the grid is wide, with cell `k` on reel `k` and inside the grid's rows |
| Paylines.ExtraShapes | slot-machine.js:876-1351 | every non-horizontal shape has at least 3 and at most `reels` positions, cell `k` on reel `k` and inside the grid's rows |
| Paylines.GeneratePaylines | slot-machine.js:857-1354 | the first `rows` lines are the horizontals; line `i` has colour `palette[i mod 12]`; every line has at most `reels` positions, position `k` on reel `k` and a valid row; non-horizontal lines have 3+ positions |
| Paylines.ClassicGridHas28Lines | slot-machine.js:857-1354 | the 5 x 3 grid has 28 paylines |
| LineEval.SymbolsMatchFacts | slot-machine.js:2601-2609 | matching is symmetric, and against a regular target it is the run-extension test of the line scan |
| LineEval.Scan | slot-machine.js:2694-2705 | the run is the longest prefix of symbols with the target's id or wild; the wild count is the wilds in that prefix |
| LineEval.FirstRegularFrom | slot-machine.js:2670-2675 | the first later symbol that is neither wild nor scatter |
| LineEval.BestRegular | slot-machine.js:2679-2687 | the highest-valued regular symbol with value above 0, the earliest on ties; none exactly when no such symbol exists |
| LineEval.FindBestMatchFromLeft | slot-machine.js:2651-2731 | a scatter in front gives no match; a regular symbol in front is the target; a wild in front takes the first later regular symbol, else the best catalog symbol; count and wilds are the prefix run |
| LineEval.DoubleMultiplier | slot-machine.js:2786-2793 | twice the length multiplier: 2, 6, 10 or 16 for runs of at most 3, 4, 5 and 6 or more without a wild, and 3, 9, 15 or 24 with one |
| LineEval.MultiplierMonotone | slot-machine.js:2786-2789 | a longer run never earns a smaller multiplier |
| LineEval.WildBonus | slot-machine.js:2791-2793 | a wild in the run multiplies the multiplier by exactly 1.5 |
| LineEval.LinePay | slot-machine.js:2797-2800 | the pay is value x multiplier x bet rounded half up to the cent whenever that is at least half a cent, and 1 cent (the floor) otherwise |
| LineEval.Collect | slot-machine.js:2740-2750 | the symbols under the line exist exactly when every position is inside the grid, and are the grid cells in line order |
| LineEval.GeneratedLinesCollect | slot-machine.js:857-1354 | every generated payline lies inside its `rows` x `reels` grid, so the scan always finds a symbol under each of its positions |
| LineEval.CheckPayline | slot-machine.js:2733-2808 | zero for an empty grid, an off-grid position or a short line; positive exactly when the best match has a positive-value target and reaches the minimum length, and then the pay of that match |
| Probability.WithRarities | slot-machine.js:494-498 | only the first wild and first scatter get the rarity weights; nothing else changes |
| Probability.TierCount | slot-machine.js:504-513 | a tier's size is 0 exactly when no entry is in it |
| Probability.FallbackTier | slot-machine.js:504-513 | the first non-empty tier in the order paying regular, regular, paying, all; none only for an empty catalog |
| Probability.Uniform | slot-machine.js:515-523 | `1/n` on the tier's entries and 0 on all others |
| Probability.Scale | slot-machine.js:543-548 | every weight divided by the total |
| Probability.Normalize | slot-machine.js:492-554 | symbols are unchanged; a positive total is divided out; otherwise the chosen tier is uniform; a non-empty catalog sums to 1 |
| Probability.ScaledRecovers | slot-machine.js:543-548 | the normalised weights times the total give back the weights |
| Probability.ScaledSumsToOne | slot-machine.js:543-548 | dividing by a positive total makes the weights sum to 1 |
| Probability.UniformSumsToOne | slot-machine.js:515-524 | the uniform fallback sums to 1 |
| Probability.FactorsMonotone | slot-machine.js:1627-1656 | wild and scatter multipliers never fall as the win rate rises; the regular multiplier never rises |
| Probability.Weight | slot-machine.js:1624-1658 | wild and scatter weights are rarity times multiplier; regular weights are probability times multiplier; every weight is at least 0.00001 |
| Probability.Weights | slot-machine.js:1621-1659 | one adjusted weight per entry, each positive |
| Probability.WeightsTotalPositive | slot-machine.js:1662-1664 | the adjusted weights total at least 0.00001 per entry, so a non-empty catalog never takes the zero-total fallback |
| Probability.Walk | slot-machine.js:1674-1688 | the walk stops at the first index whose cumulative share reaches the draw, else falls back to the last index |
| Probability.Pick | slot-machine.js:1674-1688 | the selected index is valid; every earlier band ends below the draw; unless it is the last index, its band reaches the draw |
| Probability.PickIsBand | slot-machine.js:1674-1683 | for a draw in [0, 1] the selected band contains the draw and no fallback is taken |
| Probability.BasicSymbol | slot-machine.js:1619-1689 | a catalog symbol with the id of the entry the walk selects, that entry itself when ids are unique; missing exactly for an empty catalog |
| Strips.WildCell | slot-machine.js:3027 | a wild symbol of the catalog; missing exactly when the catalog has no wild |
| Strips.MatchChance | slot-machine.js:3011-3023 | the match chance is 0.0001 at a win rate of at most 0.5%, 0.9999 from 99.5%, and in between `0.8 wrn^2 + 0.1 wrn` clamped to [0.001, 0.98]: the value itself when it lies in that range, otherwise the nearer bound |
| Strips.MatchChanceMonotone | slot-machine.js:3011-3023 | a higher win rate never lowers the match chance |
| Strips.InfluenceOf | slot-machine.js:3000-3033 | influence applies exactly at a positive win rate; the forced-wild draw exists exactly from 100% and its threshold is `(wildRarity + 0.1) x 2.5`; a match can turn wild exactly above 1%, with chance `wildRarity x (0.1 + 1.9 wrn)`; the match chance is `MatchChance(wrn)` |
| Strips.MatchCursor | slot-machine.js:3013-3018 | the match draw comes one draw later exactly when the forced-wild draw is taken first |
| Strips.OnMatch | slot-machine.js:3025-3039 | a match yields the left symbol or the wild using at most two more draws; a forced draw under the wild threshold yields the wild; otherwise, above a 1% win rate, the draw after the match draw yields the wild below the wild chance and the left symbol at or above it; at 1% or less the left symbol is copied |
| Strips.Influenced | slot-machine.js:2999-3044 | a cell is neighbourly to its left cell (a copy, the wild, or an independent draw) using 1 to 3 draws; without a positive win rate or an eligible left cell it is exactly one independent draw; when the match draw fails it is the independent draw that follows it, and the cursor moves past both |
| Strips.MatchKeepsLine | slot-machine.js:3025-3039 | a successful match next to an eligible cell yields that symbol or the wild |
| Strips.BasicStrip | slot-machine.js:467-471 | `len` cells using `len` draws; cell `i` is the sampler applied to draw `c + i` |
| Strips.InfluencedStrip | slot-machine.js:474-481 | `len` cells using between `len` and `3 len` draws |
| Strips.InfluencedStripNeighbourly | slot-machine.js:474-481 | each cell is neighbourly to the cell at the same index on the reel to its left |
| Strips.InfluencedStripAtZeroRate | slot-machine.js:3000 | without influence an influenced strip uses `len` draws and is a strip of independent draws |
| Strips.StrideIsProduct | slot-machine.js:466-482 | the draws of `k` strips of `len` independent cells add up to `k len` |
| Strips.Reels | slot-machine.js:464-486 | `reels` strips of `len` cells each; the first reel is a strip of independent draws |
| Strips.ReelsCursor | slot-machine.js:464-486 | in randomize mode or without influence, the reels use exactly one draw per cell |
| Strips.ReelsIndependent | slot-machine.js:467-477 | in randomize mode or without influence, reel `k` is a strip of independent draws starting at draw `c + k len` |
| Strips.AllIndependentSnoc | slot-machine.js:466-482 | appending a strip of independent draws that starts where the earlier reels stopped keeps every reel independent |
| Strips.ReelsNeighbourly | slot-machine.js:473-481 | every later reel is neighbourly to the reel on its left |
| Strips.ReelsFromCatalog | slot-machine.js:464-486 | every cell is missing or a catalog symbol |
| Strips.CatalogSampler | slot-machine.js:1619-1689 | the sampler draws catalog symbols |
| Strips.GenerateReelStrips | slot-machine.js:455-490 | the strip length is `max(reelStripLength, 32)`; the catalog is normalised first and sums to 1; the strips have that shape |
| Strips.StripsFromCatalog | slot-machine.js:455-490 | generated strips hold only symbols of the theme |
| Strips.StripsIndependent | slot-machine.js:467-471 | in randomize mode or at a win rate of 0 every generated cell is an independent draw |
| Strips.StripsNeighbourly | slot-machine.js:473-481 | generated later reels are neighbourly to the reel on their left |
| Grid.StripIndex | slot-machine.js:592-595 | the shown index is `(pos + row) mod L` for a non-negative sum, and 0 for a negative one |
| Grid.StoppedColumn | slot-machine.js:1526-1545 | the stopped renderer shows, row by row, the strip cell at `StripIndex(pos, r, L)` or, where that cell is missing, a draw that it writes back into the strip; stored symbols and cells outside the window are kept; a full window is shown as stored and costs no draw |
| Grid.DrawStopped | slot-machine.js:2011-2013 | drawing every stopped reel shows each window cell or a draw stored back at that index, keeps stored symbols and cells outside the windows, and draws nothing over full windows |
| Grid.ShowCell | slot-machine.js:597-615 | a stored symbol is shown unchanged; a missing one is the next draw, written back into the strip |
| Grid.UpdateGridFromReels | slot-machine.js:576-616 | the grid is `rows` x `reels`; each cell shows its strip cell or a draw stored back at that index; stored symbols are kept; cells outside the windows are untouched; with full windows nothing is drawn |
| Grid.ShowStopped | slot-machine.js:1937-1945 | on the last frame the stopped reels are drawn first and the grid is then built from the repaired strips: every grid cell is a symbol equal to what the renderer drew there, the update consumes no draw, and over full windows nothing changes |
| Grid.DrawnWindowsFilled | slot-machine.js:1537-1545 | with a sampler that always yields a symbol, the renderer draws no empty cell and leaves every window filled |
| Grid.GridShowsDrawn | slot-machine.js:597-615 | a grid built over windows the renderer filled shows in each cell what the renderer drew |
| Grid.UpdatedWindowsFilled | slot-machine.js:604-611 | with a sampler that always yields a symbol, no grid cell and no window cell is missing after the update |
| Grid.FilledGridIsStable | slot-machine.js:1529-1535 | a second update over full windows shows the grid already shown |
| Session.Start | slot-machine.js:5-9 | a fresh session is valid, at rest and outside free spins |
| Session.Spin | slot-machine.js:1716-1757 | no change while spinning; a free spin charges nothing and uses one spin; a paid spin charges exactly `bet x lines`, or is refused with nothing changed |
| Session.ChangeBet | slot-machine.js:2908-2921 | the bet moves by `delta` steps exactly when not spinning and the result is in `[MinBet, MaxBet]`; nothing else changes |
| Session.ChangePaylines | slot-machine.js:2923-2933 | the payline count moves by `delta` exactly when not spinning and the result is in `[1, maxPaylines]`; nothing else changes |
| Session.ChangeBetUndo | slot-machine.js:2913-2915 | a bet step that was taken is undone by the opposite step |
| Session.ChangePaylinesUndo | slot-machine.js:2927-2929 | a payline step that was taken is undone by the opposite step |
| Session.Window | slot-machine.js:2348-2352 | the window holds exactly the cells of rows below `rows` and reels below `reels` that the grid has |
| Session.NoScatterIffZero | slot-machine.js:2344-2357 | the scatter count is 0 exactly when no window cell is a scatter |
| Session.RowScatters | slot-machine.js:2349-2353 | the scatters among a row's first cells, as a multiset count |
| Session.CountScatterSymbols | slot-machine.js:2344-2357 | the nested counting loop yields the number of scatters in the window |
| Session.CountRowScatters | slot-machine.js:2349-2353 | the inner loop yields the scatters among the first `reels` cells of the row, capped by the row length |
| Session.FreeSpinsFor | slot-machine.js:2450-2455 | spins are awarded exactly from 3 scatters: 10, plus 5 per scatter beyond 3 |
| Session.FreeSpinPay | slot-machine.js:2444-2446 | the 1.25 free-spin multiplier rounds to whole dollars, within half a dollar of the exact amount |
| Session.FreeSpinPayDropsSmallWins | slot-machine.js:2496-2498 | a win under 40 cents pays nothing during free spins |
| Session.ScatterPay | slot-machine.js:2442-2447 | nothing below 2 scatters; otherwise count times stake, rounded by the free-spin rule during free spins |
| Session.Payouts | slot-machine.js:2492-2494 | the payout of every payline by `checkPayline`, none negative |
| Session.Settled | slot-machine.js:2495-2498 | a line pay is kept outside free spins and rounded to whole dollars during them |
| Session.LineWins | slot-machine.js:2490-2503 | the line total is 0 exactly when no active line pays after settlement; it is whole dollars during free spins |
| Session.PayingLines | slot-machine.js:2490-2503 | the paying lines are exactly the active lines with positive payout, in increasing order |
| Session.CheckWin | slot-machine.js:2430-2507 | scatter pay uses the free-spin state from before the trigger; 3+ scatters start or extend the feature, resetting counters only when starting; line pays use the state after the trigger; a positive total is credited |
| Session.CompleteSpin | slot-machine.js:1947-1968 | the spin ends, and free-spin mode ends exactly when no free spins are left |
| Session.EndSpin | slot-machine.js:1942-1968 | the spin is over; the positive part of the win is credited; bet and paylines are kept; the awarded free spins are added; from a valid session the result is valid, the balance never falls, and free-spin mode is on exactly when spins are left |
| Session.StakePositive | slot-machine.js:1727 | a valid session stakes at least the minimum bet |
| Session.ScatterPayNonNegative | slot-machine.js:2442-2447 | the scatter pay is never negative |
| Session.SpinKeepsValid | slot-machine.js:1716-1757 | a spin keeps the session valid; free spins never charge; a spin taken outside free spins charges the stake |
| Session.ChangesKeepValid | slot-machine.js:2908-2933 | bet and payline steps keep the session valid |
| Session.PaidSpinInFreeModeGoesNegative | slot-machine.js:1723-1756 | in free-spin mode with no spins left, a spin is charged and the count becomes -1; such a state is not valid |
| Session.TopRowCollects | slot-machine.js:2740-2750 | the top horizontal line reads the top row of the grid, in reel order |
| Session.CherryRun | slot-machine.js:2694-2705 | cherry x3 then lemon x2 is a run of 3 cherries with no wild |
| Session.WildCherryRun | slot-machine.js:2667-2706 | wild, cherry x2, lemon x2 is a run of 3 cherries using one wild |
| Session.ThreeCherriesPayFive | slot-machine.js:2783-2804 | cherry x3 then lemon x2 at a $1.00 bet pays $5.00 |
| Session.WildAndCherriesPaySevenFifty | slot-machine.js:2667-2706 | wild then cherry x2 counts 3 with one wild and pays $7.50 at a $1.00 bet |
| Session.FourScattersAwardFifteen | slot-machine.js:2450-2455 | 4 scatters award 15 free spins |
| Reels.Direction | slot-machine.js:1835 | the sign of the reel speed, else of the configured speed, else forward |
| Reels.StepPos | slot-machine.js:1836-1840 | one step keeps the position on the strip: `(p + 1) mod L` forward, `(p - 1) mod L` backward |
| Reels.AdvanceForward | slot-machine.js:1833-1841 | `n` forward steps add `n` modulo the strip length |
| Reels.AdvanceBackward | slot-machine.js:1833-1841 | `n` backward steps subtract `n` modulo the strip length |
| Reels.RowsIsProduct | slot-machine.js:1833-1834 | adding the row height `n` times is `n` times the row height |
| Reels.CarryForward | slot-machine.js:1833-1841 | the carry loop leaves less than a row; the rows removed equal the steps taken |
| Reels.CarryBack | slot-machine.js:1902-1909 | the negative-offset loop leaves a non-negative offset below a row; the rows added equal the steps taken |
| Reels.ScrollForward | slot-machine.js:1829-1841 | the spinning branch's scroll: whole rows carried forward only, leaving the offset below a row, not negative when the scrolled offset is not, and the position on the strip; an offset below a row is only moved |
| Reels.Scroll | slot-machine.js:1890-1909 | the easing branch's scroll: the offset ends within one row, the position stays on the strip, and an offset already within a row is only moved, with nothing carried |
| Reels.VisualPosition | slot-machine.js:1847-1865 | the wrapped visual position lies in `[0, L)`; for an offset within a row it is the top index plus (forward) or minus (backward) the scrolled fraction of a row, moved up by `L` when that is negative |
| Reels.SettleTarget | slot-machine.js:1867-1873 | the target is the visual position rounded up (forward) or down (backward), wrapped into `[0, L)` |
| Reels.SettleOffset | slot-machine.js:1877-1884 | the settling offset is the pixel distance to the target, taken the short way round, within half a strip |
| Reels.HalfStrip | slot-machine.js:1879 | half the strip height in pixels, positive |
| Reels.EnterSettling | slot-machine.js:1851-1887 | the reel starts settling at a target on the strip, positioned at the target, with the offset within half a strip |
| Reels.Tick | slot-machine.js:1822-1931 | spinning stays spinning and only scrolls forward; easing becomes settling exactly when the decayed factor falls below 0.15, either keeping the decayed factor with the offset in a row or entering settling at a target on the strip; settling stops exactly when the offset is below 0.5, with offset 0 at the target, and otherwise scales the offset by 0.94 in place; stopped is unchanged; the speed is kept |
| Reels.StartEasing | slot-machine.js:1799-1803 | only a spinning reel starts easing |
| Reels.StartSpin | slot-machine.js:1760-1763 | a spin sets the reel spinning with the easing factor reset and a speed of the configured speed plus up to 5 for a draw in `[0, 1)`; the place on the strip is kept; a valid stopped reel becomes a valid spinning reel with zero offset |
| Reels.TickKeepsValid | slot-machine.js:1822-1931 | a tick keeps a reel valid and moves it at most one phase along spinning, easing, settling, stopped |
| Reels.SettlingShrinks | slot-machine.js:1921-1922 | a settling tick shrinks the offset toward 0 without crossing it |
| Reels.EasingTimerKeepsValid | slot-machine.js:1799-1803 | the easing timer keeps a reel valid |
| Reels.SpinningTickScrolls | slot-machine.js:1829-1841 | a spinning tick from a non-negative offset, in either direction, moves the reel by its absolute speed: `n` whole rows stepped into the position in the reel's direction, the rest into an offset below a row; spinning forward, the position advances by `n` modulo `L` |
| Reels.EasingTickScrolls | slot-machine.js:1843-1909 | an easing tick that keeps easing, from a non-negative offset, moves the reel by its absolute speed times the decayed easing factor: `n` whole rows stepped into the position in the reel's direction (wrapping modulo `L`), the rest into an offset below a row, and the reel is still easing |
| Reels.EaseScrollCarries | slot-machine.js:1889-1899 | the eased scroll, from a non-negative offset, splits the eased speed into `n` whole rows stepped in the reel's direction and a remaining offset |
| Reels.ForwardScrollCarries | slot-machine.js:1890-1900 | a scroll by a non-negative amount from a non-negative offset carries `n` whole rows into the position, stepped in the reel's direction, and keeps the rest in the offset; the backward loop does nothing |
| Reels.AnimateFrame | slot-machine.js:1822-1931 | every reel ticks, and the frame reports completion exactly when every reel has stopped |

## Left out

- Canvas drawing, audio, toasts, `updateDisplay`, fullscreen and touch handling
  are left out. They are presentation and browser I/O. The animated branch of
  `drawReel` is left out for the same reason.
- Timers are left out. The easing timer is the `Reels.StartEasing` event. The
  scheduled next free spin is a `Session.Spin` event.
- The draws of `Math.random` are inputs. No statistical claim is made about
  how often any symbol or win occurs.
- The other themes' catalogs are left out. They are static data; the classic
  theme stands in for them.
- `resetCoins`, `changeWinRate`, `changeSpinSpeed` and the rarity setters are
  left out. They only write settings that the model takes as inputs.
- The dead or unreferenced methods are left out: `checkWins`, `calculateWin`,
  `applyWinRateToNextReel`, `getRandomSymbolForStrip`,
  `generateIntelligentReelStrip`, `generateReelStrip`, `analyzeWinPotential`,
  `wouldCreateWin`, `adjustSymbolProbabilities` and `getWeightedRandomSymbol`.
- Floating-point rounding error is left out. Money is in exact integer cents,
  and probabilities and offsets are exact reals.
- Session.CheckWin: the grid it settles holds symbols only. A cell left empty
  by an empty catalog is not modelled there. The engine would skip such a cell
  in `findBestMatchFromLeft`.
- Session.CheckWin: `totalWildsUsed`, the big-win thresholds and the messages
  are left out. They only feed presentation.
- Grid.ShowStopped: requires a sampler that always yields a symbol, as the
  catalog sampler does for a non-empty catalog. With an empty catalog the
  renderer can leave a cell empty, and the grid update then draws again
  there; that case is not stated.
- Grid.UpdateGridFromReels: the reset of a non-numeric reel position to 0 and
  the flooring of positions are left out. Positions are integers in the model.
- Reels.Tick: the settling speed is the constant 0.06. `spin` always sets that
  value, so the `|| 0.06` default never applies.
- Reels.Tick: the stop sound check on entering settling is left out. It is
  audio.
- Probability.BasicSymbol: the zero-total fallback is left out.
  `Probability.WeightsTotalPositive` proves it unreachable for a non-empty
  catalog. An empty catalog yields a missing symbol.
- Paylines.Diagonals: states only that each line is well formed; the exact row pattern is table data that the body holds.
- Paylines.VShapes: states only that each line is well formed; the exact row pattern is table data that the body holds.
- Paylines.Zigzags: states only that each line is well formed; the exact row pattern is table data that the body holds.
- Paylines.Letters: states only that each line is well formed; the exact row pattern is table data that the body holds.
- Paylines.MidM: states only that each line is well formed; the exact row pattern is table data that the body holds.
- Paylines.SquareWaves: states only that each line is well formed; the exact row pattern is table data that the body holds.
- Paylines.Figures: states only that each line is well formed; the exact row pattern is table data that the body holds.
- Session.LineWins: the contract states when the total is 0 and the
  whole-dollar rounding in free spins. It does not state the total as a sum.

=== FILE: grid.dfy ===
/** The visible grid: projecting the reel strips through the reel positions.
    Row `r` of reel `k` shows strip cell `(position + r) % length` (the
    JavaScript remainder, clamped at 0). A missing cell is repaired with a
    new draw, which is also written back into the strip. The renderer of a
    stopped reel runs the same projection and the same repair; on the last
    frame of a spin it runs before the grid is built, so the grid shows what
    was drawn. */
module Grid {
  import opened Numeric
  import opened Symbols
  import opened Strips

  /** The strip index shown in row `row` of a reel at `pos`: the JavaScript
      `(pos + row) % len`, clamped to 0 when that remainder is negative. */
  function StripIndex(pos: int, row: nat, len: nat): (i: nat)
    requires len > 0
    ensures i < len
    ensures pos + row >= 0 ==> i == (pos + row) % len
    ensures pos + row < 0 ==> i == 0
  {
    var m := Max(0, JsRem(pos + row, len));
    m
  }

  /** Some row below `upto` shows strip index `j` of a reel at `pos`. */
  predicate Visited(pos: int, upto: nat, len: nat, j: nat)
    requires len > 0
  {
    exists r :: 0 <= r < upto && StripIndex(pos, r, len) == j
  }

  /** `x` is the sampler's cell for one of the draws in `[lo, hi)`. */
  predicate Sampled(basic: Sampler, draws: Draws, lo: nat, hi: nat, x: Cell)
  {
    exists d :: lo <= d < hi && x == basic(draws(d))
  }

  lemma SampledWiden(basic: Sampler, draws: Draws, lo: nat, hi: nat, hi': nat, x: Cell)
    requires hi <= hi' && Sampled(basic, draws, lo, hi, x)
    ensures Sampled(basic, draws, lo, hi', x)
  {
  }

  /** A sampler that always yields a symbol only ever yields symbols. */
  lemma SampledIsSome(basic: Sampler, draws: Draws, lo: nat, hi: nat, x: Cell)
    requires forall u :: basic(u).Some?
    requires Sampled(basic, draws, lo, hi, x)
    ensures x.Some?
  {
    var d :| lo <= d < hi && x == basic(draws(d));
    var u: real := draws(d);
    assert basic(u).Some?;
  }

  /** What a grid cell shows for the strip cell `orig`: the symbol itself
      when there is one, otherwise a new draw. */
  predicate Fetched(orig: Cell, shown: Cell, basic: Sampler, draws: Draws, lo: nat, hi: nat)
  {
    (orig.Some? ==> shown == orig) && (orig.None? ==> Sampled(basic, draws, lo, hi, shown))
  }

  /** Every window cell of every reel holds a symbol. */
  predicate WindowsFilled(strips: seq<seq<Cell>>, positions: seq<int>, rows: nat, len: nat)
    requires len > 0 && |positions| == |strips| && forall k :: 0 <= k < |strips| ==> |strips[k]| == len
  {
    forall k, r :: 0 <= k < |strips| && 0 <= r < rows ==> strips[k][StripIndex(positions[k], r, len)].Some?
  }

  predicate Shaped(strips: seq<seq<Cell>>, reels: nat, len: nat)
  {
    |strips| == reels && forall k :: 0 <= k < reels ==> |strips[k]| == len
  }

  /** Every cell of `cur` is the original cell or one of the draws
      `[c, next)`. */
  predicate Provenance(orig: seq<seq<Cell>>, cur: seq<seq<Cell>>, basic: Sampler, draws: Draws, c: nat, next: nat)
    requires |cur| == |orig| && forall k :: 0 <= k < |orig| ==> |cur[k]| == |orig[k]|
  {
    forall k, j :: 0 <= k < |orig| && 0 <= j < |orig[k]| ==>
      cur[k][j] == orig[k][j] || Sampled(basic, draws, c, next, cur[k][j])
  }

  /** `cur` keeps every symbol `orig` holds. */
  predicate KeepsSymbols(orig: seq<seq<Cell>>, cur: seq<seq<Cell>>)
    requires |cur| == |orig| && forall k :: 0 <= k < |orig| ==> |cur[k]| == |orig[k]|
  {
    forall k, j :: 0 <= k < |orig| && 0 <= j < |orig[k]| && orig[k][j].Some? ==> cur[k][j] == orig[k][j]
  }

  /** The cells `cur` changed lie in the first `rows` rows of the windows,
      and for reels before `k` also in row `rows`. */
  predicate ChangedOnlyInWindow(orig: seq<seq<Cell>>, cur: seq<seq<Cell>>, positions: seq<int>, len: nat, rows: nat, k: nat)
    requires len > 0 && |positions| == |orig| && Shaped(orig, |orig|, len) && Shaped(cur, |orig|, len)
  {
    forall kk, j :: 0 <= kk < |orig| && 0 <= j < len && !Visited(positions[kk], if kk < k then rows + 1 else rows, len, j) ==>
      cur[kk][j] == orig[kk][j]
  }

  /** Rows `0 .. rows-1` of `grid` show the original cells or draws. */
  predicate GridFetched(orig: seq<seq<Cell>>, positions: seq<int>, len: nat, grid: seq<seq<Cell>>, rows: nat,
                        basic: Sampler, draws: Draws, c: nat, next: nat)
    requires len > 0 && |positions| == |orig| && Shaped(orig, |orig|, len)
    requires rows <= |grid| && forall r :: 0 <= r < rows ==> |grid[r]| == |orig|
  {
    forall r, k :: 0 <= r < rows && 0 <= k < |orig| ==>
      Fetched(orig[k][StripIndex(positions[k], r, len)], grid[r][k], basic, draws, c, next)
  }

  /** Every symbol in rows `0 .. rows-1` of `grid` is stored in `cur`. */
  predicate GridStored(cur: seq<seq<Cell>>, positions: seq<int>, len: nat, grid: seq<seq<Cell>>, rows: nat)
    requires len > 0 && |positions| == |cur| && Shaped(cur, |cur|, len)
    requires rows <= |grid| && forall r :: 0 <= r < rows ==> |grid[r]| == |cur|
  {
    forall r, k :: 0 <= r < rows && 0 <= k < |cur| && grid[r][k].Some? ==>
      cur[k][StripIndex(positions[k], r, len)] == grid[r][k]
  }

  lemma FetchedWiden(orig: Cell, shown: Cell, basic: Sampler, draws: Draws, c: nat, next: nat, next': nat)
    requires next <= next' && Fetched(orig, shown, basic, draws, c, next)
    ensures Fetched(orig, shown, basic, draws, c, next')
  {
  }

  /** Shows row `r` of reel `k`: the stored cell when it holds a symbol,
      otherwise the next draw, which is written back into the strip. */
  method ShowCell(orig: seq<seq<Cell>>, cur: seq<seq<Cell>>, positions: seq<int>, len: nat, r: nat, k: nat,
                  basic: Sampler, draws: Draws, c: nat, next: nat)
    returns (cell: Cell, cur': seq<seq<Cell>>, next': nat)
    requires len > 0 && |positions| == |orig| && Shaped(orig, |orig|, len) && Shaped(cur, |orig|, len)
    requires k < |orig| && c <= next
    requires Provenance(orig, cur, basic, draws, c, next) && KeepsSymbols(orig, cur)
    ensures Shaped(cur', |orig|, len) && next <= next'
    ensures Provenance(orig, cur', basic, draws, c, next') && KeepsSymbols(orig, cur')
    ensures var idx := StripIndex(positions[k], r, len);
      && Fetched(orig[k][idx], cell, basic, draws, c, next')
      && (cell.Some? ==> cur'[k][idx] == cell)
      && cur' == cur[k := cur[k][idx := cur'[k][idx]]]
      && (cur[k][idx].Some? ==> cell == cur[k][idx] && cur' == cur && next' == next)
      && (cur[k][idx].None? ==> cell == basic(draws(next)) && next' == next + 1 &&
                                cur' == cur[k := cur[k][idx := cell]])
  {
    var idx := StripIndex(positions[k], r, len);
    cell, cur', next' := cur[k][idx], cur, next;
    if cell.None? {
      cell := basic(draws(next));
      assert Sampled(basic, draws, c, next + 1, cell);
      cur' := cur[k := cur[k][idx := cell]];
      next' := next + 1;
      forall kk, j | 0 <= kk < |orig| && 0 <= j < |orig[kk]|
        ensures cur'[kk][j] == orig[kk][j] || Sampled(basic, draws, c, next', cur'[kk][j])
      {
        if (kk != k || j != idx) && cur[kk][j] != orig[kk][j] {
          SampledWiden(basic, draws, c, next, next', cur[kk][j]);
        }
      }
    } else {
      assert cur[k][idx] == orig[k][idx] || Sampled(basic, draws, c, next, cur[k][idx]);
      assert cur[k][idx := cur[k][idx]] == cur[k];
      assert cur[k := cur[k]] == cur;
    }
  }

  /** Builds row `r` of the grid, reel by reel. */
  method FillRow(strips: seq<seq<Cell>>, cur: seq<seq<Cell>>, positions: seq<int>, len: nat, grid: seq<seq<Cell>>,
                 r: nat, rows: nat, basic: Sampler, draws: Draws, c: nat, next: nat)
    returns (row: seq<Cell>, cur': seq<seq<Cell>>, next': nat)
    requires len > 0 && |positions| == |strips| && Shaped(strips, |strips|, len) && Shaped(cur, |strips|, len)
    requires r == |grid| && r < rows && forall rr :: 0 <= rr < r ==> |grid[rr]| == |strips|
    requires c <= next
    requires GridFetched(strips, positions, len, grid, r, basic, draws, c, next)
    requires GridStored(cur, positions, len, grid, r)
    requires Provenance(strips, cur, basic, draws, c, next) && KeepsSymbols(strips, cur)
    requires ChangedOnlyInWindow(strips, cur, positions, len, r, 0)
    requires WindowsFilled(strips, positions, rows, len) ==> cur == strips && next == c
    ensures |row| == |strips| && Shaped(cur', |strips|, len) && next <= next'
    ensures GridFetched(strips, positions, len, grid + [row], r + 1, basic, draws, c, next')
    ensures GridStored(cur', positions, len, grid + [row], r + 1)
    ensures Provenance(strips, cur', basic, draws, c, next') && KeepsSymbols(strips, cur')
    ensures ChangedOnlyInWindow(strips, cur', positions, len, r + 1, 0)
    ensures WindowsFilled(strips, positions, rows, len) ==> cur' == strips && next' == c
  {
    var reels := |strips|;
    row, cur', next' := [], cur, next;
    var k := 0;
    while k < reels
      invariant 0 <= k <= reels && |row| == k
      invariant Shaped(cur', reels, len) && next <= next'
      invariant GridFetched(strips, positions, len, grid, r, basic, draws, c, next')
      invariant GridStored(cur', positions, len, grid, r)
      invariant forall kk :: 0 <= kk < k ==>
        Fetched(strips[kk][StripIndex(positions[kk], r, len)], row[kk], basic, draws, c, next')
      invariant forall kk :: 0 <= kk < k && row[kk].Some? ==>
        cur'[kk][StripIndex(positions[kk], r, len)] == row[kk]
      invariant Provenance(strips, cur', basic, draws, c, next') && KeepsSymbols(strips, cur')
      invariant ChangedOnlyInWindow(strips, cur', positions, len, r, k)
      invariant WindowsFilled(strips, positions, rows, len) ==> cur' == strips && next' == c
    {
      var prior, priorNext := cur', next';
      var cell;
      cell, cur', next' := ShowCell(strips, cur', positions, len, r, k, basic, draws, c, next');
      var idx := StripIndex(positions[k], r, len);
      assert Visited(positions[k], r + 1, len, idx);
      StepKeepsGrid(strips, prior, cur', positions, len, grid, r, k, idx, basic, draws, c, priorNext, next');
      forall kk | 0 <= kk < k
        ensures Fetched(strips[kk][StripIndex(positions[kk], r, len)], row[kk], basic, draws, c, next')
      {
        FetchedWiden(strips[kk][StripIndex(positions[kk], r, len)], row[kk], basic, draws, c, priorNext, next');
      }
      row := row + [cell];
      k := k + 1;
    }
    var g := grid + [row];
    assert forall rr, kk :: 0 <= rr < r && 0 <= kk < reels ==> g[rr][kk] == grid[rr][kk];
  }

  /** Builds the `rows` x `reels` grid from the strips, row by row, reel by
      reel, repairing each missing cell with the next draw and writing the
      repair back into the strip. */
  method UpdateGridFromReels(strips: seq<seq<Cell>>, positions: seq<int>, rows: nat, len: nat,
                             basic: Sampler, draws: Draws, c: nat)
    returns (grid: seq<seq<Cell>>, strips': seq<seq<Cell>>, next: nat)
    requires len > 0 && |positions| == |strips| && Shaped(strips, |strips|, len)
    ensures |grid| == rows && forall r :: 0 <= r < rows ==> |grid[r]| == |strips|
    ensures Shaped(strips', |strips|, len) && c <= next
    ensures forall r, k :: 0 <= r < rows && 0 <= k < |strips| ==>
      Fetched(strips[k][StripIndex(positions[k], r, len)], grid[r][k], basic, draws, c, next)
    ensures forall r, k :: 0 <= r < rows && 0 <= k < |strips| && grid[r][k].Some? ==>
      strips'[k][StripIndex(positions[k], r, len)] == grid[r][k]
    ensures forall k, j :: 0 <= k < |strips| && 0 <= j < len && strips[k][j].Some? ==> strips'[k][j] == strips[k][j]
    ensures forall k, j :: 0 <= k < |strips| && 0 <= j < len && !Visited(positions[k], rows, len, j) ==>
      strips'[k][j] == strips[k][j]
    ensures WindowsFilled(strips, positions, rows, len) ==> strips' == strips && next == c
  {
    var reels := |strips|;
    grid, strips', next := [], strips, c;
    var r := 0;
    while r < rows
      invariant 0 <= r <= rows && |grid| == r
      invariant forall rr :: 0 <= rr < r ==> |grid[rr]| == reels
      invariant Shaped(strips', reels, len) && c <= next
      invariant GridFetched(strips, positions, len, grid, r, basic, draws, c, next)
      invariant GridStored(strips', positions, len, grid, r)
      invariant Provenance(strips, strips', basic, draws, c, next) && KeepsSymbols(strips, strips')
      invariant ChangedOnlyInWindow(strips, strips', positions, len, r, 0)
      invariant WindowsFilled(strips, positions, rows, len) ==> strips' == strips && next == c
    {
      var row;
      row, strips', next := FillRow(strips, strips', positions, len, grid, r, rows, basic, draws, c, next);
      grid := grid + [row];
      r := r + 1;
    }
  }

  /** Draws one stopped reel at `pos`, row by row: the strip cell when it
      holds a symbol, otherwise the next draw, which is written back into
      the strip. A single reel's rows are visited in the order the grid
      update visits them, so the update's construction over the one-reel
      strip list is exactly this renderer. */
  method StoppedColumn(strip: seq<Cell>, pos: int, rows: nat, basic: Sampler, draws: Draws, c: nat)
    returns (col: seq<Cell>, strip': seq<Cell>, next: nat)
    requires |strip| > 0
    ensures |col| == rows && |strip'| == |strip| && c <= next
    ensures forall r :: 0 <= r < rows ==> Fetched(strip[StripIndex(pos, r, |strip|)], col[r], basic, draws, c, next)
    ensures forall r :: 0 <= r < rows && col[r].Some? ==> strip'[StripIndex(pos, r, |strip|)] == col[r]
    ensures forall j :: 0 <= j < |strip| && strip[j].Some? ==> strip'[j] == strip[j]
    ensures forall j :: 0 <= j < |strip| && !Visited(pos, rows, |strip|, j) ==> strip'[j] == strip[j]
    ensures (forall r :: 0 <= r < rows ==> strip[StripIndex(pos, r, |strip|)].Some?) ==> strip' == strip && next == c
  {
    var grid, strips';
    grid, strips', next := UpdateGridFromReels([strip], [pos], rows, |strip|, basic, draws, c);
    col := seq(rows, r requires 0 <= r < rows => grid[r][0]);
    strip' := strips'[0];
    if forall r :: 0 <= r < rows ==> strip[StripIndex(pos, r, |strip|)].Some? {
      assert WindowsFilled([strip], [pos], rows, |strip|);
    }
  }

  /** The first `k` reels have been drawn into `columns`: each shown cell is
      the stored symbol or a draw from `[c, next)`, each draw is written back,
      and the reels not yet reached, the stored symbols and the cells outside
      every window are untouched. */
  predicate DrawnUpTo(strips: seq<seq<Cell>>, positions: seq<int>, rows: nat, len: nat,
                      basic: Sampler, draws: Draws, c: nat, k: nat,
                      columns: seq<seq<Cell>>, cur: seq<seq<Cell>>, next: nat)
    requires len > 0 && |positions| == |strips| && Shaped(strips, |strips|, len) && k <= |strips|
  {
    && |columns| == k && c <= next && Shaped(cur, |strips|, len)
    && (forall kk :: 0 <= kk < k ==> |columns[kk]| == rows)
    && (forall kk :: k <= kk < |strips| ==> cur[kk] == strips[kk])
    && (forall kk, r :: 0 <= kk < k && 0 <= r < rows ==>
         Fetched(strips[kk][StripIndex(positions[kk], r, len)], columns[kk][r], basic, draws, c, next))
    && (forall kk, r :: 0 <= kk < k && 0 <= r < rows && columns[kk][r].Some? ==>
         cur[kk][StripIndex(positions[kk], r, len)] == columns[kk][r])
    && (forall kk, j :: 0 <= kk < |strips| && 0 <= j < len && strips[kk][j].Some? ==> cur[kk][j] == strips[kk][j])
    && (forall kk, j :: 0 <= kk < |strips| && 0 <= j < len && !Visited(positions[kk], rows, len, j) ==>
         cur[kk][j] == strips[kk][j])
    && (WindowsFilled(strips, positions, rows, len) ==> cur == strips && next == c)
  }

  /** Drawing reel `k` with `StoppedColumn` extends the drawn prefix by one. */
  lemma DrawnStep(strips: seq<seq<Cell>>, positions: seq<int>, rows: nat, len: nat,
                  basic: Sampler, draws: Draws, c: nat, k: nat,
                  columns: seq<seq<Cell>>, cur: seq<seq<Cell>>, next: nat,
                  col: seq<Cell>, s: seq<Cell>, next': nat)
    requires len > 0 && |positions| == |strips| && Shaped(strips, |strips|, len) && k < |strips|
    requires DrawnUpTo(strips, positions, rows, len, basic, draws, c, k, columns, cur, next)
    requires |col| == rows && |s| == len && next <= next'
    requires forall r :: 0 <= r < rows ==>
      Fetched(strips[k][StripIndex(positions[k], r, len)], col[r], basic, draws, next, next')
    requires forall r :: 0 <= r < rows && col[r].Some? ==> s[StripIndex(positions[k], r, len)] == col[r]
    requires forall j :: 0 <= j < len && strips[k][j].Some? ==> s[j] == strips[k][j]
    requires forall j :: 0 <= j < len && !Visited(positions[k], rows, len, j) ==> s[j] == strips[k][j]
    requires (forall r :: 0 <= r < rows ==> strips[k][StripIndex(positions[k], r, len)].Some?) ==>
      s == strips[k] && next' == next
    ensures DrawnUpTo(strips, positions, rows, len, basic, draws, c, k + 1, columns + [col], cur[k := s], next')
  {
    var columns', cur' := columns + [col], cur[k := s];
    forall kk, r | 0 <= kk < k && 0 <= r < rows
      ensures Fetched(strips[kk][StripIndex(positions[kk], r, len)], columns'[kk][r], basic, draws, c, next')
    {
      FetchedWiden(strips[kk][StripIndex(positions[kk], r, len)], columns[kk][r], basic, draws, c, next, next');
    }
    forall r | 0 <= r < rows
      ensures Fetched(strips[k][StripIndex(positions[k], r, len)], columns'[k][r], basic, draws, c, next')
    {
      assert Fetched(strips[k][StripIndex(positions[k], r, len)], col[r], basic, draws, next, next');
    }
    if WindowsFilled(strips, positions, rows, len) {
      assert forall r :: 0 <= r < rows ==> strips[k][StripIndex(positions[k], r, len)].Some?;
      assert cur' == cur;
    }
  }

  /** Draws every stopped reel in turn, each repairing its own window. */
  method DrawStopped(strips: seq<seq<Cell>>, positions: seq<int>, rows: nat, len: nat,
                     basic: Sampler, draws: Draws, c: nat)
    returns (columns: seq<seq<Cell>>, strips': seq<seq<Cell>>, next: nat)
    requires len > 0 && |positions| == |strips| && Shaped(strips, |strips|, len)
    ensures |columns| == |strips| && Shaped(strips', |strips|, len) && c <= next
    ensures forall k :: 0 <= k < |strips| ==> |columns[k]| == rows
    ensures forall k, r :: 0 <= k < |strips| && 0 <= r < rows ==>
      Fetched(strips[k][StripIndex(positions[k], r, len)], columns[k][r], basic, draws, c, next)
    ensures forall k, r :: 0 <= k < |strips| && 0 <= r < rows && columns[k][r].Some? ==>
      strips'[k][StripIndex(positions[k], r, len)] == columns[k][r]
    ensures forall k, j :: 0 <= k < |strips| && 0 <= j < len && strips[k][j].Some? ==> strips'[k][j] == strips[k][j]
    ensures forall k, j :: 0 <= k < |strips| && 0 <= j < len && !Visited(positions[k], rows, len, j) ==>
      strips'[k][j] == strips[k][j]
    ensures WindowsFilled(strips, positions, rows, len) ==> strips' == strips && next == c
  {
    columns, strips', next := [], strips, c;
    var k := 0;
    while k < |strips|
      invariant k <= |strips|
      invariant DrawnUpTo(strips, positions, rows, len, basic, draws, c, k, columns, strips', next)
    {
      var col, s, next' := StoppedColumn(strips[k], positions[k], rows, basic, draws, next);
      DrawnStep(strips, positions, rows, len, basic, draws, c, k, columns, strips', next, col, s, next');
      columns, strips', next := columns + [col], strips'[k := s], next';
      k := k + 1;
    }
  }

  /** The last frame of a spin: the stopped reels are drawn first, repairing
      their windows, and the grid is then built from the repaired strips.
      With a sampler that always yields a symbol, the grid update finds every
      window filled, so it draws nothing, changes no strip, and shows in
      every cell exactly what the renderer drew there. */
  method ShowStopped(strips: seq<seq<Cell>>, positions: seq<int>, rows: nat, len: nat,
                     basic: Sampler, draws: Draws, c: nat)
    returns (columns: seq<seq<Cell>>, grid: seq<seq<Cell>>, strips': seq<seq<Cell>>, next: nat, after: nat)
    requires len > 0 && |positions| == |strips| && Shaped(strips, |strips|, len)
    requires forall u :: basic(u).Some?
    ensures |grid| == rows && |columns| == |strips| && Shaped(strips', |strips|, len) && c <= next
    ensures forall r :: 0 <= r < rows ==> |grid[r]| == |strips|
    ensures forall k :: 0 <= k < |strips| ==> |columns[k]| == rows
    ensures forall k, r :: 0 <= k < |strips| && 0 <= r < rows ==>
      Fetched(strips[k][StripIndex(positions[k], r, len)], columns[k][r], basic, draws, c, next)
    ensures forall r, k :: 0 <= r < rows && 0 <= k < |strips| ==>
      grid[r][k].Some? && grid[r][k] == columns[k][r] && strips'[k][StripIndex(positions[k], r, len)] == grid[r][k]
    ensures forall k, j :: 0 <= k < |strips| && 0 <= j < len && strips[k][j].Some? ==> strips'[k][j] == strips[k][j]
    ensures after == next
    ensures WindowsFilled(strips, positions, rows, len) ==> strips' == strips && next == c
  {
    columns, strips', next := DrawStopped(strips, positions, rows, len, basic, draws, c);
    DrawnWindowsFilled(strips, strips', positions, rows, len, columns, basic, draws, c, next);
    var repaired := strips';
    grid, strips', after := UpdateGridFromReels(repaired, positions, rows, len, basic, draws, next);
    GridShowsDrawn(repaired, positions, rows, len, columns, grid, basic, draws, next, after);
  }

  /** With a sampler that always yields a symbol, the renderer draws no
      empty cell and leaves every window of the strips filled. */
  lemma DrawnWindowsFilled(strips: seq<seq<Cell>>, strips': seq<seq<Cell>>, positions: seq<int>, rows: nat, len: nat,
                           columns: seq<seq<Cell>>, basic: Sampler, draws: Draws, c: nat, next: nat)
    requires len > 0 && |positions| == |strips| && Shaped(strips, |strips|, len) && Shaped(strips', |strips|, len)
    requires forall u :: basic(u).Some?
    requires |columns| == |strips| && forall k :: 0 <= k < |strips| ==> |columns[k]| == rows
    requires forall k, r :: 0 <= k < |strips| && 0 <= r < rows ==>
      Fetched(strips[k][StripIndex(positions[k], r, len)], columns[k][r], basic, draws, c, next)
    requires forall k, r :: 0 <= k < |strips| && 0 <= r < rows && columns[k][r].Some? ==>
      strips'[k][StripIndex(positions[k], r, len)] == columns[k][r]
    ensures forall k, r :: 0 <= k < |strips| && 0 <= r < rows ==>
      columns[k][r].Some? && strips'[k][StripIndex(positions[k], r, len)] == columns[k][r]
    ensures WindowsFilled(strips', positions, rows, len)
  {
    forall k, r | 0 <= k < |strips| && 0 <= r < rows
      ensures columns[k][r].Some?
    {
      if strips[k][StripIndex(positions[k], r, len)].None? {
        SampledIsSome(basic, draws, c, next, columns[k][r]);
      }
    }
  }

  /** A grid built over windows the renderer filled shows, cell by cell,
      what the renderer drew. */
  lemma GridShowsDrawn(strips: seq<seq<Cell>>, positions: seq<int>, rows: nat, len: nat, columns: seq<seq<Cell>>,
                       grid: seq<seq<Cell>>, basic: Sampler, draws: Draws, c: nat, next: nat)
    requires len > 0 && |positions| == |strips| && Shaped(strips, |strips|, len)
    requires |columns| == |strips| && forall k :: 0 <= k < |strips| ==> |columns[k]| == rows
    requires forall k, r :: 0 <= k < |strips| && 0 <= r < rows ==>
      columns[k][r].Some? && strips[k][StripIndex(positions[k], r, len)] == columns[k][r]
    requires |grid| == rows && forall r :: 0 <= r < rows ==> |grid[r]| == |strips|
    requires forall r, k :: 0 <= r < rows && 0 <= k < |strips| ==>
      Fetched(strips[k][StripIndex(positions[k], r, len)], grid[r][k], basic, draws, c, next)
    ensures forall r, k :: 0 <= r < rows && 0 <= k < |strips| ==>
      grid[r][k].Some? && grid[r][k] == columns[k][r] && strips[k][StripIndex(positions[k], r, len)] == grid[r][k]
  {
    forall r, k | 0 <= r < rows && 0 <= k < |strips|
      ensures grid[r][k] == columns[k][r]
    {
      assert columns[k][r].Some? && strips[k][StripIndex(positions[k], r, len)] == columns[k][r];
      assert Fetched(strips[k][StripIndex(positions[k], r, len)], grid[r][k], basic, draws, c, next);
    }
    forall r, k | 0 <= r < rows && 0 <= k < |strips|
      ensures grid[r][k].Some?
    {
      assert columns[k][r].Some?;
    }
  }

  /** With a sampler that always yields a symbol, the grid holds no empty
      cell and neither does any window of the updated strips. */
  lemma UpdatedWindowsFilled(strips: seq<seq<Cell>>, strips': seq<seq<Cell>>, positions: seq<int>, rows: nat, len: nat,
                             grid: seq<seq<Cell>>, basic: Sampler, draws: Draws, c: nat, next: nat)
    requires len > 0 && |positions| == |strips| && Shaped(strips, |strips|, len) && Shaped(strips', |strips|, len)
    requires forall u :: basic(u).Some?
    requires |grid| == rows && forall r :: 0 <= r < rows ==> |grid[r]| == |strips|
    requires forall r, k :: 0 <= r < rows && 0 <= k < |strips| ==>
      Fetched(strips[k][StripIndex(positions[k], r, len)], grid[r][k], basic, draws, c, next)
    requires forall r, k :: 0 <= r < rows && 0 <= k < |strips| && grid[r][k].Some? ==>
      strips'[k][StripIndex(positions[k], r, len)] == grid[r][k]
    ensures forall r, k :: 0 <= r < rows && 0 <= k < |strips| ==> grid[r][k].Some?
    ensures WindowsFilled(strips', positions, rows, len)
  {
    forall r, k | 0 <= r < rows && 0 <= k < |strips|
      ensures grid[r][k].Some?
    {
      var orig := strips[k][StripIndex(positions[k], r, len)];
      assert Fetched(orig, grid[r][k], basic, draws, c, next);
      if orig.None? {
        SampledIsSome(basic, draws, c, next, grid[r][k]);
      }
    }
    forall k, r | 0 <= k < |strips| && 0 <= r < rows
      ensures strips'[k][StripIndex(positions[k], r, len)].Some?
    {
      assert grid[r][k].Some?;
    }
  }

  /** Building the grid from strips whose windows are filled reproduces the
      grid those strips store. */
  lemma FilledGridIsStable(strips: seq<seq<Cell>>, positions: seq<int>, rows: nat, len: nat,
                           grid: seq<seq<Cell>>, again: seq<seq<Cell>>, basic: Sampler, draws: Draws, c: nat, next: nat)
    requires len > 0 && |positions| == |strips| && Shaped(strips, |strips|, len)
    requires |grid| == rows && forall r :: 0 <= r < rows ==> |grid[r]| == |strips|
    requires |again| == rows && forall r :: 0 <= r < rows ==> |again[r]| == |strips|
    requires forall r, k :: 0 <= r < rows && 0 <= k < |strips| ==>
      grid[r][k].Some? && strips[k][StripIndex(positions[k], r, len)] == grid[r][k]
    requires forall r, k :: 0 <= r < rows && 0 <= k < |strips| ==>
      Fetched(strips[k][StripIndex(positions[k], r, len)], again[r][k], basic, draws, c, next)
    ensures again == grid
  {
    forall r | 0 <= r < rows
      ensures again[r] == grid[r]
    {
      forall k | 0 <= k < |strips|
        ensures again[r][k] == grid[r][k]
      {
        assert Fetched(strips[k][StripIndex(positions[k], r, len)], again[r][k], basic, draws, c, next);
      }
    }
  }

  /** One `ShowCell` step keeps what is known about the earlier rows. */
  lemma StepKeepsGrid(orig: seq<seq<Cell>>, prior: seq<seq<Cell>>, cur: seq<seq<Cell>>, positions: seq<int>, len: nat,
                      grid: seq<seq<Cell>>, r: nat, k: nat, idx: nat, basic: Sampler, draws: Draws,
                      c: nat, next: nat, next': nat)
    requires len > 0 && |positions| == |orig| && Shaped(orig, |orig|, len) && Shaped(prior, |orig|, len)
    requires Shaped(cur, |orig|, len) && k < |orig| && idx == StripIndex(positions[k], r, len) && next <= next'
    requires r == |grid| && forall rr :: 0 <= rr < r ==> |grid[rr]| == |orig|
    requires prior[k][idx].Some? ==> cur == prior
    requires cur == prior[k := prior[k][idx := cur[k][idx]]]
    requires Visited(positions[k], r + 1, len, idx)
    requires GridFetched(orig, positions, len, grid, r, basic, draws, c, next)
    requires GridStored(prior, positions, len, grid, r)
    requires ChangedOnlyInWindow(orig, prior, positions, len, r, k)
    ensures GridFetched(orig, positions, len, grid, r, basic, draws, c, next')
    ensures GridStored(cur, positions, len, grid, r)
    ensures ChangedOnlyInWindow(orig, cur, positions, len, r, k + 1)
  {
    forall rr, kk | 0 <= rr < r && 0 <= kk < |orig|
      ensures Fetched(orig[kk][StripIndex(positions[kk], rr, len)], grid[rr][kk], basic, draws, c, next')
    {
      FetchedWiden(orig[kk][StripIndex(positions[kk], rr, len)], grid[rr][kk], basic, draws, c, next, next');
    }
    forall kk, j | 0 <= kk < |orig| && 0 <= j < len &&
      !Visited(positions[kk], if kk < k + 1 then r + 1 else r, len, j)
      ensures cur[kk][j] == orig[kk][j]
    {
      if kk == k {
        assert j != idx;
      }
    }
  }
}

=== FILE: line_eval.dfy ===
/** Evaluation of one payline: the left-anchored, consecutive match with wild
    substitution, and the line payout in cents. */
module LineEval {
  import opened Numeric
  import opened Symbols
  import opened Paylines

  /** The best match of a line: how many leading symbols match `target`, and
      how many of those are wilds. `target` is `None` when no match exists. */
  datatype Match = Match(count: nat, target: Option<Symbol>, wildsUsed: nat)

  /** The outcome of checking one payline: payout in cents and wilds used. */
  datatype LineResult = LineResult(payout: int, wildsUsed: nat)

  /** `s` continues a run on `target`: it has the target's id or it is wild. */
  predicate Extends(s: Symbol, target: Symbol)
  {
    SameId(s, target) || s.Wild?
  }

  /** Two symbols match: a wild matches anything but a scatter, otherwise
      the ids must agree. */
  predicate SymbolsMatch(a: Symbol, b: Symbol)
  {
    if a.Wild? || b.Wild? then !a.Scatter? && !b.Scatter? else SameId(a, b)
  }

  /** Matching is symmetric, and against a regular target it is exactly the
      run-extension test the line scan uses. */
  lemma SymbolsMatchFacts(a: Symbol, b: Symbol)
    ensures SymbolsMatch(a, b) <==> SymbolsMatch(b, a)
    ensures b.Regular? ==> (SymbolsMatch(a, b) <==> Extends(a, b))
    ensures a.Scatter? ==> (SymbolsMatch(a, b) <==> b.Scatter?)
  {
  }

  /** The number of wilds in a sequence, as a multiset multiplicity. */
  function WildsIn(s: seq<Symbol>): nat
  {
    multiset(s)[Wild]
  }

  /** Walks the line from the left while symbols extend the run on `target`,
      counting the run length and, separately, the wilds that were used. */
  function Scan(line: seq<Symbol>, target: Symbol): (r: (nat, nat))
    requires target.Regular?
    ensures r.0 <= |line| && r.1 <= r.0
    ensures forall i :: 0 <= i < r.0 ==> Extends(line[i], target)
    ensures r.0 < |line| ==> !Extends(line[r.0], target)
    ensures r.1 == WildsIn(line[..r.0])
  {
    if |line| == 0 || !Extends(line[0], target) then (0, 0)
    else
      var rest := Scan(line[1..], target);
      assert line[..rest.0 + 1] == [line[0]] + line[1..][..rest.0];
      if SameId(line[0], target) then (rest.0 + 1, rest.1)
      else (rest.0 + 1, rest.1 + 1)
  }

  /** Index of the first regular symbol at or after position `i`, if any. */
  function FirstRegularFrom(line: seq<Symbol>, i: nat): (r: Option<nat>)
    requires i <= |line|
    ensures r.Some? ==> i <= r.value < |line| && line[r.value].Regular?
    ensures r.Some? ==> forall j :: i <= j < r.value ==> !line[j].Regular?
    ensures r.None? ==> forall j :: i <= j < |line| ==> !line[j].Regular?
    decreases |line| - i
  {
    if i == |line| then None
    else if line[i].Regular? then Some(i)
    else FirstRegularFrom(line, i + 1)
  }

  /** The highest-value regular symbol of the catalog with a positive value;
      among equal values the earliest entry wins (a stable descending sort). */
  function BestRegular(cat: seq<Entry>): (r: Option<Symbol>)
    ensures r.None? <==> forall j :: 0 <= j < |cat| ==> !(cat[j].sym.Regular? && cat[j].sym.value > 0)
    ensures r.Some? ==> r.value.Regular? && r.value.value > 0
    ensures r.Some? ==> exists k :: (0 <= k < |cat| && cat[k].sym == r.value &&
      forall j :: 0 <= j < k && cat[j].sym.Regular? && cat[j].sym.value > 0 ==> cat[j].sym.value < r.value.value)
    ensures r.Some? ==> forall j :: 0 <= j < |cat| && cat[j].sym.Regular? ==> cat[j].sym.value <= r.value.value
  {
    if |cat| == 0 then None
    else
      var rest := BestRegular(cat[1..]);
      var head := cat[0].sym;
      if head.Regular? && head.value > 0 && (rest.None? || head.value >= rest.value.value) then
        Some(head)
      else
        assert forall j :: 1 <= j < |cat| ==> cat[j] == cat[1..][j - 1];
        rest
  }

  /** The best left-anchored match of a line (the symbols under a payline,
      leftmost first). A scatter in front yields no match. A regular symbol in
      front is the target. A wild in front takes the first later regular
      symbol as target, else the catalog's best regular symbol, else no match. */
  function FindBestMatchFromLeft(line: seq<Symbol>, cat: seq<Entry>): (m: Match)
    ensures m.count <= |line| && m.wildsUsed <= m.count
    ensures m.target.None? ==> m.count == 0 && m.wildsUsed == 0
    ensures m.target.Some? ==> m.target.value.Regular?
    ensures (|line| == 0 || line[0].Scatter?) ==> m.target.None?
    ensures |line| > 0 && line[0].Regular? ==> m.target == Some(line[0]) && m.count >= 1
    ensures |line| > 0 && line[0].Wild? ==>
      m.target == (match FirstRegularFrom(line, 1) case Some(k) => Some(line[k]) case None => BestRegular(cat))
    ensures m.target.Some? ==>
      && (forall i :: 0 <= i < m.count ==> Extends(line[i], m.target.value))
      && (m.count < |line| ==> !Extends(line[m.count], m.target.value))
      && m.wildsUsed == WildsIn(line[..m.count])
  {
    if |line| == 0 || line[0].Scatter? then Match(0, None, 0)
    else
      var target := if line[0].Regular? then Some(line[0])
        else match FirstRegularFrom(line, 1)
          case Some(k) => Some(line[k])
          case None => BestRegular(cat);
      match target
      case None => Match(0, None, 0)
      case Some(t) =>
        var (count, wilds) := Scan(line, t);
        Match(count, target, wilds)
  }

  /** Twice the line multiplier: 1, 3, 5 or 8 for runs of at most 3, 4, 5
      and 6 or more, times 1.5 when a wild took part. */
  function DoubleMultiplier(count: nat, wildsUsed: nat): (m: nat)
    ensures wildsUsed == 0 ==> m % 2 == 0
    ensures m >= 2
    ensures count <= 3 ==> m == (if wildsUsed > 0 then 3 else 2)
    ensures count == 4 ==> m == (if wildsUsed > 0 then 9 else 6)
    ensures count == 5 ==> m == (if wildsUsed > 0 then 15 else 10)
    ensures count >= 6 ==> m == (if wildsUsed > 0 then 24 else 16)
  {
    var base := if count == 4 then 3 else if count == 5 then 5 else if count >= 6 then 8 else 1;
    if wildsUsed > 0 then 3 * base else 2 * base
  }

  /** Line pay in cents for `value x multiplier x bet`, with the bet in cents:
      the dollar amount rounded half up to the cent, and at least one cent. */
  function LinePay(value: int, count: nat, wildsUsed: nat, betCents: int): (c: int)
    ensures c >= 1
    ensures var x := value * DoubleMultiplier(count, wildsUsed) * betCents;
      x >= 1 ==> 4 * c <= 2 * x + 2 < 4 * (c + 1)
    ensures var x := value * DoubleMultiplier(count, wildsUsed) * betCents;
      x < 1 ==> c == 1
  {
    Max(1, RoundDiv(value * DoubleMultiplier(count, wildsUsed) * betCents, 2))
  }

  /** A longer run never earns a smaller multiplier. */
  lemma MultiplierMonotone(a: nat, b: nat, wildsUsed: nat)
    requires a <= b
    ensures DoubleMultiplier(a, wildsUsed) <= DoubleMultiplier(b, wildsUsed)
  {
  }

  /** A wild in the run raises the multiplier by exactly one half. */
  lemma WildBonus(count: nat, wildsUsed: nat)
    requires wildsUsed > 0
    ensures 2 * DoubleMultiplier(count, wildsUsed) == 3 * DoubleMultiplier(count, 0)
  {
  }

  /** The grid symbols under the payline positions, or `None` when a position
      is outside the `rows` x `reels` grid or the grid has no such cell. */
  function Collect(grid: seq<seq<Symbol>>, rows: int, reels: int, ps: seq<Pos>): (r: Option<seq<Symbol>>)
    ensures r.Some? <==> forall k :: 0 <= k < |ps| ==> InGrid(grid, rows, reels, ps[k])
    ensures r.Some? ==> (|r.value| == |ps| &&
      forall k :: 0 <= k < |ps| ==> r.value[k] == grid[ps[k].row][ps[k].reel])
  {
    if |ps| == 0 then Some([])
    else if !InGrid(grid, rows, reels, ps[0]) then None
    else match Collect(grid, rows, reels, ps[1..])
      case None => None
      case Some(rest) => Some([grid[ps[0].row][ps[0].reel]] + rest)
  }

  predicate InGrid(grid: seq<seq<Symbol>>, rows: int, reels: int, p: Pos)
  {
    0 <= p.row < rows && 0 <= p.reel < reels && p.row < |grid| && p.reel < |grid[p.row]|
  }

  /** No generated payline falls off its grid: on a `rows` x `reels` grid
      every line collects one symbol per position. */
  lemma GeneratedLinesCollect(grid: seq<seq<Symbol>>, reels: nat, rows: nat, i: nat)
    requires |grid| == rows && forall r :: 0 <= r < rows ==> |grid[r]| == reels
    requires i < |GeneratePaylines(reels, rows)|
    ensures Collect(grid, rows, reels, GeneratePaylines(reels, rows)[i].positions).Some?
  {
    var ps := GeneratePaylines(reels, rows)[i].positions;
    assert WellShaped(ps, reels, rows);
    forall k | 0 <= k < |ps|
      ensures InGrid(grid, rows, reels, ps[k])
    {
      assert ps[k].reel == k < reels;
    }
  }

  /** The payout of one payline in cents. An empty grid, any position off the
      grid, or a line shorter than `minWinLength` pays nothing; otherwise the
      line pays exactly when its best match has a positive-value target and
      reaches `minWinLength`. */
  function CheckPayline(grid: seq<seq<Symbol>>, rows: int, reels: int, line: Payline,
                        minWinLength: int, betCents: int, cat: seq<Entry>): (r: LineResult)
    ensures r.payout >= 0
    ensures r.payout == 0 ==> r.wildsUsed == 0
    ensures |grid| == 0 ==> r.payout == 0
    ensures (exists k :: 0 <= k < |line.positions| && !InGrid(grid, rows, reels, line.positions[k])) ==> r.payout == 0
    ensures |line.positions| < minWinLength ==> r.payout == 0
    ensures r.payout > 0 <==>
      && |grid| > 0
      && Collect(grid, rows, reels, line.positions).Some?
      && |line.positions| >= minWinLength
      && var m := FindBestMatchFromLeft(Collect(grid, rows, reels, line.positions).value, cat);
         m.target.Some? && Value(m.target.value) > 0 && m.count >= minWinLength
    ensures r.payout > 0 ==>
      var m := FindBestMatchFromLeft(Collect(grid, rows, reels, line.positions).value, cat);
      r == LineResult(LinePay(Value(m.target.value), m.count, m.wildsUsed, betCents), m.wildsUsed)
  {
    if |grid| == 0 then LineResult(0, 0)
    else match Collect(grid, rows, reels, line.positions)
      case None => LineResult(0, 0)
      case Some(symbols) =>
        if |symbols| < minWinLength then LineResult(0, 0)
        else
          var m := FindBestMatchFromLeft(symbols, cat);
          if m.target.Some? && Value(m.target.value) > 0 && m.count >= minWinLength then
            LineResult(LinePay(Value(m.target.value), m.count, m.wildsUsed, betCents), m.wildsUsed)
          else LineResult(0, 0)
  }
}

=== FILE: numeric.dfy ===
/** Integer and real helpers that reproduce the JavaScript arithmetic the
    engine relies on: the truncating remainder `%`, `Math.round`, `Math.floor`
    and `Math.ceil`. Dafny's own `/` and `%` are Euclidean, so each JavaScript
    operator is written out here once and used everywhere else. */
module Numeric {

  /** JavaScript `a % n` on integers: the remainder takes the sign of `a`. */
  function JsRem(a: int, n: int): (r: int)
    requires n > 0
    ensures a >= 0 ==> 0 <= r < n && r == a % n
    ensures a < 0 ==> -n < r <= 0
    ensures (a - r) % n == 0
  {
    if a >= 0 then
      ModUnique(a - a % n, n, a / n, 0);
      a % n
    else
      var q := (-a) / n;
      assert a + (-a) % n == -q * n;
      ModUnique(a + (-a) % n, n, -q, 0);
      -((-a) % n)
  }

  /** `Math.floor` on a real. */
  function Floor(x: real): (r: int)
    ensures r as real <= x < r as real + 1.0
  {
    x.Floor
  }

  /** `Math.ceil` on a real. */
  function Ceil(x: real): (r: int)
    ensures r as real - 1.0 < x <= r as real
  {
    if x.Floor as real == x then x.Floor else x.Floor + 1
  }

  /** Truncation toward zero, the quotient JavaScript's `%` uses. */
  function Trunc(x: real): (r: int)
    ensures x >= 0.0 ==> r as real <= x < r as real + 1.0
    ensures x < 0.0 ==> r as real - 1.0 < x <= r as real
  {
    if x >= 0.0 then x.Floor else -((-x).Floor)
  }

  /** JavaScript `a % b` on numbers, for a positive divisor: `a` less `b`
      times the quotient truncated toward zero. The result differs from `a`
      by a whole number of `b`s, has the sign of `a` and magnitude below `b`,
      and is `a` itself when `a` is already below `b` in magnitude. */
  function RealRem(a: real, b: real): (r: real)
    requires b > 0.0
    ensures a >= 0.0 ==> 0.0 <= r < b
    ensures a < 0.0 ==> -b < r <= 0.0
    ensures -b < a < b ==> r == a
    ensures b <= a < 2.0 * b ==> r == a - b
    ensures exists k: int :: WholeMultiplesApart(a, r, b, k)
  {
    var x := a / b;
    var k := Trunc(x);
    assert WholeMultiplesApart(a, a - k as real * b, b, k);
    QuotientSign(a, b);
    QuotientRange(a, b);
    RemOfQuotient(a, b, x, k as real);
    a - k as real * b
  }

  /** `a` and `r` differ by exactly `k` times `b`. */
  predicate WholeMultiplesApart(a: real, r: real, b: real, k: int)
  {
    a == k as real * b + r
  }

  /** With `x` the quotient `a / b` and `k` its truncation, `a - k * b` is
      `b` times the fractional part of `x`: it has the sign of `x` and
      magnitude below `b`. */
  lemma RemOfQuotient(a: real, b: real, x: real, k: real)
    requires b > 0.0 && b * x == a
    requires x >= 0.0 ==> k <= x < k + 1.0
    requires x < 0.0 ==> k - 1.0 < x <= k
    ensures x >= 0.0 ==> 0.0 <= a - k * b < b
    ensures x < 0.0 ==> -b < a - k * b <= 0.0
  {
    var t := x - k;
    assert a - k * b == b * t;
    if x >= 0.0 {
      ScaleFraction(b, t);
    } else {
      assert -1.0 < t <= 0.0;
      ScaleFraction(b, t);
      assert -b < b * t <= 0.0;
    }
  }

  /** Where a quotient lies relative to -1, 1 and 2. */
  lemma QuotientRange(a: real, b: real)
    requires b > 0.0
    ensures -b < a < b ==> -1.0 < a / b < 1.0
    ensures b <= a < 2.0 * b ==> 1.0 <= a / b < 2.0
    ensures -b < a < b ==> Trunc(a / b) == 0
    ensures b <= a < 2.0 * b ==> Trunc(a / b) == 1
  {
    var x := a / b;
    assert b * x == a;
    if x >= 1.0 { MulMono(b, 1.0, x); }
    if x <= -1.0 { MulMono(b, x, -1.0); }
    if x >= 2.0 { MulMono(b, 2.0, x); }
    if x < 1.0 { MulMono(b, x, 1.0); }
  }

  lemma QuotientSign(a: real, b: real)
    requires b > 0.0
    ensures a >= 0.0 ==> a / b >= 0.0
    ensures a < 0.0 ==> a / b < 0.0
  {
    var x := a / b;
    assert b * x == a;
    assert b * 0.0 == 0.0;
    if x < 0.0 {
      MulMono(b, x, 0.0);
    } else {
      MulMono(b, 0.0, x);
    }
  }

  /** Scaling a fraction in (-1, 1) by a positive `b` keeps its sign and
      bounds its magnitude by `b`. */
  lemma ScaleFraction(b: real, t: real)
    requires b > 0.0 && -1.0 < t < 1.0
    ensures t >= 0.0 ==> 0.0 <= b * t < b
    ensures t <= 0.0 ==> -b < b * t <= 0.0
  {
    assert b * 0.0 == 0.0 && b * 1.0 == b && b * -1.0 == -b;
    if t >= 0.0 {
      MulMono(b, 0.0, t);
      MulMono(b, t, 1.0);
    } else {
      MulMono(b, t, 0.0);
      MulMono(b, -1.0, t);
    }
  }

  lemma MulMono(b: real, x: real, y: real)
    requires b > 0.0 && x <= y
    ensures b * x <= b * y
    ensures x < y ==> b * x < b * y
  {
  }

  lemma DivSelf(t: real)
    requires t > 0.0
    ensures t / t == 1.0
  {
  }

  lemma MulAtLeast(k: int, m: int)
    requires k >= 1 && m > 0
    ensures k * m >= m
  {
    assert k * m == (k - 1) * m + m;
    assert (k - 1) * m >= 0;
  }

  /** The Euclidean remainder is the unique `r` in `[0, m)` with
      `x == q * m + r`. */
  lemma ModUnique(x: int, m: int, q: int, r: int)
    requires m > 0 && x == q * m + r && 0 <= r < m
    ensures x % m == r
  {
    var q', r' := x / m, x % m;
    assert x == q' * m + r';
    assert (q - q') * m == r' - r;
    if q > q' {
      MulAtLeast(q - q', m);
    } else if q < q' {
      MulAtLeast(q' - q, m);
    }
  }

  /** Reducing before an addition does not change the remainder. */
  lemma ModShift(a: int, b: int, m: int)
    requires m > 0
    ensures (a % m + b) % m == (a + b) % m
  {
    var x := a % m + b;
    assert a == (a / m) * m + a % m;
    assert x == (x / m) * m + x % m;
    assert a + b == (x / m + a / m) * m + x % m;
    ModUnique(a + b, m, x / m + a / m, x % m);
  }

  /** The sum of two multiples of `m` is a multiple of `m`. */
  lemma MultipleAdd(a: int, b: int, m: int)
    requires m > 0 && a % m == 0 && b % m == 0
    ensures (a + b) % m == 0
  {
    assert a == (a / m) * m && b == (b / m) * m;
    assert a + b == (a / m + b / m) * m + 0;
    ModUnique(a + b, m, a / m + b / m, 0);
  }

  /** One step up then `n - 1` more is `n` steps up, modulo `m`. */
  lemma ModStepUp(p: int, n: int, m: int, q: int)
    requires m > 0 && q == (p + 1) % m
    ensures (q + (n - 1)) % m == (p + n) % m
  {
    ModShift(p + 1, n - 1, m);
    assert (p + 1) + (n - 1) == p + n;
  }

  /** One step down then `n - 1` more is `n` steps down, modulo `m`. */
  lemma ModStepDown(p: int, n: int, m: int, q: int)
    requires m > 0 && q == (p - 1) % m
    ensures (q - (n - 1)) % m == (p - n) % m
  {
    ModShift(p - 1, -(n - 1), m);
    assert (p - 1) + -(n - 1) == p - n;
  }

  /** Adding the modulus does not change the remainder. */
  lemma ModAddPeriod(x: int, m: int)
    requires m > 0
    ensures (x + m) % m == x % m
  {
    ModUnique(x + m, m, x / m + 1, x % m);
  }

  /** `Math.round(n / d)`: JavaScript rounds halves toward +infinity, that is
      `floor(n / d + 1/2)`. */
  function RoundDiv(n: int, d: int): (r: int)
    requires d > 0
    ensures 2 * r * d <= 2 * n + d < 2 * (r + 1) * d
  {
    (2 * n + d) / (2 * d)
  }

  function Max(a: int, b: int): (r: int)
    ensures r >= a && r >= b && (r == a || r == b)
  {
    if a >= b then a else b
  }

  function Min(a: int, b: int): (r: int)
    ensures r <= a && r <= b && (r == a || r == b)
  {
    if a <= b then a else b
  }

  /** `Max` and `Min` on reals: the catalog weights and the match chance are
      clamped with `Math.max` and `Math.min` on numbers, the grid index and
      the payline count on integers, and Dafny has no common ordered type. */
  function MaxReal(a: real, b: real): (r: real)
    ensures r >= a && r >= b && (r == a || r == b)
  {
    if a >= b then a else b
  }

  function MinReal(a: real, b: real): (r: real)
    ensures r <= a && r <= b && (r == a || r == b)
  {
    if a <= b then a else b
  }

  function AbsReal(x: real): (r: real)
    ensures r >= 0.0 && (r == x || r == -x)
  {
    if x >= 0.0 then x else -x
  }
}

=== FILE: paylines.dfy ===
/** Payline geometry: the ordered list of (reel, row) shapes checked for wins,
    derived from the grid size alone. The horizontal lines come first, one per
    row; every other shape is added only when the grid is large enough for it,
    and each line takes its colour from a 12-colour palette by its index. */
module Paylines {
  import opened Numeric

  /** A cell of the grid: column `reel`, row `row` (row 0 is the top). */
  datatype Pos = Pos(reel: int, row: int)

  /** A payline shape before it is coloured. */
  datatype Shape = Shape(id: string, positions: seq<Pos>)

  datatype Payline = Payline(id: string, positions: seq<Pos>, color: string)

  const Palette: seq<string> := [
    "#ff4757", "#3742fa", "#2ed573", "#ffa502",
    "#ff6b81", "#5352ed", "#7bed9f", "#ff9ff3",
    "#70a1ff", "#dda0dd", "#98d8c8", "#f7b731"
  ]

  /** The display colour of the line with the given index. */
  function PaylineColor(index: nat): (c: string)
    ensures c in Palette
  {
    Palette[index % |Palette|]
  }

  /** Colours repeat with period 12, and within one period they are all distinct. */
  lemma PaylineColorCycle(i: nat, j: nat)
    ensures PaylineColor(i) == PaylineColor(i + 12)
    ensures PaylineColor(i) == PaylineColor(j) <==> i % 12 == j % 12
  {
    assert (i + 12) % 12 == i % 12;
  }

  /** The number a string of decimal digits denotes. */
  function DigitsValue(s: string): nat
    requires forall i :: 0 <= i < |s| ==> '0' <= s[i] <= '9'
  {
    if |s| == 0 then 0 else DigitsValue(s[..|s| - 1]) * 10 + (s[|s| - 1] - '0') as int
  }

  /** Decimal rendering of a natural number, used in line ids: digits
      denoting `n`, without a leading zero. */
  function NatToString(n: nat): (s: string)
    ensures |s| >= 1
    ensures forall i :: 0 <= i < |s| ==> '0' <= s[i] <= '9'
    ensures DigitsValue(s) == n
    ensures n < 10 ==> s == ['0' + n as char]
    ensures n > 0 ==> s[0] != '0'
    decreases n
  {
    var d := ['0' + (n % 10) as char];
    if n < 10 then d
    else
      var rest := NatToString(n / 10);
      assert (rest + d)[..|rest + d| - 1] == rest;
      rest + d
  }

  /** The positions of every row index in `pattern`, reel k taking `pattern[k]`. */
  function PatternLine(pattern: seq<int>): (ps: seq<Pos>)
    ensures |ps| == |pattern|
    ensures forall k :: 0 <= k < |ps| ==> ps[k] == Pos(k, pattern[k])
  {
    seq(|pattern|, k requires 0 <= k < |pattern| => Pos(k, pattern[k]))
  }

  /** The positions whose row passes `keep`, in order. */
  function KeepRows(ps: seq<Pos>, keep: int -> bool): (r: seq<Pos>)
    ensures |r| <= |ps|
    ensures forall i :: 0 <= i < |r| ==> keep(r[i].row)
    ensures (forall i :: 0 <= i < |ps| ==> keep(ps[i].row)) ==> r == ps
  {
    if |ps| == 0 then []
    else if keep(ps[0].row) then [ps[0]] + KeepRows(ps[1..], keep)
    else KeepRows(ps[1..], keep)
  }

  /** A line fits a `reels` x `rows` grid: it is no longer than the grid is
      wide, and every position k is on reel k and inside the rows. */
  ghost predicate WellShaped(ps: seq<Pos>, reels: int, rows: int)
  {
    |ps| <= reels && forall k :: 0 <= k < |ps| ==> ps[k].reel == k && 0 <= ps[k].row < rows
  }

  /** Every shape of `ls` is well shaped and at least three cells long. */
  ghost predicate AllExtra(ls: seq<Shape>, reels: int, rows: int)
  {
    forall i :: 0 <= i < |ls| ==> WellShaped(ls[i].positions, reels, rows) && |ls[i].positions| >= 3
  }

  lemma AllExtraConcat(a: seq<Shape>, b: seq<Shape>, reels: int, rows: int)
    requires AllExtra(a, reels, rows) && AllExtra(b, reels, rows)
    ensures AllExtra(a + b, reels, rows)
  {
    forall i | 0 <= i < |a + b|
      ensures WellShaped((a + b)[i].positions, reels, rows) && |(a + b)[i].positions| >= 3
    {
      if i < |a| {
        assert (a + b)[i] == a[i];
      } else {
        assert (a + b)[i] == b[i - |a|];
      }
    }
  }

  /** A list of one shape when `c` holds, else nothing. */
  function When(c: bool, id: string, ps: seq<Pos>): seq<Shape>
  {
    if c then [Shape(id, ps)] else []
  }

  /** Zigzag-style line: the first `min(reels, |pattern|)` pattern rows,
      dropping any row outside the grid; kept when at least 3 remain. */
  function ZigzagShape(id: string, pattern: seq<int>, reels: nat, rows: nat): (r: seq<Shape>)
    requires |pattern| == 5
    requires reels >= 5 && forall k :: 0 <= k < 5 ==> 0 <= pattern[k] < rows
    ensures AllExtra(r, reels, rows)
    ensures r == [Shape(id, PatternLine(pattern))]
  {
    var ps := KeepRows(PatternLine(pattern[..Min(reels, |pattern|)]), row => 0 <= row < rows);
    assert pattern[..Min(reels, |pattern|)] == pattern;
    When(|ps| >= 3, id, ps)
  }

  /** Fixed five-cell line: rows outside the grid dropped, kept when at least
      `min(3, reels)` cells remain, then cut to the first `reels` cells. */
  function FixedShape(id: string, pattern: seq<int>, reels: nat, rows: nat): (r: seq<Shape>)
    requires |pattern| == 5
    requires reels >= 5 && forall k :: 0 <= k < 5 ==> 0 <= pattern[k] < rows
    ensures AllExtra(r, reels, rows)
    ensures r == [Shape(id, PatternLine(pattern))]
  {
    var ps := KeepRows(PatternLine(pattern), row => row < rows);
    assert ps == PatternLine(pattern);
    assert ps[..Min(reels, |ps|)] == ps;
    When(|ps| >= Min(3, reels), id, ps[..Min(reels, |ps|)])
  }

  /** `horizontal_r`: row r on every reel. */
  function Horizontal(row: int, reels: nat): Shape
    requires row >= 0
  {
    Shape("horizontal_" + NatToString(row), seq(reels, k => Pos(k, row)))
  }

  function Horizontals(reels: nat, rows: nat): (r: seq<Shape>)
    ensures |r| == rows
    ensures forall i :: 0 <= i < rows ==> r[i] == Horizontal(i, reels)
  {
    seq(rows, i requires 0 <= i => Horizontal(i, reels))
  }

  function Diagonals(reels: nat, rows: nat): (r: seq<Shape>)
    ensures AllExtra(r, reels, rows)
  {
    if rows >= 3 && reels >= 3 then
      var n := Min(reels, rows);
      var d1 := seq(n, i => Pos(i, i));
      var d2 := seq(n, i => Pos(i, rows - 1 - i));
      When(|d1| >= 3, "diagonal_tlbr", d1) + When(|d2| >= 3, "diagonal_trbl", d2)
    else []
  }

  /** Row of reel i on the V line: down to the middle reel, then back up. */
  function VRow(i: int, reels: nat, rows: nat): (r: int)
    requires i >= 0 && rows >= 1
    ensures 0 <= r < rows
  {
    var mid := reels / 2;
    if i <= mid then Min(i, rows - 1)
    else Min(rows - 1, Max(0, Max(0, (rows - 1) - (i - (mid + 1)) - 1)))
  }

  /** Row of reel i on the inverted V line. */
  function InvVRow(i: int, reels: nat, rows: nat): (r: int)
    requires i >= 0 && rows >= 1
    ensures 0 <= r < rows
  {
    var mid := reels / 2;
    if i <= mid then Max(0, (rows - 1) - i)
    else Min(rows - 1, Max(0, Min(rows - 1, (i - (mid + 1)) + 1)))
  }

  function VShapes(reels: nat, rows: nat): (r: seq<Shape>)
    ensures AllExtra(r, reels, rows)
  {
    if rows >= 3 && reels >= 5 then
      var v := seq(reels, i requires 0 <= i => Pos(i, VRow(i, reels, rows)));
      var iv := seq(reels, i requires 0 <= i => Pos(i, InvVRow(i, reels, rows)));
      When(|v| >= 3, "v_shape", v) + When(|iv| >= 3, "inv_v_shape", iv)
    else []
  }

  function Zigzags(reels: nat, rows: nat): (r: seq<Shape>)
    ensures AllExtra(r, reels, rows)
  {
    if rows >= 3 && reels >= 5 then
      var a := ZigzagShape("zigzag", [0, rows - 1, 0, rows - 1, 0], reels, rows);
      var b := ZigzagShape("rev_zigzag", [rows - 1, 0, rows - 1, 0, rows - 1], reels, rows);
      AllExtraConcat(a, b, reels, rows);
      a + b
    else []
  }

  /** M, W and the two arrows. */
  function Letters(reels: nat, rows: nat): (r: seq<Shape>)
    ensures AllExtra(r, reels, rows)
  {
    if rows >= 3 && reels >= 5 then
      var mid := rows / 2;
      var m := FixedShape("m_shape", [0, rows - 1, 0, rows - 1, 0], reels, rows);
      var w := FixedShape("w_shape", [rows - 1, 0, rows - 1, 0, rows - 1], reels, rows);
      var up := FixedShape("arrow_up", [rows - 1, mid, 0, mid, rows - 1], reels, rows);
      var down := FixedShape("arrow_down", [0, mid, rows - 1, mid, 0], reels, rows);
      AllExtraConcat(m, w, reels, rows);
      AllExtraConcat(m + w, up, reels, rows);
      AllExtraConcat(m + w + up, down, reels, rows);
      m + w + up + down
    else []
  }

  /** M with its middle cell on the second row (not the middle row). */
  function MidM(reels: nat, rows: nat): (r: seq<Shape>)
    ensures AllExtra(r, reels, rows)
  {
    if rows >= 3 && reels >= 5 then
      FixedShape("m_shape_mid", [rows - 1, 0, 1, 0, rows - 1], reels, rows)
    else []
  }

  /** Alternation between rows 0 and 1, and its inverse; needs only two rows. */
  function SquareWaves(reels: nat, rows: nat): (r: seq<Shape>)
    ensures AllExtra(r, reels, rows)
  {
    if rows >= 2 && reels >= 3 then
      var s := seq(reels, i => Pos(i, i % 2));
      var t := seq(reels, i => Pos(i, (i + 1) % 2));
      When(|s| >= Min(3, reels), "square_wave", s) + When(|t| >= Min(3, reels), "inv_square_wave", t)
    else []
  }

  /** Two fixed shapes, in order. */
  function FixedPair(id1: string, p1: seq<int>, id2: string, p2: seq<int>, reels: nat, rows: nat): (r: seq<Shape>)
    requires |p1| == 5 && |p2| == 5 && reels >= 5
    requires forall k :: 0 <= k < 5 ==> 0 <= p1[k] < rows && 0 <= p2[k] < rows
    ensures AllExtra(r, reels, rows)
  {
    var a := FixedShape(id1, p1, reels, rows);
    var b := FixedShape(id2, p2, reels, rows);
    AllExtraConcat(a, b, reels, rows);
    a + b
  }

  /** Step-up, step-down, crown-up and crown-down. */
  function StepsAndCrowns(reels: nat, rows: nat): (r: seq<Shape>)
    requires rows >= 3 && reels >= 5
    ensures AllExtra(r, reels, rows)
  {
    var top := rows - 1;
    var mid := rows / 2;
    var a := FixedPair("step_up", [top, top, mid, 0, 0], "step_down", [0, 0, mid, top, top], reels, rows);
    var b := FixedPair("crown_up", [mid, 0, mid, 0, mid], "crown_down", [mid, top, mid, top, mid], reels, rows);
    AllExtraConcat(a, b, reels, rows);
    a + b
  }

  /** The two waves and the two L shapes. */
  function WavesAndLs(reels: nat, rows: nat): (r: seq<Shape>)
    requires rows >= 3 && reels >= 5
    ensures AllExtra(r, reels, rows)
  {
    var top := rows - 1;
    var mid := rows / 2;
    var a := FixedPair("wave_smooth", [mid, 0, mid, top, mid], "wave_reverse", [mid, top, mid, 0, mid], reels, rows);
    var b := FixedPair("l_left", [0, 0, 0, mid, top], "l_right", [top, mid, top, top, top], reels, rows);
    AllExtraConcat(a, b, reels, rows);
    a + b
  }

  /** The bridge, the inverted bridge, the peak and the valley. */
  function BridgesAndPeaks(reels: nat, rows: nat): (r: seq<Shape>)
    requires rows >= 3 && reels >= 5
    ensures AllExtra(r, reels, rows)
  {
    var top := rows - 1;
    var mid := rows / 2;
    var a := FixedPair("bridge", [0, 0, mid, top, top], "inv_bridge", [top, top, mid, 0, 0], reels, rows);
    var b := FixedPair("peak", [mid, 0, 0, 0, mid], "valley", [mid, top, top, top, mid], reels, rows);
    AllExtraConcat(a, b, reels, rows);
    a + b
  }

  /** Steps, crowns, waves, L shapes, bridges, peak and valley: each pair
      needs at least 3 rows and 5 reels. */
  function Figures(reels: nat, rows: nat): (r: seq<Shape>)
    ensures AllExtra(r, reels, rows)
  {
    if rows >= 3 && reels >= 5 then
      var a := StepsAndCrowns(reels, rows);
      var b := WavesAndLs(reels, rows);
      var c := BridgesAndPeaks(reels, rows);
      AllExtraConcat(a, b, reels, rows);
      AllExtraConcat(a + b, c, reels, rows);
      a + b + c
    else []
  }

  /** Every non-horizontal shape, in the order the lines are numbered. */
  function ExtraShapes(reels: nat, rows: nat): (r: seq<Shape>)
    ensures AllExtra(r, reels, rows)
  {
    var a := Diagonals(reels, rows);
    var b := VShapes(reels, rows);
    var c := Zigzags(reels, rows);
    var d := Letters(reels, rows);
    var e := MidM(reels, rows);
    var f := SquareWaves(reels, rows);
    var g := Figures(reels, rows);
    AllExtraConcat(a, b, reels, rows);
    AllExtraConcat(a + b, c, reels, rows);
    AllExtraConcat(a + b + c, d, reels, rows);
    AllExtraConcat(a + b + c + d, e, reels, rows);
    AllExtraConcat(a + b + c + d + e, f, reels, rows);
    AllExtraConcat(a + b + c + d + e + f, g, reels, rows);
    a + b + c + d + e + f + g
  }

  /** The shapes of a `reels` x `rows` grid in line order: the horizontals,
      then every other shape the grid is large enough for. */
  function Shapes(reels: nat, rows: nat): (r: seq<Shape>)
    ensures |r| >= rows
    ensures forall i :: 0 <= i < rows ==> r[i] == Horizontal(i, reels)
    ensures forall i :: 0 <= i < |r| ==> WellShaped(r[i].positions, reels, rows)
    ensures forall i :: rows <= i < |r| ==> |r[i].positions| >= 3
  {
    var h := Horizontals(reels, rows);
    var x := ExtraShapes(reels, rows);
    ShapesFacts(h, x, reels, rows);
    h + x
  }

  lemma ShapesFacts(h: seq<Shape>, x: seq<Shape>, reels: nat, rows: nat)
    requires h == Horizontals(reels, rows) && AllExtra(x, reels, rows)
    ensures forall i :: 0 <= i < |h + x| ==> WellShaped((h + x)[i].positions, reels, rows)
    ensures forall i :: rows <= i < |h + x| ==> |(h + x)[i].positions| >= 3
  {
    forall i | 0 <= i < |h + x|
      ensures WellShaped((h + x)[i].positions, reels, rows)
      ensures rows <= i ==> |(h + x)[i].positions| >= 3
    {
      if i < rows {
        assert (h + x)[i] == Horizontal(i, reels);
      } else {
        assert (h + x)[i] == x[i - rows];
      }
    }
  }

  /** All paylines of a `reels` x `rows` grid, coloured by index. */
  function GeneratePaylines(reels: nat, rows: nat): (lines: seq<Payline>)
    ensures |lines| >= rows
    ensures forall i :: 0 <= i < rows ==>
      lines[i].id == "horizontal_" + NatToString(i) && lines[i].positions == seq(reels, k => Pos(k, i))
    ensures forall i :: 0 <= i < |lines| ==> lines[i].color == Palette[i % 12]
    ensures forall i :: 0 <= i < |lines| ==> WellShaped(lines[i].positions, reels, rows)
    ensures forall i :: rows <= i < |lines| ==> |lines[i].positions| >= 3
  {
    var shapes := Shapes(reels, rows);
    var lines := Colored(shapes);
    forall i | 0 <= i < rows
      ensures lines[i].id == "horizontal_" + NatToString(i) && lines[i].positions == seq(reels, k => Pos(k, i))
    {
      assert shapes[i] == Horizontal(i, reels);
    }
    lines
  }

  /** Each shape becomes a payline coloured by its index. */
  function Colored(shapes: seq<Shape>): (lines: seq<Payline>)
    ensures |lines| == |shapes|
    ensures forall i :: 0 <= i < |lines| ==>
      lines[i].id == shapes[i].id && lines[i].positions == shapes[i].positions && lines[i].color == Palette[i % 12]
  {
    seq(|shapes|, i requires 0 <= i < |shapes| => Payline(shapes[i].id, shapes[i].positions, PaylineColor(i)))
  }

  /** The standard 5-reel, 3-row grid has 28 paylines. */
  lemma ClassicGridHas28Lines()
    ensures |GeneratePaylines(5, 3)| == 28
  {
  }
}

=== FILE: probability.dfy ===
/** The probability model: normalising a catalog's weights into a
    distribution (with a deterministic fallback when all weights vanish), the
    win-rate adjusted sampling weights, and the cumulative walk that turns one
    uniform draw `u` into a symbol. */
module Probability {
  import opened Numeric
  import opened Symbols

  /** Sampling settings: the win rate in percent (an integer, as the slider
      reports it) and the wild and scatter rarities. */
  datatype Tuning = Tuning(winRate: int, wildRarity: real, scatterRarity: real)

  /** Sum of a sequence of reals, peeling off the last element so that
      `Sum(ws[..k+1]) == Sum(ws[..k]) + ws[k]` unfolds directly. */
  function Sum(ws: seq<real>): real
  {
    if |ws| == 0 then 0.0 else Sum(ws[..|ws| - 1]) + ws[|ws| - 1]
  }

  lemma SumStep(ws: seq<real>, k: nat)
    requires k < |ws|
    ensures Sum(ws[..k + 1]) == Sum(ws[..k]) + ws[k]
  {
    assert ws[..k + 1][..k] == ws[..k];
  }

  /** The probabilities of a catalog, in order. */
  function Probs(cat: seq<Entry>): (ps: seq<real>)
    ensures |ps| == |cat|
    ensures forall i :: 0 <= i < |cat| ==> ps[i] == cat[i].probability
  {
    seq(|cat|, i requires 0 <= i < |cat| => cat[i].probability)
  }

  // ---------------------------------------------------------------------
  // Normalisation

  /** The catalog with the first wild entry's weight set to `wildRarity` and
      the first scatter entry's weight set to `scatterRarity`. */
  function WithRarities(cat: seq<Entry>, wildRarity: real, scatterRarity: real): (r: seq<Entry>)
    ensures |r| == |cat|
    ensures forall i :: 0 <= i < |cat| ==> r[i].sym == cat[i].sym
    ensures forall i :: 0 <= i < |cat| && FirstWithId(cat, Wild) == Some(i) ==> r[i].probability == wildRarity
    ensures forall i :: 0 <= i < |cat| && FirstWithId(cat, Scatter) == Some(i) ==> r[i].probability == scatterRarity
    ensures forall i :: 0 <= i < |cat| && FirstWithId(cat, Wild) != Some(i) && FirstWithId(cat, Scatter) != Some(i) ==>
      r[i] == cat[i]
  {
    var w := FirstWithId(cat, Wild);
    var s := FirstWithId(cat, Scatter);
    seq(|cat|, i requires 0 <= i < |cat| =>
      if w == Some(i) then Entry(cat[i].sym, wildRarity)
      else if s == Some(i) then Entry(cat[i].sym, scatterRarity)
      else cat[i])
  }

  /** The fallback groups, tried in this order when the weights sum to zero
      or less: paying regular symbols, regular symbols, paying symbols, all. */
  datatype Tier = PayingRegular | AnyRegular | Paying | Everything

  predicate InTier(t: Tier, s: Symbol)
  {
    match t
    case PayingRegular => s.Regular? && s.value > 0
    case AnyRegular => s.Regular?
    case Paying => Value(s) > 0
    case Everything => true
  }

  /** Number of catalog entries in a tier. */
  function TierCount(cat: seq<Entry>, t: Tier): (n: nat)
    ensures n <= |cat|
    ensures n == 0 <==> forall i :: 0 <= i < |cat| ==> !InTier(t, cat[i].sym)
  {
    if |cat| == 0 then 0
    else
      assert forall i :: 0 <= i < |cat| - 1 ==> cat[..|cat| - 1][i] == cat[i];
      TierCount(cat[..|cat| - 1], t) + (if InTier(t, cat[|cat| - 1].sym) then 1 else 0)
  }

  /** The first non-empty tier; `None` only for an empty catalog. */
  function FallbackTier(cat: seq<Entry>): (r: Option<Tier>)
    ensures r.None? <==> |cat| == 0
    ensures r.Some? ==> TierCount(cat, r.value) > 0
    ensures r == Some(AnyRegular) ==> TierCount(cat, PayingRegular) == 0
    ensures r == Some(Paying) ==> TierCount(cat, PayingRegular) == 0 && TierCount(cat, AnyRegular) == 0
    ensures r == Some(Everything) ==>
      TierCount(cat, PayingRegular) == 0 && TierCount(cat, AnyRegular) == 0 && TierCount(cat, Paying) == 0
  {
    if TierCount(cat, PayingRegular) > 0 then Some(PayingRegular)
    else if TierCount(cat, AnyRegular) > 0 then Some(AnyRegular)
    else if TierCount(cat, Paying) > 0 then Some(Paying)
    else if |cat| > 0 then
      assert InTier(Everything, cat[0].sym);
      Some(Everything)
    else None
  }

  /** Equal weight `1/n` on the `n` entries of the tier, 0 elsewhere. */
  function Uniform(cat: seq<Entry>, t: Tier): (r: seq<Entry>)
    requires TierCount(cat, t) > 0
    ensures |r| == |cat|
    ensures forall i :: 0 <= i < |cat| ==> r[i].sym == cat[i].sym
    ensures forall i :: 0 <= i < |cat| ==>
      r[i].probability == (if InTier(t, cat[i].sym) then 1.0 / TierCount(cat, t) as real else 0.0)
  {
    var p := 1.0 / TierCount(cat, t) as real;
    seq(|cat|, i requires 0 <= i < |cat| => Entry(cat[i].sym, if InTier(t, cat[i].sym) then p else 0.0))
  }

  /** Every weight divided by `total`. */
  function Scale(cat: seq<Entry>, total: real): (r: seq<Entry>)
    requires total != 0.0
    ensures |r| == |cat|
    ensures forall i :: 0 <= i < |cat| ==> r[i].sym == cat[i].sym && r[i].probability == cat[i].probability / total
  {
    seq(|cat|, i requires 0 <= i < |cat| => Entry(cat[i].sym, cat[i].probability / total))
  }

  /** Normalises the catalog: first the wild and scatter weights are reset from
      their rarities, then the weights are divided by their total when it is
      positive; when it is not, the first non-empty tier gets a uniform
      distribution and every other entry 0. An empty catalog is returned as is. */
  function Normalize(cat: seq<Entry>, wildRarity: real, scatterRarity: real): (r: seq<Entry>)
    ensures |r| == |cat|
    ensures forall i :: 0 <= i < |cat| ==> r[i].sym == cat[i].sym
    ensures |cat| > 0 ==> Sum(Probs(r)) == 1.0
    ensures var w := WithRarities(cat, wildRarity, scatterRarity);
      Sum(Probs(w)) > 0.0 ==> ScalesBack(r, w, Sum(Probs(w)))
    ensures var w := WithRarities(cat, wildRarity, scatterRarity);
      Sum(Probs(w)) <= 0.0 && |cat| > 0 ==>
        var t := FallbackTier(w).value;
        forall i :: 0 <= i < |cat| ==>
          r[i].probability == (if InTier(t, cat[i].sym) then 1.0 / TierCount(w, t) as real else 0.0)
  {
    var w := WithRarities(cat, wildRarity, scatterRarity);
    var total := Sum(Probs(w));
    if total <= 0.0 then Fallback(w) else Rescaled(w, total)
  }

  /** `r` times `total` gives back the weights of `w`, entry by entry. */
  predicate ScalesBack(r: seq<Entry>, w: seq<Entry>, total: real)
  {
    |r| == |w| && forall i :: 0 <= i < |w| ==> r[i].probability * total == w[i].probability
  }

  /** The positive-total branch: the weights divided by their total (left as
      they are when the total is already 1). */
  function Rescaled(w: seq<Entry>, total: real): (r: seq<Entry>)
    requires total > 0.0 && total == Sum(Probs(w))
    ensures |r| == |w|
    ensures forall i :: 0 <= i < |w| ==> r[i].sym == w[i].sym
    ensures Sum(Probs(r)) == 1.0
    ensures ScalesBack(r, w, total)
  {
    if total != 1.0 then
      var s := Scale(w, total);
      ScaledSumsToOne(w, total, s);
      ScaledRecovers(w, total, s);
      s
    else
      assert forall i :: 0 <= i < |w| ==> w[i].probability / 1.0 == w[i].probability;
      ScaledRecovers(w, total, w);
      w
  }

  /** The non-positive-total branch: uniform over the first non-empty tier. */
  function Fallback(w: seq<Entry>): (r: seq<Entry>)
    ensures |r| == |w|
    ensures forall i :: 0 <= i < |w| ==> r[i].sym == w[i].sym
    ensures |w| > 0 ==> Sum(Probs(r)) == 1.0
    ensures |w| > 0 ==>
      var t := FallbackTier(w).value;
      forall i :: 0 <= i < |w| ==>
        r[i].probability == (if InTier(t, w[i].sym) then 1.0 / TierCount(w, t) as real else 0.0)
  {
    match FallbackTier(w)
    case None => w
    case Some(t) =>
      var u := Uniform(w, t);
      UniformSumsToOne(w, t, u);
      u
  }

  lemma ScaledRecovers(w: seq<Entry>, total: real, s: seq<Entry>)
    requires total > 0.0 && |s| == |w|
    requires forall i :: 0 <= i < |w| ==> s[i].probability == w[i].probability / total
    ensures forall i :: 0 <= i < |w| ==> s[i].probability * total == w[i].probability
  {
  }

  lemma {:induction false} SumScaled(ps: seq<real>, qs: seq<real>, total: real)
    requires total != 0.0 && |ps| == |qs|
    requires forall i :: 0 <= i < |ps| ==> qs[i] == ps[i] / total
    ensures Sum(qs) == Sum(ps) / total
    decreases |ps|
  {
    if |ps| > 0 {
      var n := |ps| - 1;
      SumScaled(ps[..n], qs[..n], total);
      DivAdd(Sum(ps[..n]), ps[n], total);
    }
  }

  lemma DivAdd(a: real, b: real, t: real)
    requires t != 0.0
    ensures (a + b) / t == a / t + b / t
  {
  }

  lemma ScaledSumsToOne(w: seq<Entry>, total: real, s: seq<Entry>)
    requires total > 0.0 && total == Sum(Probs(w)) && s == Scale(w, total)
    ensures Sum(Probs(s)) == 1.0
  {
    SumScaled(Probs(w), Probs(s), total);
  }

  /** The tier's indicator weights (1 on the tier, 0 elsewhere) sum to the
      tier's size. */
  lemma {:induction false} SumTier(cat: seq<Entry>, t: Tier, ps: seq<real>)
    requires |ps| == |cat|
    requires forall i :: 0 <= i < |cat| ==> ps[i] == (if InTier(t, cat[i].sym) then 1.0 else 0.0)
    ensures Sum(ps) == TierCount(cat, t) as real
    decreases |cat|
  {
    if |cat| > 0 {
      var n := |cat| - 1;
      assert forall i :: 0 <= i < n ==> ps[..n][i] == (if InTier(t, cat[..n][i].sym) then 1.0 else 0.0);
      SumTier(cat[..n], t, ps[..n]);
    }
  }

  lemma UniformSumsToOne(w: seq<Entry>, t: Tier, u: seq<Entry>)
    requires TierCount(w, t) > 0 && u == Uniform(w, t)
    ensures Sum(Probs(u)) == 1.0
  {
    var n := TierCount(w, t) as real;
    var ind := seq(|w|, i requires 0 <= i < |w| => if InTier(t, w[i].sym) then 1.0 else 0.0);
    SumTier(w, t, ind);
    assert 0.0 / n == 0.0;
    assert forall i :: 0 <= i < |w| ==> Probs(u)[i] == ind[i] / n;
    SumScaled(ind, Probs(u), n);
    DivSelf(n);
  }

  // ---------------------------------------------------------------------
  // Win-rate adjusted sampling weights

  /** Wild weight multiplier: 0.001 at a win rate of at most 0.5%, 3 at 99.5%
      or more, otherwise rising linearly from 0.05 to 2.5. */
  function WildFactor(wrn: real): real
  {
    if wrn <= 0.005 then 0.001 else if wrn >= 0.995 then 3.0 else 0.05 + wrn * 2.45
  }

  /** Scatter weight multiplier: 0.001, 3.5, or linear from 0.05 to 3.0. */
  function ScatterFactor(wrn: real): real
  {
    if wrn <= 0.005 then 0.001 else if wrn >= 0.995 then 3.5 else 0.05 + wrn * 2.95
  }

  /** Regular weight multiplier: down to 0.85 above a 70% win rate, up to
      1.15 below 30%, 1 in between. */
  function RegularFactor(wrn: real): real
  {
    if wrn > 0.7 then 1.0 - (wrn - 0.7) * 0.5
    else if wrn < 0.3 then 1.0 + (0.3 - wrn) * 0.5
    else 1.0
  }

  /** The special multipliers never fall as the win rate rises, and the
      regular multiplier never rises. */
  lemma FactorsMonotone(a: real, b: real)
    requires a <= b
    ensures WildFactor(a) <= WildFactor(b)
    ensures ScatterFactor(a) <= ScatterFactor(b)
    ensures RegularFactor(a) >= RegularFactor(b)
  {
  }

  const MinWeight: real := 0.00001

  /** The sampling weight of an entry: wild and scatter weights come from the
      rarity settings (not the entry), regular weights from the entry; each is
      scaled by its win-rate multiplier and floored at 0.00001. */
  function Weight(e: Entry, t: Tuning): (w: real)
    ensures w >= MinWeight
    ensures e.sym.Wild? ==> w == MaxReal(MinWeight, t.wildRarity * WildFactor(t.winRate as real / 100.0))
    ensures e.sym.Scatter? ==> w == MaxReal(MinWeight, t.scatterRarity * ScatterFactor(t.winRate as real / 100.0))
    ensures e.sym.Regular? ==> w == MaxReal(MinWeight, e.probability * RegularFactor(t.winRate as real / 100.0))
  {
    var wrn := t.winRate as real / 100.0;
    var adjusted := match e.sym
      case Wild => t.wildRarity * WildFactor(wrn)
      case Scatter => t.scatterRarity * ScatterFactor(wrn)
      case Regular(_, _) => e.probability * RegularFactor(wrn);
    MaxReal(MinWeight, adjusted)
  }

  function Weights(cat: seq<Entry>, t: Tuning): (ws: seq<real>)
    ensures |ws| == |cat|
    ensures forall i :: 0 <= i < |cat| ==> ws[i] == Weight(cat[i], t)
  {
    seq(|cat|, i requires 0 <= i < |cat| => Weight(cat[i], t))
  }

  /** The floored weights of a non-empty catalog always have a positive
      total, so the sampler's "total is not positive" fallback is dead. */
  lemma {:induction false} WeightsTotalPositive(ws: seq<real>)
    requires forall i :: 0 <= i < |ws| ==> ws[i] >= MinWeight
    ensures Sum(ws) >= |ws| as real * MinWeight
    decreases |ws|
  {
    if |ws| > 0 {
      var n := |ws| - 1;
      WeightsTotalPositive(ws[..n]);
    }
  }

  // ---------------------------------------------------------------------
  // The cumulative walk

  /** The walk went past index `j`: the draw exceeds the cumulative share of
      the entries up to and including `j`. */
  predicate Passed(ws: seq<real>, total: real, u: real, j: nat)
    requires j < |ws| && total > 0.0
  {
    u > Sum(ws[..j + 1]) / total
  }

  /** The walk from index `k` on: add `ws[k] / total` to the running sum and
      stop at the first index where `u` is at most the sum; the last index is
      the fallback when the sum never reaches `u`. */
  function Walk(ws: seq<real>, total: real, u: real, k: nat, cum: real): (r: nat)
    requires total > 0.0 && k < |ws|
    requires cum == Sum(ws[..k]) / total
    requires forall j :: 0 <= j < k ==> Passed(ws, total, u, j)
    ensures k <= r < |ws|
    ensures forall j :: 0 <= j < r ==> Passed(ws, total, u, j)
    ensures r < |ws| - 1 ==> u <= Sum(ws[..r + 1]) / total
    decreases |ws| - k
  {
    var next := cum + ws[k] / total;
    SumStep(ws, k);
    DivAdd(Sum(ws[..k]), ws[k], total);
    if u <= next then k
    else if k == |ws| - 1 then k
    else Walk(ws, total, u, k + 1, next)
  }

  /** The index the cumulative walk selects for draw `u`. */
  function Pick(ws: seq<real>, u: real): (k: nat)
    requires |ws| > 0 && Sum(ws) > 0.0
    ensures k < |ws|
    ensures forall j :: 0 <= j < k ==> Passed(ws, Sum(ws), u, j)
    ensures k < |ws| - 1 ==> u <= Sum(ws[..k + 1]) / Sum(ws)
  {
    assert ws[..0] == [];
    Walk(ws, Sum(ws), u, 0, 0.0)
  }

  /** For a draw in [0, 1] the walk never needs its fallback: the selected
      index is the one whose cumulative band `(Sum(ws[..k]), Sum(ws[..k+1])]`
      (scaled by the total) contains `u`. */
  lemma PickIsBand(ws: seq<real>, u: real)
    requires |ws| > 0 && Sum(ws) > 0.0 && 0.0 <= u <= 1.0
    ensures var k := Pick(ws, u);
      u <= Sum(ws[..k + 1]) / Sum(ws) && (k > 0 ==> u > Sum(ws[..k]) / Sum(ws))
  {
    var k := Pick(ws, u);
    var t := Sum(ws);
    if k == |ws| - 1 {
      assert ws[..k + 1] == ws;
      DivSelf(t);
    }
    if k > 0 {
      assert Passed(ws, t, u, k - 1);
    }
  }

  /** Draws one symbol: the entry the walk selects, looked up again by id in
      the catalog (so the first entry with that id is returned). An empty
      catalog yields no symbol. */
  function BasicSymbol(cat: seq<Entry>, t: Tuning, u: real): (r: Option<Symbol>)
    ensures r.None? <==> |cat| == 0
    ensures r.Some? ==> exists i :: 0 <= i < |cat| && cat[i].sym == r.value
    ensures r.Some? ==> SameId(r.value, cat[PickIndex(cat, t, u)].sym)
    ensures r.Some? && UniqueIds(cat) ==> r.value == cat[PickIndex(cat, t, u)].sym
  {
    if |cat| == 0 then None
    else
      var k := PickIndex(cat, t, u);
      SameIdReflexive(cat[k].sym);
      var i := FirstWithId(cat, cat[k].sym).value;
      SameIdSymmetric(cat[i].sym, cat[k].sym);
      Some(cat[i].sym)
  }

  /** The catalog index the walk selects under the adjusted weights. */
  function PickIndex(cat: seq<Entry>, t: Tuning, u: real): (k: nat)
    requires |cat| > 0
    ensures k < |cat|
  {
    var ws := Weights(cat, t);
    WeightsTotalPositive(ws);
    Pick(ws, u)
  }

  lemma SameIdReflexive(s: Symbol)
    ensures SameId(s, s)
  {
  }

  lemma SameIdSymmetric(a: Symbol, b: Symbol)
    ensures SameId(a, b) <==> SameId(b, a)
  {
  }
}

=== FILE: reel.dfy ===
/** One reel's animation as a state machine advanced by ticks. A reel spins
    at its speed, eases out once its timer fires, then settles onto a whole
    strip position and stops. `position` is the strip index at the top of the
    window; `offset` is the sub-row scroll in pixels. */
module Reels {
  import opened Numeric

  datatype Phase = Spinning | Easing | Settling | Stopped

  /** A reel: its phase, top strip index, pixel offset, speed in pixels per
      tick, easing factor, and the index it settles onto. */
  datatype Reel = Reel(phase: Phase, position: int, offset: real, speed: real, easing: real, target: int)

  /** The machine-wide settings a tick reads: the row height in pixels, the
      strip length, and the configured spin speed. */
  datatype Config = Config(rowHeight: real, len: nat, spinSpeed: real)

  predicate ConfigOk(cfg: Config)
  {
    cfg.rowHeight > 0.0 && cfg.len > 0
  }

  /** Per-tick decay of the easing factor, the factor below which easing
      turns into settling, the offset below which a settling reel snaps,
      and the fraction of the offset removed per settling tick. */
  const EasingDecay: real := 0.97
  const SettleBelow: real := 0.15
  const SnapBelow: real := 0.5
  const SettleSpeed: real := 0.06

  /** The spin direction: the sign of the reel's speed, else the sign of the
      configured speed, else forward. */
  function Direction(speed: real, spinSpeed: real): (d: int)
    ensures d == 1 || d == -1
    ensures speed > 0.0 ==> d == 1
    ensures speed < 0.0 ==> d == -1
    ensures speed == 0.0 ==> (d == -1 <==> spinSpeed < 0.0)
  {
    if speed > 0.0 then 1 else if speed < 0.0 then -1
    else if spinSpeed < 0.0 then -1 else 1
  }

  /** One strip step in direction `dir`, with the JavaScript remainder. */
  function StepPos(p: int, dir: int, len: nat): (q: int)
    requires len > 0
    ensures 0 <= p < len ==> 0 <= q < len
    ensures 0 <= p < len && dir > 0 ==> q == (p + 1) % len
    ensures 0 <= p < len && dir <= 0 ==> q == (p - 1) % len
  {
    if dir > 0 then JsRem(p + 1, len)
    else
      ModAddPeriod(p - 1, len);
      JsRem(p - 1 + len, len)
  }

  /** `n` strip steps in direction `dir`. */
  function Advance(p: int, dir: int, n: nat, len: nat): int
    requires len > 0
    decreases n
  {
    if n == 0 then p else Advance(StepPos(p, dir, len), dir, n - 1, len)
  }

  /** Stepping forward `n` times from an index on the strip is adding `n`
      modulo the strip length. */
  lemma {:induction false} AdvanceForward(p: int, n: nat, len: nat)
    requires 0 <= p < len
    ensures Advance(p, 1, n, len) == (p + n) % len
    decreases n
  {
    if n > 0 {
      var q := StepPos(p, 1, len);
      calc {
        Advance(p, 1, n, len);
        Advance(q, 1, n - 1, len);
        { AdvanceForward(q, n - 1, len); }
        (q + (n - 1)) % len;
        { ModStepUp(p, n, len, q); }
        (p + n) % len;
      }
    }
  }

  /** Stepping backward `n` times is subtracting `n` modulo the length. */
  lemma {:induction false} AdvanceBackward(p: int, n: nat, len: nat)
    requires 0 <= p < len
    ensures Advance(p, -1, n, len) == (p - n) % len
    decreases n
  {
    if n > 0 {
      var q := StepPos(p, -1, len);
      calc {
        Advance(p, -1, n, len);
        Advance(q, -1, n - 1, len);
        { AdvanceBackward(q, n - 1, len); }
        (q - (n - 1)) % len;
        { ModStepDown(p, n, len, q); }
        (p - n) % len;
      }
    }
  }

  /** `(k + 1) * h == k * h + h`. */
  lemma MulSuccReal(k: nat, h: real)
    ensures (k as real + 1.0) * h == k as real * h + h
  {
  }

  /** `n` row heights, added one at a time as the carry loops do. */
  function Rows(n: nat, rh: real): real
  {
    if n == 0 then 0.0 else Rows(n - 1, rh) + rh
  }

  /** `n` row heights added one at a time are `n` times the row height. */
  lemma {:induction false} RowsIsProduct(n: nat, rh: real)
    ensures Rows(n, rh) == n as real * rh
  {
    if n > 0 {
      RowsIsProduct(n - 1, rh);
      MulSuccReal(n - 1, rh);
    }
  }

  /** The forward carry loop: while the offset is at least a row height,
      drop a row height and step the position. `budget` bounds the
      iterations; `n` is how many were taken. */
  function CarryForward(o: real, p: int, dir: int, rh: real, len: nat, budget: nat): (r: (real, int, nat))
    requires rh > 0.0 && len > 0 && o < (budget as real + 1.0) * rh
    ensures r.0 < rh
    ensures o >= 0.0 ==> r.0 >= 0.0
    ensures o < rh ==> r == (o, p, 0)
    ensures r.0 + Rows(r.2, rh) == o
    ensures r.1 == Advance(p, dir, r.2, len)
    decreases budget
  {
    if o < rh || budget == 0 then
      assert (0.0 + 1.0) * rh == rh;
      (o, p, 0)
    else
      MulSuccReal(budget - 1, rh);
      assert (budget - 1) as real + 1.0 == budget as real;
      var rest := CarryForward(o - rh, StepPos(p, dir, len), dir, rh, len, budget - 1);
      (rest.0, rest.1, rest.2 + 1)
  }

  /** The backward carry loop: while the offset is negative, add a row
      height and step the position. As written, the step goes the same way
      as the forward carry's: backward only when `dir` is -1. */
  function CarryBack(o: real, p: int, dir: int, rh: real, len: nat, budget: nat): (r: (real, int, nat))
    requires rh > 0.0 && len > 0 && o + budget as real * rh >= 0.0
    requires dir == 1 || dir == -1
    ensures r.0 >= 0.0
    ensures o < rh ==> r.0 < rh
    ensures o >= 0.0 ==> r == (o, p, 0)
    ensures r.0 == o + Rows(r.2, rh)
    ensures r.1 == Advance(p, dir, r.2, len)
    decreases budget
  {
    if o >= 0.0 || budget == 0 then
      assert 0 as real * rh == 0.0;
      (o, p, 0)
    else
      MulSuccReal(budget - 1, rh);
      assert (o + rh) + (budget - 1) as real * rh == o + budget as real * rh;
      var rest := CarryBack(o + rh, StepPos(p, dir, len), dir, rh, len, budget - 1);
      (rest.0, rest.1, rest.2 + 1)
  }

  /** A bound on the forward carry iterations for offset `o`. */
  function ForwardBudget(o: real, rh: real): (b: nat)
    requires rh > 0.0
    ensures o < (b as real + 1.0) * rh
  {
    if o < 0.0 then
      assert (0.0 + 1.0) * rh == rh;
      0
    else
      var f := Floor(o / rh);
      assert f >= 0 by { QuotientSign(o, rh); }
      DivBound(o, rh, f as real + 1.0);
      f
  }

  /** A bound on the backward carry iterations for offset `o`. */
  function BackBudget(o: real, rh: real): (b: nat)
    requires rh > 0.0
    ensures o + b as real * rh >= 0.0
  {
    if o >= 0.0 then
      assert 0.0 * rh == 0.0;
      0
    else
      var c := Ceil(-o / rh);
      assert c >= 0 by { QuotientSign(-o, rh); }
      DivCover(-o, rh, c as real);
      c
  }

  lemma DivBound(x: real, h: real, y: real)
    requires h > 0.0 && x / h < y
    ensures x < y * h
  {
    MulMono(h, x / h, y);
  }

  lemma DivCover(x: real, h: real, y: real)
    requires h > 0.0 && x / h <= y
    ensures x <= y * h
  {
    MulMono(h, x / h, y);
  }

  /** The spinning branch's scroll: adds `delta` pixels to the offset and
      carries whole rows into the position, forward only. */
  function ScrollForward(r: Reel, delta: real, cfg: Config): (r': Reel)
    requires ConfigOk(cfg)
    ensures r'.offset < cfg.rowHeight
    ensures r.offset + delta >= 0.0 ==> r'.offset >= 0.0
    ensures r.offset + delta < cfg.rowHeight ==> r' == r.(offset := r.offset + delta)
    ensures 0 <= r.position < cfg.len ==> 0 <= r'.position < cfg.len
    ensures r' == r.(offset := r'.offset, position := r'.position)
  {
    var dir := Direction(r.speed, cfg.spinSpeed);
    var o := r.offset + delta;
    var fwd := CarryForward(o, r.position, dir, cfg.rowHeight, cfg.len, ForwardBudget(o, cfg.rowHeight));
    AdvanceInRange(r.position, dir, fwd.2, cfg.len);
    r.(offset := fwd.0, position := fwd.1)
  }

  /** The easing branch's scroll: adds `delta` pixels to the offset and
      carries whole rows into the position, forward then backward. */
  function Scroll(r: Reel, delta: real, cfg: Config): (r': Reel)
    requires ConfigOk(cfg)
    ensures 0.0 <= r'.offset < cfg.rowHeight
    ensures 0.0 <= r.offset + delta < cfg.rowHeight ==> r' == r.(offset := r.offset + delta)
    ensures 0 <= r.position < cfg.len ==> 0 <= r'.position < cfg.len
    ensures r' == r.(offset := r'.offset, position := r'.position)
  {
    var dir := Direction(r.speed, cfg.spinSpeed);
    var o := r.offset + delta;
    var fwd := CarryForward(o, r.position, dir, cfg.rowHeight, cfg.len, ForwardBudget(o, cfg.rowHeight));
    var back := CarryBack(fwd.0, fwd.1, dir, cfg.rowHeight, cfg.len, BackBudget(fwd.0, cfg.rowHeight));
    AdvanceInRange(r.position, dir, fwd.2, cfg.len);
    AdvanceInRange(fwd.1, dir, back.2, cfg.len);
    r.(offset := back.0, position := back.1)
  }

  lemma {:induction false} AdvanceInRange(p: int, dir: int, n: nat, len: nat)
    requires len > 0
    ensures 0 <= p < len ==> 0 <= Advance(p, dir, n, len) < len
    decreases n
  {
    if n > 0 && 0 <= p < len {
      AdvanceInRange(StepPos(p, dir, len), dir, n - 1, len);
    }
  }

  /** How far an easing tick scrolls: the absolute speed times the decayed
      easing factor. */
  function EasedStep(r: Reel): real
  {
    AbsReal(r.speed) * (r.easing * EasingDecay)
  }

  /** The easing branch's move: the easing factor decays and the reel
      scrolls by its absolute speed times the decayed factor. */
  function EaseScroll(r: Reel, cfg: Config): (r': Reel)
    requires ConfigOk(cfg)
    ensures r'.easing == r.easing * EasingDecay && r'.phase == r.phase && r'.target == r.target && r'.speed == r.speed
    ensures 0.0 <= r'.offset < cfg.rowHeight
    ensures 0 <= r.position < cfg.len ==> 0 <= r'.position < cfg.len
  {
    Scroll(r.(easing := r.easing * EasingDecay), EasedStep(r), cfg)
  }

  /** The visual continuous position at the end of easing, wrapped into
      `[0, len)`: the top index plus (forward) or minus (backward) the
      fraction of a row already scrolled. */
  function VisualPosition(r: Reel, cfg: Config): (v: real)
    requires ConfigOk(cfg)
    ensures 0.0 <= v < cfg.len as real
    ensures 0.0 <= r.offset < cfg.rowHeight && 0 <= r.position < cfg.len ==>
      var v0 := if Direction(r.speed, cfg.spinSpeed) > 0 then r.position as real + r.offset / cfg.rowHeight
                else r.position as real - r.offset / cfg.rowHeight;
      v == if v0 >= 0.0 then v0 else v0 + cfg.len as real
  {
    var rh := cfg.rowHeight;
    QuotientSign(r.offset, rh);
    QuotientRange(r.offset, rh);
    var sub0 := RealRem(r.offset, rh);
    var sub := if sub0 < 0.0 then sub0 + rh else sub0;
    var frac := sub / rh;
    var dir := Direction(r.speed, cfg.spinSpeed);
    var v0 := if dir > 0 then r.position as real + frac else r.position as real - frac;
    var l := cfg.len as real;
    RealRem(RealRem(v0, l) + l, l)
  }

  /** The strip index a reel settles onto: the visual position rounded up
      when spinning forward and down when spinning backward, wrapped into
      `[0, len)`. */
  function SettleTarget(v: real, dir: int, len: nat): (t: int)
    requires len > 0 && 0.0 <= v < len as real
    ensures 0 <= t < len
    ensures dir > 0 ==> t == Ceil(v) % len
    ensures dir <= 0 ==> t == Floor(v) % len
  {
    var t0 := if dir > 0 then Ceil(v) else Floor(v);
    assert 0 <= t0 <= len;
    var m := JsRem(t0, len);
    assert m == t0 % len;
    ModAddPeriod(m, len);
    ModUnique(m, len, 0, m);
    JsRem(m + len, len)
  }

  /** The pixel offset a settling reel starts from: the distance from the
      visual position to the target, in pixels, taken the short way round
      the strip. */
  function SettleOffset(v: real, t: int, cfg: Config): (o: real)
    requires ConfigOk(cfg) && 0.0 <= v < cfg.len as real && 0 <= t < cfg.len
    ensures -HalfStrip(cfg) <= o <= HalfStrip(cfg)
    ensures o == (v - t as real) * cfg.rowHeight || o == (v - t as real) * cfg.rowHeight - cfg.len as real * cfg.rowHeight
         || o == (v - t as real) * cfg.rowHeight + cfg.len as real * cfg.rowHeight
  {
    var l := cfg.len as real;
    var rh := cfg.rowHeight;
    var init := (v - t as real) * rh;
    var half := HalfStrip(cfg);
    ScaleWithin(rh, l, v - t as real, init);
    if init > half then init - l * rh
    else if init < -half then init + l * rh
    else init
  }

  /** A distance of less than `l` rows is less than `l` rows of pixels. */
  lemma ScaleWithin(rh: real, l: real, x: real, y: real)
    requires rh > 0.0 && -l < x < l && y == x * rh
    ensures -(l * rh) < y < l * rh
  {
    MulMono(rh, -l, x);
    MulMono(rh, x, l);
    assert rh * x == x * rh && rh * l == l * rh && rh * -l == -(l * rh);
  }

  /** Half the strip's height in pixels. */
  function HalfStrip(cfg: Config): (h: real)
    requires ConfigOk(cfg)
    ensures h > 0.0 && 2.0 * h == cfg.len as real * cfg.rowHeight
  {
    MulMono(cfg.rowHeight, 0.0, cfg.len as real / 2.0);
    (cfg.len as real / 2.0) * cfg.rowHeight
  }

  /** The end of easing: the reel enters settling at its target index. */
  function EnterSettling(r: Reel, cfg: Config): (r': Reel)
    requires ConfigOk(cfg)
    ensures r'.phase == Settling && 0 <= r'.target < cfg.len && r'.position == r'.target
    ensures -HalfStrip(cfg) <= r'.offset <= HalfStrip(cfg)
    ensures r' == r.(phase := Settling, target := r'.target, position := r'.target, offset := r'.offset)
  {
    var v := VisualPosition(r, cfg);
    var t := SettleTarget(v, Direction(r.speed, cfg.spinSpeed), cfg.len);
    r.(phase := Settling, target := t, position := t, offset := SettleOffset(v, t, cfg))
  }

  /** One animation tick of one reel. Spinning scrolls forward by the speed,
      carrying whole rows forward only. Easing decays the easing factor;
      below the threshold the reel enters settling, otherwise it scrolls by
      the eased speed with both carries. Settling snaps to the target (the
      engine floors the target, which is already a whole index) with a zero
      offset when the offset is below half a pixel, and otherwise shrinks
      the offset by the settling speed. A stopped reel stays as it is. */
  function Tick(r: Reel, cfg: Config): (r': Reel)
    requires ConfigOk(cfg)
    ensures r.phase == Spinning ==> r'.phase == Spinning
    ensures r.phase == Easing ==>
      (r'.phase == Settling <==> r.easing * EasingDecay < SettleBelow) &&
      (r'.phase == Easing <==> r.easing * EasingDecay >= SettleBelow)
    ensures r.phase == Settling ==>
      (r'.phase == Stopped <==> AbsReal(r.offset) < SnapBelow) &&
      (r'.phase == Settling <==> AbsReal(r.offset) >= SnapBelow)
    ensures r.phase == Stopped ==> r' == r
    ensures r'.speed == r.speed
    ensures r.phase == Spinning ==>
      && r' == r.(offset := r'.offset, position := r'.position)
      && r'.offset < cfg.rowHeight && (r.offset >= 0.0 ==> r'.offset >= 0.0)
    ensures r.phase == Easing && r'.phase == Easing ==>
      r'.easing == r.easing * EasingDecay && 0.0 <= r'.offset < cfg.rowHeight && r'.target == r.target
    ensures r.phase == Easing && r'.phase == Settling ==>
      0 <= r'.target < cfg.len && r'.position == r'.target && -HalfStrip(cfg) <= r'.offset <= HalfStrip(cfg)
    ensures r.phase == Settling && r'.phase == Stopped ==>
      r'.offset == 0.0 && r'.position == r.target && r'.target == r.target
    ensures r.phase == Settling && r'.phase == Settling ==>
      r' == r.(offset := r.offset * (1.0 - SettleSpeed))
  {
    match r.phase
    case Spinning => ScrollForward(r, AbsReal(r.speed), cfg)
    case Easing =>
      var e := r.easing * EasingDecay;
      if e < SettleBelow then EnterSettling(r.(easing := e), cfg)
      else EaseScroll(r, cfg)
    case Settling =>
      if AbsReal(r.offset) < SnapBelow then r.(offset := 0.0, phase := Stopped, position := r.target)
      else r.(offset := r.offset * (1.0 - SettleSpeed))
    case Stopped => r
  }

  /** The easing timer firing: only a spinning reel starts easing. */
  function StartEasing(r: Reel): (r': Reel)
    ensures r.phase == Spinning ==> r' == r.(phase := Easing)
    ensures r.phase != Spinning ==> r' == r
  {
    if r.phase == Spinning then r.(phase := Easing) else r
  }

  /** A spin starting on this reel, with `u` the draw that picks its speed:
      spinning at the configured speed plus up to 5 pixels per tick, easing
      reset. The reel keeps its place on the strip. */
  function StartSpin(r: Reel, cfg: Config, u: real): (r': Reel)
    requires ConfigOk(cfg)
    ensures r'.phase == Spinning && r'.easing == 1.0
    ensures 0.0 <= u < 1.0 ==> cfg.spinSpeed <= r'.speed < cfg.spinSpeed + 5.0
    ensures r'.position == r.position && r'.offset == r.offset && r'.target == r.target
    ensures Valid(r, cfg) && r.phase == Stopped ==> Valid(r', cfg) && r'.offset == 0.0
  {
    r.(phase := Spinning, easing := 1.0, speed := cfg.spinSpeed + u * 5.0)
  }

  /** The invariant of a reel between ticks. */
  predicate Valid(r: Reel, cfg: Config)
    requires ConfigOk(cfg)
  {
    && 0 <= r.position < cfg.len
    && 0 <= r.target < cfg.len
    && r.easing >= 0.0
    && match r.phase
       case Spinning => 0.0 <= r.offset < cfg.rowHeight
       case Easing => 0.0 <= r.offset < cfg.rowHeight
       case Settling => -HalfStrip(cfg) <= r.offset <= HalfStrip(cfg) && r.position == r.target
       case Stopped => r.offset == 0.0 && r.position == r.target
  }

  /** The phase order: a tick moves a reel at most one phase forward, and
      only easing → settling → stopped happen on a tick. */
  predicate PhaseStep(a: Phase, b: Phase)
  {
    a == b || (a == Easing && b == Settling) || (a == Settling && b == Stopped)
  }

  /** Every event keeps a reel valid and respects the phase order. */
  lemma TickKeepsValid(r: Reel, cfg: Config)
    requires ConfigOk(cfg) && Valid(r, cfg)
    ensures Valid(Tick(r, cfg), cfg)
    ensures PhaseStep(r.phase, Tick(r, cfg).phase)
  {
    match r.phase
    case Spinning =>
    case Easing =>
      assert r.easing * EasingDecay >= 0.0;
    case Settling =>
      var o := r.offset;
      if AbsReal(o) >= SnapBelow {
        SettlingShrinks(o);
      }
    case Stopped =>
  }

  /** A settling tick moves the offset toward zero without crossing it. */
  lemma SettlingShrinks(o: real)
    ensures AbsReal(o * (1.0 - SettleSpeed)) <= AbsReal(o)
    ensures o >= 0.0 ==> o * (1.0 - SettleSpeed) >= 0.0
    ensures o <= 0.0 ==> o * (1.0 - SettleSpeed) <= 0.0
  {
  }

  /** A valid reel stays valid through the easing timer. */
  lemma EasingTimerKeepsValid(r: Reel, cfg: Config)
    requires ConfigOk(cfg) && Valid(r, cfg)
    ensures Valid(StartEasing(r), cfg)
  {
  }

  /** `r'` is `r` moved forward by `n` whole rows plus a remaining offset,
      for a total of the reel's speed in pixels. */
  predicate ScrolledBy(r: Reel, r': Reel, n: nat, cfg: Config)
    requires ConfigOk(cfg)
  {
    r'.offset + Rows(n, cfg.rowHeight) == r.offset + r.speed && r'.position == (r.position + n) % cfg.len
  }

  /** A spinning tick from a non-negative offset leaves the offset within
      one row and the position on the strip, and moves the reel by exactly
      its absolute speed: whole rows into the position, stepped in the
      reel's direction, the rest into the offset. Spinning forward, the
      position advances by those rows modulo the strip length. */
  lemma SpinningTickScrolls(r: Reel, cfg: Config)
    requires ConfigOk(cfg) && r.phase == Spinning && r.offset >= 0.0 && 0 <= r.position < cfg.len
    ensures var r' := Tick(r, cfg);
      && 0.0 <= r'.offset < cfg.rowHeight
      && 0 <= r'.position < cfg.len
      && exists n: nat :: CarriedBy(r, r', n, AbsReal(r.speed), cfg)
    ensures r.speed > 0.0 ==> exists n: nat :: ScrolledBy(r, Tick(r, cfg), n, cfg)
  {
    var dir := Direction(r.speed, cfg.spinSpeed);
    var o := r.offset + AbsReal(r.speed);
    var fwd := CarryForward(o, r.position, dir, cfg.rowHeight, cfg.len, ForwardBudget(o, cfg.rowHeight));
    var t := Tick(r, cfg);
    assert t == ScrollForward(r, AbsReal(r.speed), cfg);
    assert t.offset == fwd.0 && t.position == fwd.1;
    assert CarriedBy(r, t, fwd.2, AbsReal(r.speed), cfg);
    if r.speed > 0.0 {
      AdvanceForward(r.position, fwd.2, cfg.len);
      assert dir == 1 && AbsReal(r.speed) == r.speed;
      assert ScrolledBy(r, t, fwd.2, cfg);
    }
  }

  /** `r'` is `r` moved by `n` whole rows, stepped in the reel's direction,
      plus a remaining offset, for a total of `delta` pixels. */
  predicate CarriedBy(r: Reel, r': Reel, n: nat, delta: real, cfg: Config)
    requires ConfigOk(cfg)
  {
    && r'.offset + Rows(n, cfg.rowHeight) == r.offset + delta
    && r'.position == Advance(r.position, Direction(r.speed, cfg.spinSpeed), n, cfg.len)
  }

  /** `r'` is `r` moved forward by its absolute speed scaled by the decayed
      easing factor. */
  predicate EasedBy(r: Reel, r': Reel, n: nat, cfg: Config)
    requires ConfigOk(cfg)
  {
    CarriedBy(r, r', n, EasedStep(r), cfg)
  }

  /** An easing tick that keeps easing, from a non-negative offset, leaves
      the offset within one row and the position on the strip, and moves the
      reel by exactly its absolute speed times the decayed easing factor:
      whole rows into the position, stepped in the reel's direction, the
      rest into the offset. */
  lemma EasingTickScrolls(r: Reel, cfg: Config)
    requires ConfigOk(cfg) && r.phase == Easing && r.offset >= 0.0 && 0 <= r.position < cfg.len
    requires r.easing * EasingDecay >= SettleBelow
    ensures var r' := Tick(r, cfg);
      && r'.phase == Easing
      && 0.0 <= r'.offset < cfg.rowHeight
      && 0 <= r'.position < cfg.len
      && exists n: nat :: EasedBy(r, r', n, cfg)
  {
    assert Tick(r, cfg) == EaseScroll(r, cfg);
    var n := EaseScrollCarries(r, cfg);
    assert EasedBy(r, EaseScroll(r, cfg), n, cfg);
  }

  /** An easing scroll from a non-negative offset carries `n` whole rows
      into the position and keeps the rest in the offset. */
  lemma EaseScrollCarries(r: Reel, cfg: Config) returns (n: nat)
    requires ConfigOk(cfg) && r.offset >= 0.0 && 0 <= r.position < cfg.len && r.easing >= 0.0
    ensures EasedBy(r, EaseScroll(r, cfg), n, cfg)
  {
    EasedDeltaNonNegative(r);
    n := DecayedScrollCarries(r, EasedStep(r), cfg);
  }

  /** The scroll of the reel with its easing factor decayed carries like
      any forward scroll. */
  lemma DecayedScrollCarries(r: Reel, d: real, cfg: Config) returns (n: nat)
    requires ConfigOk(cfg) && r.offset >= 0.0 && 0 <= r.position < cfg.len && d >= 0.0
    ensures CarriedBy(r, Scroll(r.(easing := r.easing * EasingDecay), d, cfg), n, d, cfg)
  {
    n := ForwardScrollCarries(r.(easing := r.easing * EasingDecay), d, cfg);
  }

  lemma EasedDeltaNonNegative(r: Reel)
    requires r.easing >= 0.0
    ensures EasedStep(r) >= 0.0
  {
    MulMono(AbsReal(r.speed) + 1.0, 0.0, r.easing * EasingDecay);
    MulMono(r.easing * EasingDecay + 1.0, 0.0, AbsReal(r.speed));
  }

  /** A scroll by a non-negative amount from a non-negative offset carries
      `n` whole rows into the position, stepped in the reel's direction, and
      keeps the rest in the offset; the backward carry never runs. */
  lemma ForwardScrollCarries(r: Reel, delta: real, cfg: Config) returns (n: nat)
    requires ConfigOk(cfg) && r.offset >= 0.0 && delta >= 0.0 && 0 <= r.position < cfg.len
    ensures CarriedBy(r, Scroll(r, delta, cfg), n, delta, cfg)
  {
    var dir := Direction(r.speed, cfg.spinSpeed);
    var o := r.offset + delta;
    var fwd := CarryForward(o, r.position, dir, cfg.rowHeight, cfg.len, ForwardBudget(o, cfg.rowHeight));
    var back := CarryBack(fwd.0, fwd.1, dir, cfg.rowHeight, cfg.len, BackBudget(fwd.0, cfg.rowHeight));
    assert back == (fwd.0, fwd.1, 0);
    n := fwd.2;
  }

  /** What a tick of all reels reports: the new reels and whether every
      reel has stopped, which ends the spin. */
  function AnimateFrame(reels: seq<Reel>, cfg: Config): (r: (seq<Reel>, bool))
    requires ConfigOk(cfg)
    ensures |r.0| == |reels|
    ensures forall i :: 0 <= i < |reels| ==> r.0[i] == Tick(reels[i], cfg)
    ensures r.1 <==> forall i :: 0 <= i < |reels| ==> r.0[i].phase == Stopped
  {
    var next := seq(|reels|, i requires 0 <= i < |reels| => Tick(reels[i], cfg));
    (next, forall i :: 0 <= i < |next| ==> next[i].phase == Stopped)
  }
}

=== FILE: session.dfy ===
/** The betting session: balance, bet and payline guards, the spin event, and
    the settlement of a stopped spin (scatter pay, free-spin awards and line
    pays). Money is held in integer cents; the source keeps dollars in
    floating point and rounds to the cent where it rounds at all. */
module Session {
  import opened Numeric
  import opened Symbols
  import opened Paylines
  import opened LineEval

  /** Bet limits and step, in cents ($0.02 .. $5.00 in steps of $0.02). */
  const MinBet: int := 2
  const MaxBet: int := 500
  const BetStep: int := 2
  /** The starting balance, $100.00. */
  const InitialBalance: int := 10000
  /** Scatters needed for the free-spin feature, and the spins it awards. */
  const ScatterThreshold: nat := 3
  const BaseFreeSpins: nat := 10

  /** The session state the outcome engine reads and writes. `freeLeft` is
      the remaining free spins, `freeNumber` the number of the free spin in
      progress and `freeAwarded` the spins awarded in the current feature. */
  datatype Session = Session(
    balance: int, bet: int, lines: int, maxLines: int,
    spinning: bool, inFree: bool,
    freeLeft: int, freeNumber: int, freeAwarded: int)

  /** A fresh session for a grid with `maxLines` paylines: $100.00, the
      minimum bet, every payline active. */
  function Start(maxLines: int): (s: Session)
    requires maxLines >= 1
    ensures Valid(s) && !s.spinning && !s.inFree
  {
    Session(InitialBalance, MinBet, maxLines, maxLines, false, false, 0, 0, 0)
  }

  /** The invariant of every reachable session. Between spins, a session in
      free-spin mode still has a spin left; during a feature the spins played
      and the spins left add up to the spins awarded. */
  predicate Valid(s: Session)
  {
    && MinBet <= s.bet <= MaxBet
    && 1 <= s.lines <= s.maxLines
    && s.balance >= 0
    && s.freeLeft >= 0 && s.freeNumber >= 0
    && (!s.inFree ==> s.freeLeft == 0)
    && (s.inFree ==> s.freeNumber + s.freeLeft == s.freeAwarded)
    && (!s.spinning && s.inFree ==> s.freeLeft > 0)
  }

  /** The stake of a paid spin: the bet on each active payline. */
  function Stake(s: Session): int
  {
    s.bet * s.lines
  }

  /** The spin button. Nothing happens while a spin runs. In free-spin mode
      with spins left, the spin is free and advances the feature counter.
      Otherwise the stake is charged, and a balance below it refuses the
      spin. A started spin in free-spin mode uses up one free spin when the
      count is not negative. */
  function Spin(s: Session): (r: Session)
    ensures s.spinning ==> r == s
    ensures !s.spinning && !(s.inFree && s.freeLeft > 0) && s.balance < Stake(s) ==> r == s
    ensures !s.spinning && s.inFree && s.freeLeft > 0 ==>
      r == s.(spinning := true, freeNumber := s.freeNumber + 1, freeLeft := s.freeLeft - 1)
    ensures !s.spinning && !(s.inFree && s.freeLeft > 0) && s.balance >= Stake(s) ==>
      && r.spinning && r.balance == s.balance - Stake(s)
      && r.freeLeft == (if s.inFree && s.freeLeft >= 0 then s.freeLeft - 1 else s.freeLeft)
      && r == s.(spinning := true, balance := r.balance, freeLeft := r.freeLeft)
  {
    if s.spinning then s
    else
      var paid :=
        if s.inFree && s.freeLeft > 0 then Some(s.(freeNumber := s.freeNumber + 1))
        else if s.balance < Stake(s) then None
        else Some(s.(balance := s.balance - Stake(s)));
      match paid
      case None => s
      case Some(t) =>
        var t' := t.(spinning := true);
        if t'.inFree && t'.freeLeft >= 0 then t'.(freeLeft := t'.freeLeft - 1) else t'
  }

  /** Steps the bet by `delta` increments; the new bet is kept only inside
      `[MinBet, MaxBet]`, and nothing changes while a spin runs. */
  function ChangeBet(s: Session, delta: int): (r: Session)
    ensures r == s || r == s.(bet := r.bet)
    ensures r.bet != s.bet <==> !s.spinning && delta != 0 && MinBet <= s.bet + delta * BetStep <= MaxBet
    ensures r.bet != s.bet ==> r.bet == s.bet + delta * BetStep
  {
    if s.spinning then s
    else
      var b := s.bet + delta * BetStep;
      if MinBet <= b <= MaxBet then s.(bet := b) else s
  }

  /** Steps the number of active paylines by `delta`; the new count is kept
      only inside `[1, maxLines]`, and nothing changes while a spin runs. */
  function ChangePaylines(s: Session, delta: int): (r: Session)
    ensures r == s || r == s.(lines := r.lines)
    ensures r.lines != s.lines <==> !s.spinning && delta != 0 && 1 <= s.lines + delta <= s.maxLines
    ensures r.lines != s.lines ==> r.lines == s.lines + delta
  {
    if s.spinning then s
    else
      var n := s.lines + delta;
      if 1 <= n <= s.maxLines then s.(lines := n) else s
  }

  /** A bet step that was taken is undone by the opposite step. */
  lemma ChangeBetUndo(s: Session, delta: int)
    requires MinBet <= s.bet <= MaxBet && ChangeBet(s, delta) != s
    ensures ChangeBet(ChangeBet(s, delta), -delta) == s
  {
  }

  /** A payline step that was taken is undone by the opposite step. */
  lemma ChangePaylinesUndo(s: Session, delta: int)
    requires 1 <= s.lines <= s.maxLines && ChangePaylines(s, delta) != s
    ensures ChangePaylines(ChangePaylines(s, delta), -delta) == s
  {
  }

  // ---------------------------------------------------------------------
  // Settlement of a stopped spin

  /** The cells of the visible window, row by row: rows below `rows` that the
      grid has, and in each the cells below `reels` that the row has. */
  function Window(grid: seq<seq<Symbol>>, rows: int, reels: int): (w: seq<Symbol>)
    ensures forall x :: x in w <==>
      exists r, k :: 0 <= r < rows && r < |grid| && 0 <= k < reels && k < |grid[r]| && grid[r][k] == x
    decreases |grid|
  {
    if |grid| == 0 || rows <= 0 then []
    else
      var fewer := grid[..|grid| - 1];
      var last := |grid| - 1;
      var prefix := Window(fewer, Min(rows, last), reels);
      var row := grid[last];
      var cells := row[..Max(0, Min(reels, |row|))];
      if rows <= last then Window(fewer, rows, reels)
      else
        assert forall r :: 0 <= r < last ==> fewer[r] == grid[r];
        assert forall x :: x in cells <==> exists k :: 0 <= k < reels && k < |row| && row[k] == x;
        prefix + cells
  }

  /** The number of scatters in the visible window. */
  function ScatterCount(grid: seq<seq<Symbol>>, rows: int, reels: int): nat
  {
    multiset(Window(grid, rows, reels))[Scatter]
  }

  /** No window cell is a scatter exactly when the scatter count is zero. */
  lemma NoScatterIffZero(grid: seq<seq<Symbol>>, rows: int, reels: int)
    ensures ScatterCount(grid, rows, reels) == 0 <==>
      forall r, k :: 0 <= r < rows && r < |grid| && 0 <= k < reels && k < |grid[r]| ==> !grid[r][k].Scatter?
  {
    var w := Window(grid, rows, reels);
    if ScatterCount(grid, rows, reels) == 0 {
      assert Scatter !in w;
    } else {
      assert Scatter in w;
    }
  }

  /** The number of scatters in row `row` among its first `reels` cells. */
  function RowScatters(row: seq<Symbol>, upto: nat): (n: nat)
    requires upto <= |row|
    ensures n == multiset(row[..upto])[Scatter]
  {
    if upto == 0 then 0
    else
      assert row[..upto] == row[..upto - 1] + [row[upto - 1]];
      RowScatters(row, upto - 1) + (if row[upto - 1].Scatter? then 1 else 0)
  }

  /** Counts the scatters of the window row by row, reel by reel, skipping
      cells the grid does not have. */
  method CountScatterSymbols(grid: seq<seq<Symbol>>, rows: nat, reels: nat) returns (n: nat)
    ensures n == ScatterCount(grid, rows, reels)
  {
    n := 0;
    var r := 0;
    while r < rows
      invariant 0 <= r <= rows
      invariant n == ScatterCount(grid, r, reels)
    {
      if r < |grid| {
        var inRow := CountRowScatters(grid[r], reels);
        WindowNextRow(grid, r, reels);
        n := n + inRow;
      } else {
        WindowPastGrid(grid, r, reels);
      }
      r := r + 1;
    }
  }

  /** The inner loop: scatters among the first `reels` cells of a row. */
  method CountRowScatters(row: seq<Symbol>, reels: nat) returns (inRow: nat)
    ensures inRow == RowScatters(row, Max(0, Min(reels, |row|)))
  {
    var k := 0;
    inRow := 0;
    while k < reels
      invariant 0 <= k <= reels
      invariant inRow == RowScatters(row, Min(k, |row|))
    {
      if k < |row| && row[k].Scatter? {
        inRow := inRow + 1;
      }
      k := k + 1;
    }
  }

  /** Adding a row the grid has appends that row's visible cells. */
  lemma WindowNextRow(grid: seq<seq<Symbol>>, r: nat, reels: int)
    requires r < |grid|
    ensures ScatterCount(grid, r + 1, reels) == ScatterCount(grid, r, reels) + RowScatters(grid[r], Max(0, Min(reels, |grid[r]|)))
  {
    WindowSplit(grid, r, reels);
  }

  /** Rows beyond the grid add nothing. */
  lemma WindowPastGrid(grid: seq<seq<Symbol>>, r: nat, reels: int)
    requires r >= |grid|
    ensures Window(grid, r + 1, reels) == Window(grid, r, reels)
  {
    WindowCapped(grid, r + 1, reels);
    WindowCapped(grid, r, reels);
  }

  /** Only the rows the grid has matter. */
  lemma {:induction false} WindowCapped(grid: seq<seq<Symbol>>, rows: int, reels: int)
    requires rows >= |grid|
    ensures Window(grid, rows, reels) == Window(grid, |grid|, reels)
  {
  }

  /** The window of `r + 1` rows is the window of `r` rows followed by the
      visible cells of row `r`. */
  lemma {:induction false} WindowSplit(grid: seq<seq<Symbol>>, r: nat, reels: int)
    requires r < |grid|
    ensures Window(grid, r + 1, reels) == Window(grid, r, reels) + grid[r][..Max(0, Min(reels, |grid[r]|))]
    decreases |grid|
  {
    var last := |grid| - 1;
    var fewer := grid[..last];
    if r < last {
      WindowSplit(fewer, r, reels);
      assert fewer[r] == grid[r];
    } else {
      WindowCapped(fewer, r, reels);
    }
  }

  /** Free spins awarded for `count` scatters: the base award at the
      threshold and half the base more for each scatter beyond it. */
  function FreeSpinsFor(count: nat): (n: nat)
    ensures n > 0 <==> count >= ScatterThreshold
    ensures count >= ScatterThreshold ==> 2 * n == BaseFreeSpins * (count - ScatterThreshold + 2)
  {
    if count < ScatterThreshold then 0
    else if count > ScatterThreshold then BaseFreeSpins + (count - ScatterThreshold) * (BaseFreeSpins / 2)
    else BaseFreeSpins
  }

  /** The free-spin multiplier of 1.25 applied to a win in cents and rounded
      half up to WHOLE DOLLARS, as the engine rounds its dollar amount to an
      integer. */
  function FreeSpinPay(cents: int): (r: int)
    ensures r % 100 == 0
    ensures 4 * r - 200 <= 5 * cents < 4 * r + 200
  {
    RoundDiv(cents * 5, 400) * 100
  }

  /** A win below 40 cents is rounded away during free spins. */
  lemma FreeSpinPayDropsSmallWins(cents: int)
    requires 0 <= cents < 40
    ensures FreeSpinPay(cents) == 0
  {
  }

  /** The scatter pay for `count` scatters: nothing below two scatters,
      otherwise the count times the stake, with the free-spin rounding when
      the spin was a free spin. */
  function ScatterPay(count: nat, stake: int, free: bool): (r: int)
    ensures count < 2 ==> r == 0
    ensures count >= 2 && !free ==> r == count * stake
    ensures count >= 2 && free && count * stake > 0 ==> r == FreeSpinPay(count * stake)
  {
    if count < 2 then 0
    else
      var pay := count * stake;
      if free && pay > 0 then FreeSpinPay(pay) else pay
  }

  /** The payout of every payline, in order. */
  function Payouts(grid: seq<seq<Symbol>>, rows: int, reels: int, lines: seq<Payline>,
                   minWin: int, bet: int, cat: seq<Entry>): (pays: seq<int>)
    ensures |pays| == |lines|
    ensures forall i :: 0 <= i < |lines| ==> pays[i] == CheckPayline(grid, rows, reels, lines[i], minWin, bet, cat).payout
    ensures forall i :: 0 <= i < |lines| ==> pays[i] >= 0
  {
    seq(|lines|, i requires 0 <= i < |lines| => CheckPayline(grid, rows, reels, lines[i], minWin, bet, cat).payout)
  }

  /** A line payout as settled: with the free-spin rounding during free
      spins. */
  function Settled(pay: int, free: bool): (r: int)
    requires pay >= 0
    ensures r >= 0
    ensures !free ==> r == pay
    ensures free ==> r % 100 == 0 && 4 * r - 200 <= 5 * pay < 4 * r + 200
  {
    if pay > 0 && free then FreeSpinPay(pay) else pay
  }

  /** The total settled pay of the first `n` paylines. */
  function LineWins(pays: seq<int>, n: nat, free: bool): (r: int)
    requires n <= |pays| && forall i :: 0 <= i < |pays| ==> pays[i] >= 0
    ensures r >= 0
    ensures free ==> r % 100 == 0
    ensures r == 0 <==> forall i :: 0 <= i < n ==> Settled(pays[i], free) == 0
  {
    if n == 0 then 0
    else
      var prev := LineWins(pays, n - 1, free);
      var last := Settled(pays[n - 1], free);
      if free then MultipleAdd(prev, last, 100); prev + last
      else prev + last
  }

  /** The indices of the paylines below `n` that pay, in increasing order. */
  function PayingLines(pays: seq<int>, n: nat): (r: seq<nat>)
    requires n <= |pays|
    ensures forall i: nat :: i in r <==> i < n && pays[i] > 0
    ensures forall a :: 0 <= a < |r| ==> r[a] < n
    ensures forall a, b :: 0 <= a < b < |r| ==> r[a] < r[b]
  {
    if n == 0 then []
    else
      var rest := PayingLines(pays, n - 1);
      if pays[n - 1] > 0 then rest + [n - 1] else rest
  }

  /** What settling a spin produces: the new session, the total win, the
      scatter pay, the free spins awarded and the paying lines. */
  datatype Outcome = Outcome(session: Session, win: int, scatterPay: int, awarded: nat, paying: seq<nat>)

  /** Settles a stopped spin on `grid`. The scatter pay uses the free-spin
      state from before this settlement; three or more scatters then award
      free spins (starting a new feature, or adding to the running one),
      and the line pays of the first `lines` paylines use the free-spin
      state from after it. The whole win is credited to the balance. */
  function CheckWin(s: Session, grid: seq<seq<Symbol>>, rows: int, reels: int, paylines: seq<Payline>,
                    minWin: int, cat: seq<Entry>): (o: Outcome)
    ensures var count := ScatterCount(grid, rows, reels);
      && o.scatterPay == ScatterPay(count, Stake(s), s.inFree)
      && o.awarded == FreeSpinsFor(count)
      && (o.awarded > 0 ==> o.session.inFree)
      && (o.awarded == 0 ==> o.session.inFree == s.inFree)
    ensures o.session.freeLeft == s.freeLeft + o.awarded
    ensures o.awarded > 0 && !s.inFree ==> o.session.freeNumber == 0 && o.session.freeAwarded == o.awarded
    ensures o.awarded > 0 && s.inFree ==>
      o.session.freeNumber == s.freeNumber && o.session.freeAwarded == s.freeAwarded + o.awarded
    ensures o.awarded == 0 ==> o.session.freeNumber == s.freeNumber && o.session.freeAwarded == s.freeAwarded
    ensures var n := Max(0, Min(s.lines, |paylines|));
      var pays := Payouts(grid, rows, reels, paylines, minWin, s.bet, cat);
      && o.win == (if o.scatterPay > 0 then o.scatterPay else 0) + LineWins(pays, n, o.session.inFree)
      && o.paying == PayingLines(pays, n)
    ensures o.session.balance == s.balance + (if o.win > 0 then o.win else 0)
    ensures o.session == s.(balance := o.session.balance, inFree := o.session.inFree, freeLeft := o.session.freeLeft,
                            freeNumber := o.session.freeNumber, freeAwarded := o.session.freeAwarded)
  {
    var count := ScatterCount(grid, rows, reels);
    var scatterPay := ScatterPay(count, Stake(s), s.inFree);
    var awarded := FreeSpinsFor(count);
    var t :=
      if count >= ScatterThreshold then
        var base := if s.inFree then s else s.(freeNumber := 0, freeAwarded := 0);
        base.(inFree := true, freeLeft := base.freeLeft + awarded, freeAwarded := base.freeAwarded + awarded)
      else s;
    var n := Max(0, Min(s.lines, |paylines|));
    var pays := Payouts(grid, rows, reels, paylines, minWin, s.bet, cat);
    var win := (if scatterPay > 0 then scatterPay else 0) + LineWins(pays, n, t.inFree);
    var paying := PayingLines(pays, n);
    Outcome(if win > 0 then t.(balance := t.balance + win) else t, win, scatterPay, awarded, paying)
  }

  /** The end of a spin: the spin is over, and a feature with no spins left
      ends. (With spins left, the next free spin is a `Spin` event.) */
  function CompleteSpin(s: Session): (r: Session)
    ensures !r.spinning
    ensures r.inFree <==> s.inFree && s.freeLeft > 0
    ensures r == s.(spinning := false, inFree := r.inFree)
  {
    var t := s.(spinning := false);
    if t.inFree && t.freeLeft <= 0 then t.(inFree := false) else t
  }

  /** All reels have stopped: settle the grid, then complete the spin. The
      result is the settled session and the win. The spin is over, the
      positive part of the win is credited, the bet and paylines are kept,
      and the awarded free spins are added. From a valid session the result
      is valid, the balance never falls, and free-spin mode is on exactly
      when free spins are left. */
  function EndSpin(s: Session, grid: seq<seq<Symbol>>, rows: int, reels: int, paylines: seq<Payline>,
                   minWin: int, cat: seq<Entry>): (r: (Session, int))
    ensures !r.0.spinning
    ensures r.0.balance == s.balance + Max(r.1, 0)
    ensures r.0.bet == s.bet && r.0.lines == s.lines && r.0.maxLines == s.maxLines
    ensures r.0.freeLeft == s.freeLeft + FreeSpinsFor(ScatterCount(grid, rows, reels))
    ensures Valid(s) ==> Valid(r.0) && r.0.balance >= s.balance && (r.0.inFree <==> r.0.freeLeft > 0)
  {
    var o := CheckWin(s, grid, rows, reels, paylines, minWin, cat);
    (CompleteSpin(o.session), o.win)
  }

  // ---------------------------------------------------------------------
  // The session invariant

  /** A valid session stakes at least the minimum bet. */
  lemma StakePositive(s: Session)
    requires Valid(s)
    ensures Stake(s) >= MinBet
  {
    assert s.bet * s.lines >= s.bet * 1;
  }

  /** The scatter pay is never negative when the stake is not. */
  lemma ScatterPayNonNegative(count: nat, stake: int, free: bool)
    requires stake >= 0
    ensures ScatterPay(count, stake, free) >= 0
  {
    if count >= 2 {
      assert count * stake >= 0;
    }
  }

  /** A spin keeps the session valid; in particular a paid spin is never
      taken in free-spin mode, so the free-spin count never goes negative. */
  lemma SpinKeepsValid(s: Session)
    requires Valid(s)
    ensures Valid(Spin(s))
    ensures !s.spinning && Spin(s).spinning && !s.inFree ==> Spin(s).balance == s.balance - Stake(s)
    ensures s.inFree ==> Spin(s).balance == s.balance
  {
  }

  /** Bet and payline changes keep the session valid. */
  lemma ChangesKeepValid(s: Session, delta: int)
    requires Valid(s)
    ensures Valid(ChangeBet(s, delta)) && Valid(ChangePaylines(s, delta))
  {
  }

  /** As written, the spin guard takes a paid spin when free-spin mode is on
      with no spins left, and then drives the free-spin count to -1. Valid
      sessions never reach that state at rest (`SpinKeepsValid`). */
  lemma PaidSpinInFreeModeGoesNegative(s: Session)
    requires !s.spinning && s.inFree && s.freeLeft == 0 && s.balance >= Stake(s)
    ensures Spin(s).freeLeft == -1 && Spin(s).balance == s.balance - Stake(s)
    ensures !Valid(s)
  {
  }

  // ---------------------------------------------------------------------
  // Worked examples on the classic theme

  /** The top horizontal payline of a 5-reel grid. */
  const TopLine: Payline := Payline("horizontal_0", [Pos(0, 0), Pos(1, 0), Pos(2, 0), Pos(3, 0), Pos(4, 0)], PaylineColor(0))

  /** A 3-row grid whose top row is `top`; the other rows hold lemons. */
  function TopRowGrid(top: seq<Symbol>): seq<seq<Symbol>>
  {
    var lemon := Regular("lemon", 10);
    [top, [lemon, lemon, lemon, lemon, lemon], [lemon, lemon, lemon, lemon, lemon]]
  }

  /** The top line reads the top row of a `TopRowGrid`. */
  lemma TopRowCollects(top: seq<Symbol>)
    requires |top| == 5
    ensures Collect(TopRowGrid(top), 3, 5, TopLine.positions) == Some(top)
  {
    var grid := TopRowGrid(top);
    var ps := TopLine.positions;
    assert forall k :: 0 <= k < 5 ==> ps[k] == Pos(k, 0) && InGrid(grid, 3, 5, ps[k]);
    var c := Collect(grid, 3, 5, ps).value;
    assert |c| == 5 && forall k :: 0 <= k < 5 ==> c[k] == grid[0][k] == top[k];
    assert c == top;
  }

  /** Three cherries then two lemons: a run of three cherries, no wilds. */
  lemma CherryRun(cat: seq<Entry>)
    ensures var cherry := Regular("cherry", 5); var lemon := Regular("lemon", 10);
      FindBestMatchFromLeft([cherry, cherry, cherry, lemon, lemon], cat) == Match(3, Some(cherry), 0)
  {
    var cherry := Regular("cherry", 5);
    var lemon := Regular("lemon", 10);
    var line := [cherry, cherry, cherry, lemon, lemon];
    var m := FindBestMatchFromLeft(line, cat);
    assert Extends(line[2], cherry) && !Extends(line[3], cherry);
    assert line[..3] == [cherry, cherry, cherry];
  }

  /** A wild, two cherries, two lemons: a run of three cherries using one wild. */
  lemma WildCherryRun(cat: seq<Entry>)
    ensures var cherry := Regular("cherry", 5); var lemon := Regular("lemon", 10);
      FindBestMatchFromLeft([Wild, cherry, cherry, lemon, lemon], cat) == Match(3, Some(cherry), 1)
  {
    var cherry := Regular("cherry", 5);
    var lemon := Regular("lemon", 10);
    var line := [Wild, cherry, cherry, lemon, lemon];
    assert FirstRegularFrom(line, 1) == Some(1);
    var m := FindBestMatchFromLeft(line, cat);
    assert Extends(line[2], cherry) && !Extends(line[3], cherry);
    assert line[..3] == [Wild, cherry, cherry];
    assert multiset(line[..3])[Wild] == 1;
  }

  /** Three cherries and two lemons on the top line at a $1.00 bet pay
      $5.00: value 5, multiplier 1. */
  lemma ThreeCherriesPayFive()
    ensures var cherry := Regular("cherry", 5); var lemon := Regular("lemon", 10);
      CheckPayline(TopRowGrid([cherry, cherry, cherry, lemon, lemon]), 3, 5, TopLine, 3, 100, Classic()).payout
        == 500
  {
    var cherry := Regular("cherry", 5);
    var lemon := Regular("lemon", 10);
    TopRowCollects([cherry, cherry, cherry, lemon, lemon]);
    CherryRun(Classic());
  }

  /** A wild followed by two cherries counts three cherries with one wild,
      paying $7.50 at a $1.00 bet: value 5, multiplier 1.5. */
  lemma WildAndCherriesPaySevenFifty()
    ensures var cherry := Regular("cherry", 5); var lemon := Regular("lemon", 10);
      CheckPayline(TopRowGrid([Wild, cherry, cherry, lemon, lemon]), 3, 5, TopLine, 3, 100, Classic())
        == LineResult(750, 1)
  {
    var cherry := Regular("cherry", 5);
    var lemon := Regular("lemon", 10);
    TopRowCollects([Wild, cherry, cherry, lemon, lemon]);
    WildCherryRun(Classic());
  }

  /** Four scatters, one past the threshold, award fifteen free spins. */
  lemma FourScattersAwardFifteen()
    ensures FreeSpinsFor(4) == 15
  {
  }
}

=== FILE: strips.dfy ===
/** Reel-strip generation. The strips are built reel by reel, cell by cell,
    consuming uniform draws from a stream `draws` (the successive values of
    the random source) through a cursor. In "randomize" mode every cell is an
    independent draw; in "physical" mode the first reel is drawn independently
    and each later cell may copy the cell to its left, or become a wild, with a
    chance that grows with the win rate.

    The construction is written against any `basic` sampler (one draw in, one
    cell out); `GenerateReelStrips` instantiates it with `BasicSymbol` over the
    normalised catalog. */
module Strips {
  import opened Numeric
  import opened Symbols
  import opened Probability

  /** The random source: the `i`-th value it produces, each in [0, 1). */
  type Draws = nat -> real

  /** Turns one draw into a cell. */
  type Sampler = real -> Cell

  /** Strips are never shorter than this many cells. */
  const MinStripLength: nat := 32

  /** A produced cell and the cursor after the draws it consumed. */
  datatype Drawn = Drawn(cell: Cell, next: nat)

  /** The reel strips of a theme, the catalog after normalisation, the strip
      length in use, and the cursor after all draws. */
  datatype StripSet = StripSet(catalog: seq<Entry>, strips: seq<seq<Cell>>, length: nat, next: nat)

  /** The cell is missing or one of the catalog's symbols. */
  predicate FromCatalog(cat: seq<Entry>, c: Cell)
  {
    c.None? || exists j :: 0 <= j < |cat| && cat[j].sym == c.value
  }

  /** A copy of the catalog's first wild, or a missing cell when the catalog
      has no wild. */
  function WildCell(cat: seq<Entry>): (r: Cell)
    ensures r.Some? ==> r.value.Wild?
    ensures r.None? <==> forall j :: 0 <= j < |cat| ==> !cat[j].sym.Wild?
    ensures FromCatalog(cat, r)
  {
    match FirstWithId(cat, Wild)
    case Some(i) => Some(cat[i].sym)
    case None => None
  }

  /** The cell on the left may be copied: it is missing (an object without an
      id still counts) or a regular symbol, never a wild or a scatter. */
  predicate Eligible(prev: Cell)
  {
    prev.None? || prev.value.Regular?
  }

  /** The win rate as a fraction. */
  function Rate(t: Tuning): real
  {
    t.winRate as real / 100.0
  }

  /** The chance that a cell copies its left neighbour: 0.0001 at a win rate
      of at most 0.5%, 0.9999 at 99.5% or more, and otherwise
      `0.8 wrn^2 + 0.1 wrn` clamped to [0.001, 0.98]. */
  function MatchChance(wrn: real): (r: real)
    ensures 0.0001 <= r <= 0.9999
    ensures 0.005 < wrn < 0.995 ==> 0.001 <= r <= 0.98
    ensures wrn <= 0.005 ==> r == 0.0001
    ensures wrn >= 0.995 ==> r == 0.9999
    ensures 0.005 < wrn < 0.995 && 0.001 <= 0.8 * wrn * wrn + 0.1 * wrn <= 0.98 ==> r == 0.8 * wrn * wrn + 0.1 * wrn
    ensures 0.005 < wrn < 0.995 && 0.8 * wrn * wrn + 0.1 * wrn < 0.001 ==> r == 0.001
    ensures 0.005 < wrn < 0.995 && 0.8 * wrn * wrn + 0.1 * wrn > 0.98 ==> r == 0.98
  {
    if wrn <= 0.005 then 0.0001
    else if wrn >= 0.995 then 0.9999
    else MaxReal(0.001, MinReal(0.98, wrn * wrn * 0.8 + 0.1 * wrn))
  }

  /** A higher win rate never lowers the match chance. */
  lemma MatchChanceMonotone(a: real, b: real)
    requires 0.0 <= a <= b
    ensures MatchChance(a) <= MatchChance(b)
  {
    if 0.005 < a && b < 0.995 {
      MulMono(a, a, b);
      MulMono(b, a, b);
      assert a * a <= b * b;
    }
  }

  /** The cursor of the match draw: one further on at a win rate of 99.5% or
      more, where the forced-wild draw comes first. */
  function MatchCursor(inf: Influence, c: nat): (m: nat)
    ensures m == c || m == c + 1
    ensures m == c + 1 <==> inf.forced
  {
    if inf.forced then c + 1 else c
  }

  /** The chance that a match becomes a wild, above a 1% win rate. */
  function WildMatchChance(wildRarity: real, wrn: real): real
  {
    wildRarity * (0.1 + wrn * 1.9)
  }
  /** What the win rate and wild rarity decide about the influence between
      neighbouring cells: whether it applies at all (a positive win rate),
      whether a match may be forced to a wild first (at 99.5% or more) and
      under which draw, the chance of a match, whether a match may become a
      wild (above 1%) and with which chance. */
  datatype Influence = Influence(active: bool, forced: bool, forcedWild: real, matchChance: real,
                                 wildOnMatch: bool, wildChance: real)

  /** The influence of a tuning. */
  function InfluenceOf(t: Tuning): (inf: Influence)
    ensures inf.active <==> t.winRate > 0
    ensures inf.forced <==> t.winRate >= 100
    ensures inf.wildOnMatch <==> t.winRate > 1
    ensures 0.0001 <= inf.matchChance <= 0.9999
    ensures inf.active && !inf.forced ==> inf.matchChance <= 0.98
    ensures inf.matchChance == MatchChance(Rate(t))
    ensures inf.forcedWild == (t.wildRarity + 0.1) * 2.5
    ensures inf.wildChance == t.wildRarity * (0.1 + 1.9 * Rate(t))
  {
    var wrn := Rate(t);
    Influence(t.winRate > 0, wrn >= 0.995, (t.wildRarity + 0.1) * 2.5, MatchChance(wrn),
              wrn > 0.01, WildMatchChance(t.wildRarity, wrn))
  }


  /** The cell a successful match yields: the wild when forced (at 99.5% or
      more, by the draw at `c`) or when the draw after the match draw falls
      below the wild chance (above a 1% win rate); otherwise a copy of the
      left neighbour. Either way it is never an unrelated symbol. */
  function OnMatch(cat: seq<Entry>, inf: Influence, prev: Cell, draws: Draws, c: nat): (r: Drawn)
    ensures r.cell == prev || r.cell == WildCell(cat)
    ensures MatchCursor(inf, c) < r.next <= MatchCursor(inf, c) + 2
    ensures inf.forced && draws(c) < inf.forcedWild ==> r.cell == WildCell(cat)
    ensures !inf.forced && !inf.wildOnMatch ==> r.cell == prev
    ensures !(inf.forced && draws(c) < inf.forcedWild) && inf.wildOnMatch ==>
      r.cell == (if draws(MatchCursor(inf, c) + 1) < inf.wildChance then WildCell(cat) else prev)
  {
    var m := MatchCursor(inf, c);
    if inf.forced && draws(c) < inf.forcedWild then Drawn(WildCell(cat), m + 1)
    else if inf.wildOnMatch then
      if draws(m + 1) < inf.wildChance then Drawn(WildCell(cat), m + 2)
      else Drawn(prev, m + 2)
    else Drawn(prev, m + 1)
  }

  /** One cell of a physical strip beyond the first reel, next to `prev`.
      When the win rate is positive and `prev` is eligible: at a win rate of
      99.5% or more a first draw decides whether a match is forced to a wild;
      then a draw below the match chance makes a match (see `OnMatch`), and
      otherwise the following draw picks the cell independently. A cell next
      to an ineligible one, or any cell at a win rate of 0, is an independent
      draw. */
  function Influenced(cat: seq<Entry>, inf: Influence, basic: Sampler, prev: Cell, draws: Draws, c: nat): (r: Drawn)
    ensures c < r.next <= c + 3
    ensures Neighbourly(cat, basic, draws, c, r.next, prev, r.cell)
    ensures !(inf.active && Eligible(prev)) ==> r == Drawn(basic(draws(c)), c + 1)
    ensures inf.active && Eligible(prev) && draws(MatchCursor(inf, c)) >= inf.matchChance ==>
      r == Drawn(basic(draws(MatchCursor(inf, c) + 1)), MatchCursor(inf, c) + 2)
  {
    if inf.active && Eligible(prev) then
      var m := MatchCursor(inf, c);
      if draws(m) < inf.matchChance then OnMatch(cat, inf, prev, draws, c)
      else Drawn(basic(draws(m + 1)), m + 2)
    else Drawn(basic(draws(c)), c + 1)
  }

  /** When the match draw succeeds next to an eligible cell, the new cell is
      the left neighbour or the wild: never an unrelated symbol. */
  lemma MatchKeepsLine(cat: seq<Entry>, inf: Influence, basic: Sampler, prev: Cell, draws: Draws, c: nat)
    requires inf.active && Eligible(prev) && draws(MatchCursor(inf, c)) < inf.matchChance
    ensures var r := Influenced(cat, inf, basic, prev, draws, c);
      r.cell == prev || r.cell == WildCell(cat)
  {
  }

  /** A cell of a later reel relates to its left neighbour `left` as the
      influence allows: a copy of it, the catalog's wild, or an independent
      draw taken from the cursor range `[lo, hi)`. */
  predicate Neighbourly(cat: seq<Entry>, basic: Sampler, draws: Draws, lo: nat, hi: nat, left: Cell, cell: Cell)
  {
    cell == left || cell == WildCell(cat) || exists d :: lo <= d < hi && cell == basic(draws(d))
  }

  /** Every cell of `strip` is neighbourly to the cell at the same index of
      `left`. */
  predicate NeighbourlyStrip(cat: seq<Entry>, basic: Sampler, draws: Draws, lo: nat, hi: nat, left: seq<Cell>,
                             strip: seq<Cell>)
  {
    |strip| <= |left| && forall i :: 0 <= i < |strip| ==> Neighbourly(cat, basic, draws, lo, hi, left[i], strip[i])
  }

  /** Widening the cursor range keeps a cell neighbourly. */
  lemma NeighbourlyWiden(cat: seq<Entry>, basic: Sampler, draws: Draws, lo: nat, lo': nat, hi: nat, hi': nat,
                         left: Cell, cell: Cell)
    requires lo <= lo' && hi <= hi' && Neighbourly(cat, basic, draws, lo', hi, left, cell)
    ensures Neighbourly(cat, basic, draws, lo, hi', left, cell)
  {
  }

  /** Cell `i` of `strip` is the sampler applied to draw `c + i`. */
  predicate IndependentStrip(basic: Sampler, draws: Draws, c: nat, strip: seq<Cell>)
  {
    forall i :: 0 <= i < |strip| ==> strip[i] == basic(draws(c + i))
  }

  /** A strip of `len` independent draws starting at cursor `c`. */
  function BasicStrip(basic: Sampler, len: nat, draws: Draws, c: nat): (r: (seq<Cell>, nat))
    ensures |r.0| == len && r.1 == c + len
    ensures IndependentStrip(basic, draws, c, r.0)
  {
    if len == 0 then ([], c)
    else
      var (s, n) := BasicStrip(basic, len - 1, draws, c);
      (s + [basic(draws(n))], n + 1)
  }

  /** A strip of `len` cells influenced by the strip `prev` to its left. */
  function InfluencedStrip(cat: seq<Entry>, inf: Influence, basic: Sampler, prev: seq<Cell>, len: nat,
                           draws: Draws, c: nat): (r: (seq<Cell>, nat))
    requires len <= |prev|
    ensures |r.0| == len && c + len <= r.1 <= c + 3 * len
  {
    if len == 0 then ([], c)
    else
      var (s, n) := InfluencedStrip(cat, inf, basic, prev, len - 1, draws, c);
      var d := Influenced(cat, inf, basic, prev[len - 1], draws, n);
      (s + [d.cell], d.next)
  }

  /** Every cell of an influenced strip is neighbourly to the cell at the
      same index on the strip to its left, within the strip's draws. */
  lemma {:induction false} InfluencedStripNeighbourly(cat: seq<Entry>, inf: Influence, basic: Sampler, prev: seq<Cell>,
                                                      len: nat, draws: Draws, c: nat)
    requires len <= |prev|
    ensures NeighbourlyStrip(cat, basic, draws, c, InfluencedStrip(cat, inf, basic, prev, len, draws, c).1, prev,
                             InfluencedStrip(cat, inf, basic, prev, len, draws, c).0)
  {
    if len > 0 {
      InfluencedStripNeighbourly(cat, inf, basic, prev, len - 1, draws, c);
      var rest := InfluencedStrip(cat, inf, basic, prev, len - 1, draws, c);
      var d := Influenced(cat, inf, basic, prev[len - 1], draws, rest.1);
      var r := InfluencedStrip(cat, inf, basic, prev, len, draws, c);
      assert r.0 == rest.0 + [d.cell] && r.1 == d.next;
      NeighbourlyWiden(cat, basic, draws, c, rest.1, d.next, d.next, prev[len - 1], d.cell);
      forall i | 0 <= i < len - 1
        ensures Neighbourly(cat, basic, draws, c, r.1, prev[i], r.0[i])
      {
        NeighbourlyWiden(cat, basic, draws, c, c, rest.1, d.next, prev[i], rest.0[i]);
      }
    }
  }

  /** At a win rate of 0 an influenced strip is just a strip of independent
      draws: no cell copies its neighbour. */
  lemma {:induction false} InfluencedStripAtZeroRate(cat: seq<Entry>, inf: Influence, basic: Sampler, prev: seq<Cell>,
                                                     len: nat, draws: Draws, c: nat)
    requires len <= |prev| && !inf.active
    ensures InfluencedStrip(cat, inf, basic, prev, len, draws, c).1 == c + len
    ensures IndependentStrip(basic, draws, c, InfluencedStrip(cat, inf, basic, prev, len, draws, c).0)
  {
    if len > 0 {
      InfluencedStripAtZeroRate(cat, inf, basic, prev, len - 1, draws, c);
      var before := InfluencedStrip(cat, inf, basic, prev, len - 1, draws, c);
      var d := Influenced(cat, inf, basic, prev[len - 1], draws, before.1);
      assert d.cell == basic(draws(before.1)) && d.next == before.1 + 1;
      var r := InfluencedStrip(cat, inf, basic, prev, len, draws, c);
      forall i | 0 <= i < len
        ensures r.0[i] == basic(draws(c + i))
      {
        if i < len - 1 {
          assert r.0[i] == before.0[i];
        } else {
          assert r.0[i] == d.cell;
        }
      }
    }
  }



  /** The draws taken by `k` reels of `len` cells each, summed reel by reel. */
  function Stride(k: nat, len: nat): nat
  {
    if k == 0 then 0 else Stride(k - 1, len) + len
  }

  /** `k` reels of `len` draws take `k * len` draws. */
  lemma {:induction false} StrideIsProduct(k: nat, len: nat)
    ensures Stride(k, len) == k * len
  {
    if k > 0 {
      StrideIsProduct(k - 1, len);
      MulSuccInt(k - 1, len);
    }
  }

  /** Every cell of reel `k` is neighbourly to the cell at the same index on
      reel `k - 1`. */
  predicate NeighbourlyReel(cat: seq<Entry>, basic: Sampler, draws: Draws, lo: nat, hi: nat, ss: seq<seq<Cell>>, k: nat)
    requires 0 < k < |ss|
  {
    forall i :: 0 <= i < |ss[k]| && i < |ss[k - 1]| ==> Neighbourly(cat, basic, draws, lo, hi, ss[k - 1][i], ss[k][i])
  }

  /** Reels `0 .. reels-1`, each of `len` cells, drawn in reel order; the
      first reel, and every reel in randomize mode, is a strip of independent
      draws, later reels in physical mode are influenced by their left
      neighbour. */
  function Reels(cat: seq<Entry>, inf: Influence, basic: Sampler, randomize: bool, reels: nat, len: nat,
                 draws: Draws, c: nat): (r: (seq<seq<Cell>>, nat))
    ensures |r.0| == reels && r.1 >= c
    ensures forall k :: 0 <= k < reels ==> |r.0[k]| == len
    ensures reels > 0 ==> IndependentStrip(basic, draws, c, r.0[0])
  {
    if reels == 0 then ([], c)
    else
      var before := Reels(cat, inf, basic, randomize, reels - 1, len, draws, c);
      var strip := NextStrip(cat, inf, basic, randomize, before.0, len, draws, before.1);
      (before.0 + [strip.0], strip.1)
  }

  /** The strip of the reel drawn after `ss`, from cursor `n`: independent
      draws for the first reel and in randomize mode, otherwise influenced
      by the last reel of `ss`. */
  function NextStrip(cat: seq<Entry>, inf: Influence, basic: Sampler, randomize: bool, ss: seq<seq<Cell>>, len: nat,
                     draws: Draws, n: nat): (r: (seq<Cell>, nat))
    requires |ss| > 0 ==> len <= |ss[|ss| - 1]|
    ensures |r.0| == len && r.1 >= n
  {
    if randomize || |ss| == 0 then BasicStrip(basic, len, draws, n)
    else InfluencedStrip(cat, inf, basic, ss[|ss| - 1], len, draws, n)
  }

  lemma MulSuccInt(m: nat, len: nat)
    ensures (m + 1) * len == m * len + len
  {
  }

  /** Every cell of `ss` is missing or a catalog symbol. */
  predicate AllFromCatalog(cat: seq<Entry>, ss: seq<seq<Cell>>)
  {
    forall k, i :: 0 <= k < |ss| && 0 <= i < |ss[k]| ==> FromCatalog(cat, ss[k][i])
  }

  /** Cell `i` of reel `k` is the sampler applied to draw
      `c + k * len + i` (see `StrideIsProduct`). */
  predicate AllIndependent(basic: Sampler, draws: Draws, c: nat, len: nat, ss: seq<seq<Cell>>)
  {
    forall k :: 0 <= k < |ss| ==> IndependentStrip(basic, draws, c + Stride(k, len), ss[k])
  }

  /** Every reel after the first is neighbourly to the reel on its left. */
  predicate AllNeighbourly(cat: seq<Entry>, basic: Sampler, draws: Draws, lo: nat, hi: nat, ss: seq<seq<Cell>>)
  {
    forall k :: 0 < k < |ss| ==> NeighbourlyReel(cat, basic, draws, lo, hi, ss, k)
  }

  /** In randomize mode, or at a win rate of 0, the reels take `len` draws
      each: `reels * len` in all (see `StrideIsProduct`). */
  lemma {:induction false} ReelsCursor(cat: seq<Entry>, inf: Influence, basic: Sampler, randomize: bool, reels: nat,
                                       len: nat, draws: Draws, c: nat)
    requires randomize || !inf.active
    ensures Reels(cat, inf, basic, randomize, reels, len, draws, c).1 == c + Stride(reels, len)
  {
    if reels > 0 {
      ReelsCursor(cat, inf, basic, randomize, reels - 1, len, draws, c);
      var before := Reels(cat, inf, basic, randomize, reels - 1, len, draws, c);
      if !randomize && reels > 1 {
        InfluencedStripAtZeroRate(cat, inf, basic, before.0[reels - 2], len, draws, before.1);
      }
    }
  }

  /** In randomize mode, or at a win rate of 0, every cell is an independent
      draw, taken in reel order: cell `i` of reel `k` uses draw
      `c + k * len + i`. */
  lemma {:induction false} ReelsIndependent(cat: seq<Entry>, inf: Influence, basic: Sampler, randomize: bool, reels: nat,
                                            len: nat, draws: Draws, c: nat)
    requires randomize || !inf.active
    ensures AllIndependent(basic, draws, c, len, Reels(cat, inf, basic, randomize, reels, len, draws, c).0)
  {
    if reels > 0 {
      var fewer := reels - 1;
      ReelsIndependent(cat, inf, basic, randomize, fewer, len, draws, c);
      ReelsCursor(cat, inf, basic, randomize, fewer, len, draws, c);
      var before := Reels(cat, inf, basic, randomize, fewer, len, draws, c);
      var ss, n := before.0, before.1;
      var strip := NextStrip(cat, inf, basic, randomize, ss, len, draws, n);
      if !randomize && reels > 1 {
        InfluencedStripAtZeroRate(cat, inf, basic, ss[reels - 2], len, draws, n);
      }
      var r := Reels(cat, inf, basic, randomize, reels, len, draws, c);
      assert r.0 == ss + [strip.0];
      AllIndependentSnoc(basic, draws, c, len, ss, strip.0, n);
    }
  }

  /** Appending the strip of the next `len` independent draws keeps every
      reel at its place in the draw order. */
  lemma AllIndependentSnoc(basic: Sampler, draws: Draws, c: nat, len: nat, ss: seq<seq<Cell>>, strip: seq<Cell>, n: nat)
    requires AllIndependent(basic, draws, c, len, ss)
    requires n == c + Stride(|ss|, len) && IndependentStrip(basic, draws, n, strip)
    ensures AllIndependent(basic, draws, c, len, ss + [strip])
  {
    var r := ss + [strip];
    forall k | 0 <= k < |r|
      ensures IndependentStrip(basic, draws, c + Stride(k, len), r[k])
    {
      if k < |ss| {
        assert r[k] == ss[k];
      }
    }
  }




  /** In physical mode every cell of a later reel copies its left neighbour,
      is the wild, or is an independent draw. */
  lemma {:induction false} ReelsNeighbourly(cat: seq<Entry>, inf: Influence, basic: Sampler, reels: nat, len: nat,
                                            draws: Draws, c: nat)
    ensures AllNeighbourly(cat, basic, draws, c, Reels(cat, inf, basic, false, reels, len, draws, c).1,
                           Reels(cat, inf, basic, false, reels, len, draws, c).0)
  {
    if reels > 1 {
      var fewer := reels - 1;
      ReelsNeighbourly(cat, inf, basic, fewer, len, draws, c);
      var before := Reels(cat, inf, basic, false, fewer, len, draws, c);
      var ss, n := before.0, before.1;
      assert AllNeighbourly(cat, basic, draws, c, n, ss);
      var r := Reels(cat, inf, basic, false, reels, len, draws, c);
      var strip := InfluencedStrip(cat, inf, basic, ss[reels - 2], len, draws, n);
      InfluencedStripNeighbourly(cat, inf, basic, ss[reels - 2], len, draws, n);
      assert r.0 == ss + [strip.0] && r.1 == strip.1;
      forall k | 0 < k < reels
        ensures NeighbourlyReel(cat, basic, draws, c, r.1, r.0, k)
      {
        if k < fewer {
          assert NeighbourlyReel(cat, basic, draws, c, n, ss, k);
          forall i | 0 <= i < len
            ensures Neighbourly(cat, basic, draws, c, r.1, r.0[k - 1][i], r.0[k][i])
          {
            NeighbourlyWiden(cat, basic, draws, c, c, n, r.1, ss[k - 1][i], ss[k][i]);
          }
        } else {
          forall i | 0 <= i < len
            ensures Neighbourly(cat, basic, draws, c, r.1, r.0[k - 1][i], r.0[k][i])
          {
            NeighbourlyWiden(cat, basic, draws, c, n, r.1, r.1, ss[reels - 2][i], strip.0[i]);
          }
        }
      }
    }
  }

  /** Every cell of the reels comes from the catalog when the sampler's
      cells do, since the influence only copies, picks the wild or samples. */
  lemma {:induction false} ReelsFromCatalog(cat: seq<Entry>, inf: Influence, basic: Sampler, randomize: bool, reels: nat,
                                            len: nat, draws: Draws, c: nat)
    requires forall u :: FromCatalog(cat, basic(u))
    ensures AllFromCatalog(cat, Reels(cat, inf, basic, randomize, reels, len, draws, c).0)
  {
    if reels > 0 {
      var fewer := reels - 1;
      ReelsFromCatalog(cat, inf, basic, randomize, fewer, len, draws, c);
      var before := Reels(cat, inf, basic, randomize, fewer, len, draws, c);
      var ss, n := before.0, before.1;
      assert AllFromCatalog(cat, ss);
      var r := Reels(cat, inf, basic, randomize, reels, len, draws, c);
      var strip := NextStrip(cat, inf, basic, randomize, ss, len, draws, n);
      assert r.0 == ss + [strip.0];
      if !(randomize || reels == 1) {
        InfluencedStripNeighbourly(cat, inf, basic, ss[reels - 2], len, draws, n);
      }
      forall i | 0 <= i < len
        ensures FromCatalog(cat, strip.0[i])
      {
        if !(randomize || reels == 1) {
          assert FromCatalog(cat, ss[reels - 2][i]);
          var cell := strip.0[i];
          assert Neighbourly(cat, basic, draws, n, strip.1, ss[reels - 2][i], cell);
          if cell != ss[reels - 2][i] && cell != WildCell(cat) {
            var d :| n <= d < strip.1 && cell == basic(draws(d));
            assert FromCatalog(cat, basic(draws(d)));
          }
        } else {
          assert FromCatalog(cat, basic(draws(n + i)));
        }
      }
      forall k, i | 0 <= k < reels && 0 <= i < |r.0[k]|
        ensures FromCatalog(cat, r.0[k][i])
      {
        if k < fewer {
          assert r.0[k] == ss[k];
        }
      }
    }
  }

  /** The sampler of the strips: `BasicSymbol` over a catalog. */
  function CatalogSampler(cat: seq<Entry>, t: Tuning): (s: Sampler)
    ensures forall u :: s(u) == BasicSymbol(cat, t, u)
    ensures forall u :: FromCatalog(cat, s(u))
  {
    u => BasicSymbol(cat, t, u)
  }

  /** The strips of a spin set-up: normalise the catalog, lengthen the strip
      to at least 32 cells, then draw every reel. */
  function GenerateReelStrips(cat: seq<Entry>, t: Tuning, randomize: bool, reels: nat,
                              stripLength: int, draws: Draws, c: nat): (r: StripSet)
    ensures r.length >= MinStripLength && r.length >= stripLength
    ensures r.length == MinStripLength || r.length == stripLength
    ensures |r.catalog| == |cat| && forall i :: 0 <= i < |cat| ==> r.catalog[i].sym == cat[i].sym
    ensures |cat| > 0 ==> Sum(Probs(r.catalog)) == 1.0
    ensures |r.strips| == reels && forall k :: 0 <= k < reels ==> |r.strips[k]| == r.length
    ensures r.catalog == Normalize(cat, t.wildRarity, t.scatterRarity)
    ensures (r.strips, r.next) == Reels(r.catalog, InfluenceOf(t), CatalogSampler(r.catalog, t), randomize, reels, r.length, draws, c)
  {
    var norm := Normalize(cat, t.wildRarity, t.scatterRarity);
    var len := Max(stripLength, MinStripLength);
    var rs := Reels(norm, InfluenceOf(t), CatalogSampler(norm, t), randomize, reels, len, draws, c);
    StripSet(norm, rs.0, len, rs.1)
  }

  /** Every generated cell is missing or a symbol of the theme. */
  lemma StripsFromCatalog(cat: seq<Entry>, t: Tuning, randomize: bool, reels: nat, stripLength: int, draws: Draws, c: nat)
    ensures AllFromCatalog(cat, GenerateReelStrips(cat, t, randomize, reels, stripLength, draws, c).strips)
  {
    var r := GenerateReelStrips(cat, t, randomize, reels, stripLength, draws, c);
    var basic := CatalogSampler(r.catalog, t);
    ReelsFromCatalog(r.catalog, InfluenceOf(t), basic, randomize, reels, r.length, draws, c);
    assert r.strips == Reels(r.catalog, InfluenceOf(t), basic, randomize, reels, r.length, draws, c).0;
    CellsCarryOver(r.catalog, cat, r.strips);
  }

  /** Catalogs with the same symbols accept the same cells. */
  lemma CellsCarryOver(norm: seq<Entry>, cat: seq<Entry>, ss: seq<seq<Cell>>)
    requires |norm| == |cat| && forall i :: 0 <= i < |cat| ==> norm[i].sym == cat[i].sym
    requires AllFromCatalog(norm, ss)
    ensures AllFromCatalog(cat, ss)
  {
    forall k, i | 0 <= k < |ss| && 0 <= i < |ss[k]|
      ensures FromCatalog(cat, ss[k][i])
    {
      var cell := ss[k][i];
      assert FromCatalog(norm, cell);
      if cell.Some? {
        var j :| 0 <= j < |norm| && norm[j].sym == cell.value;
        assert cat[j].sym == cell.value;
      }
    }
  }

  /** In randomize mode, or at a win rate of 0, the generated strips are
      independent draws from the normalised catalog, in reel order. */
  lemma StripsIndependent(cat: seq<Entry>, t: Tuning, randomize: bool, reels: nat, stripLength: int, draws: Draws, c: nat)
    requires randomize || t.winRate <= 0
    ensures var r := GenerateReelStrips(cat, t, randomize, reels, stripLength, draws, c);
      AllIndependent(CatalogSampler(r.catalog, t), draws, c, r.length, r.strips)
  {
    var r := GenerateReelStrips(cat, t, randomize, reels, stripLength, draws, c);
    ReelsIndependent(r.catalog, InfluenceOf(t), CatalogSampler(r.catalog, t), randomize, reels, r.length, draws, c);
  }

  /** In physical mode each cell of a later reel copies its left neighbour,
      is the wild, or is an independent draw. */
  lemma StripsNeighbourly(cat: seq<Entry>, t: Tuning, reels: nat, stripLength: int, draws: Draws, c: nat)
    ensures var r := GenerateReelStrips(cat, t, false, reels, stripLength, draws, c);
      AllNeighbourly(r.catalog, CatalogSampler(r.catalog, t), draws, c, r.next, r.strips)
  {
    var r := GenerateReelStrips(cat, t, false, reels, stripLength, draws, c);
    ReelsNeighbourly(r.catalog, InfluenceOf(t), CatalogSampler(r.catalog, t), reels, r.length, draws, c);
  }
}

=== FILE: symbols.dfy ===
/** The symbol vocabulary of a theme. A theme's catalog is an ordered list of
    entries; sampling walks it in order, and several lookups return the FIRST
    entry that satisfies a test, so the order matters. */
module Symbols {

  datatype Option<T> = None | Some(value: T)

  /** A reel symbol. Regular symbols are identified by `id` and pay `value`;
      the wild and the scatter pay nothing on their own. */
  datatype Symbol = Regular(id: string, value: int) | Wild | Scatter

  /** A catalog entry: a symbol and its current probability weight. */
  datatype Entry = Entry(sym: Symbol, probability: real)

  /** A reel-strip or grid cell as the engine stores it: `None` stands for an
      object without an id (what spreading an absent catalog entry yields),
      which the projection treats as a missing symbol. */
  type Cell = Option<Symbol>

  /** The payout value of a symbol (0 for the wild and the scatter). */
  function Value(s: Symbol): int
  {
    if s.Regular? then s.value else 0
  }

  /** Two symbols carry the same id. The engine compares symbols by id, so
      two regular entries with one id but different values are the same
      symbol for matching purposes. */
  predicate SameId(a: Symbol, b: Symbol)
  {
    match a
    case Regular(i, _) => b.Regular? && b.id == i
    case Wild => b.Wild?
    case Scatter => b.Scatter?
  }

  /** Index of the first catalog entry whose symbol has the id of `s`. */
  function FirstWithId(cat: seq<Entry>, s: Symbol): (r: Option<nat>)
    ensures r.Some? ==> r.value < |cat| && SameId(cat[r.value].sym, s)
    ensures r.Some? ==> forall j :: 0 <= j < r.value ==> !SameId(cat[j].sym, s)
    ensures r.None? <==> forall j :: 0 <= j < |cat| ==> !SameId(cat[j].sym, s)
  {
    if |cat| == 0 then None
    else if SameId(cat[0].sym, s) then Some(0)
    else match FirstWithId(cat[1..], s)
      case None => None
      case Some(i) => Some(i + 1)
  }

  /** No two entries of the catalog share an id. */
  predicate UniqueIds(cat: seq<Entry>)
  {
    forall i, j :: 0 <= i < |cat| && 0 <= j < |cat| && i != j ==> !SameId(cat[i].sym, cat[j].sym)
  }

  /** The symbols of a catalog, in order. */
  function Syms(cat: seq<Entry>): (r: seq<Symbol>)
    ensures |r| == |cat|
    ensures forall i :: 0 <= i < |cat| ==> r[i] == cat[i].sym
  {
    seq(|cat|, i requires 0 <= i < |cat| => cat[i].sym)
  }

  /** The classic fruit theme; the wild and scatter weights come from the
      rarity settings. */
  function ClassicTheme(wildRarity: real, scatterRarity: real): seq<Entry>
  {
    [ Entry(Regular("cherry", 5), 0.3),
      Entry(Regular("lemon", 10), 0.25),
      Entry(Regular("orange", 15), 0.2),
      Entry(Regular("grapes", 25), 0.15),
      Entry(Regular("bell", 50), 0.07),
      Entry(Regular("diamond", 100), 0.02),
      Entry(Regular("star", 200), 0.01),
      Entry(Wild, wildRarity),
      Entry(Scatter, scatterRarity) ]
  }

  /** The classic theme at the default rarities (wild 5%, scatter 3%). */
  function Classic(): seq<Entry>
  {
    ClassicTheme(0.05, 0.03)
  }

  /** A one-character tag of a symbol's id: symbols with one id share it. */
  function Tag(s: Symbol): char
  {
    match s
    case Regular(i, _) => if |i| > 0 then i[0] else ' '
    case Wild => '*'
    case Scatter => '$'
  }

  lemma ClassicHasUniqueIds()
    ensures UniqueIds(Classic())
  {
    var c := Classic();
    var tags := "clogbds*$";
    assert forall i :: 0 <= i < |c| ==> Tag(c[i].sym) == tags[i];
    forall i, j | 0 <= i < |c| && 0 <= j < |c| && i != j
      ensures !SameId(c[i].sym, c[j].sym)
    {
      assert tags[i] != tags[j];
    }
  }
}
